=== FILE: README.md ===
# kube: log resolution, pod ordering, log consumption, events and API resources

This project is a Dafny model of the pure logic at the core of `kube`. `kube` is a Go
library and command-line front end that reads container logs and lists events and API
resources of a Kubernetes cluster. The model covers:

- **Pods** (`util/pods.go`):
  - container lookup by name, with its field path;
  - readiness, availability and ready time;
  - the largest restart count;
  - the two six-step pod orderings: `ByLogging`, which picks the pod to read logs from, and
    its mirror `ActivePods`, which ranks pods for deletion;
  - the pure branch of `GetFirstPod`.
- **Helpers** (`util/helpers.go`): the pod selector of a workload object, and the RFC 3339
  parser with its two layouts (section 5.6 of RFC 3339).
- **LogsForObjects** (`logs/logsforobjects.go`): expanding a pod list, a pod, all of a pod's
  containers, or a workload object into a map from container references to log requests.
- **Logs** (`logs/logs.go`):
  - option defaults and the conversion to `PodLogOptions`;
  - the follow-concurrency guard in `Do`;
  - the sequential consumer and its error policy;
  - the per-container line prefix, including the field-path regular expression;
  - the prefixing writer's count;
  - the line-copying consumer.
- **Records** (`logs/record.go`): the tab-separated record parser, `Record.String`, and the
  record consumer that skips zero-timestamp records.
- **Events** (`events/events.go`):
  - type validation and case-insensitive filtering;
  - event-time selection and time ordering;
  - the empty-result errors;
  - the `resource/name` decoder.
- **ApiResources** (`apiresources/apiresources.go`): the resource filters, the two-key
  comparator with its stable sort, and the rule that a discovery error discards all results.

Conventions:

- Strings and byte slices are `string`, one character per byte.
- A time is an integer count of nanoseconds after Go's zero instant, so `ZeroTime` (0) is
  what `IsZero` tests, not the Unix epoch.
- The following library and cluster calls are function-typed parameters, and the model
  assumes nothing about them:
  - `time.Parse` and `time.Format`;
  - `LabelSelectorAsSelector`;
  - the REST mapper;
  - `schema.ParseGroupVersion`;
  - pod list and watch, event listing and discovery;
  - the underlying writer;
  - the per-stream consumer.
- The comparators are proved to be strict weak orders, as Go's `sort` package requires.
- One stable insertion sort (`Sorting.Sort`) stands for `sort.Stable`. It also stands for
  `sort.Sort`, whose output order among tied elements is one that `sort.Sort` may produce.

Behaviour of the code that its comments or names do not suggest:

- When no container is named, a single pod's logs come from its **first regular
  container**. The "all containers" default is commented out at logs/logs.go:100-102.
- `Since` is rounded to the **nearest** second, with halves away from zero (`Round`).
  The source's comment says "round up", but the code rounds to nearest.
- `ActivePods` is not an exact mirror of `ByLogging`. Both orders put the pod with more
  restarts first. Unlisted phases (Succeeded, Failed) rank 0 in both, which is the best rank
  for logging and the first rank for deletion.
- A trailing line without a newline is dropped by both consumers (see Findings).
- Listing events, as written, ends in a panic once the options complete and validate: the
  client is never set (see Findings). The model's `Events.Do` is the corrected version.

## Model

| member | source | states |
|---|---|---|
| Pods.FindContainerByName | util/pods.go:78-96 | searches regular, then init, then ephemeral containers and returns the first container with that name, with the field path of its role; no match gives no container and an empty path, exactly when no role declares the name |
| Pods.FieldPathInjective | util/pods.go:78-96 | two field paths are equal only for the same role and the same container name |
| Pods.FoundPathNamesContainer | util/pods.go:78-96 | two names found in one pod under the same field path are the same name |
| Pods.PhaseOf | util/pods.go:168-171 | a phase string is read as the named phase it spells, and as `OtherPhase` exactly when it spells none of the five; the phase's name is the string read |
| Pods.PhaseOfName | util/pods.go:206-209 | reading the name of a phase whose `OtherPhase` name aliases no named phase gives that phase back |
| Pods.ContainerLabels | util/pods.go:62-74 | the labels `AllContainerNames` joins: regular names, then ephemeral names tagged " (ephem)", then init names tagged " (init)", one per container |
| Pods.AllContainerNames | util/pods.go:62-74 | empty for a pod without containers; when no container name has a comma, splitting the list on commas gives back one label per container, in order, each after the first led by the space of its ", " separator |
| Pods.ConditionIndex | util/pods.go:145-155 | the index of the first condition of the given type, -1 exactly when no condition has that type |
| Pods.ReadyConditionOf | util/pods.go:127-141 | no condition exactly when the pod has no condition of type Ready; otherwise the first condition of that type |
| Pods.IsPodReady | util/pods.go:116-125 | ready exactly when some condition has type Ready and status True and no earlier condition has type Ready: only the first Ready condition counts |
| Pods.IsPodAvailable | util/pods.go:98-114 | availability implies readiness; a ready pod with no minimum ready period is available; with a period, a ready pod is available exactly when its transition time is set and that time plus the period is strictly before now |
| Pods.AvailabilityMonotone | util/pods.go:103-114 | an available pod stays available at any later time and under any shorter non-negative minimum ready period |
| Pods.ReadyTimeIn | util/pods.go:243-251 | the transition time of the first condition that is both Ready and True, the zero time when no condition is |
| Pods.PodReadyTime | util/pods.go:243-251 | the transition time of the pod's first condition that is both Ready and True, the zero time when it has none |
| Pods.ReadyTimeOfReadyPod | util/pods.go:243-251 | for a ready pod, the ready time is the transition time of the Ready condition that readiness was read from |
| Pods.MaxRestarts | util/pods.go:253-259 | the largest restart count is at least 0 and at least every container's count, and it is 0 or attained by some container |
| Pods.MaxContainerRestarts | util/pods.go:253-259 | the pod's largest container restart count: at least 0, at least every status's count, and 0 or attained by some status |
| Pods.AfterOrZero | util/pods.go:234-241 | a zero first time is after any time; a non-zero time is never after the zero time; two non-zero times compare by plain `>` |
| Pods.AfterOrZeroZeroIsLast | util/pods.go:234-241 | two zero times are each "after" the other; of two distinct times exactly one is after the other, with zero after any non-zero time and plain `>` otherwise |
| Pods.ByLoggingLess | util/pods.go:163-192 | `ByLogging.Less` is the lexicographic order of the key (assigned, phase rank, ready, ready time with zero last, restarts descending, creation time with zero last) |
| Pods.ActivePodsLess | util/pods.go:200-232 | `ActivePods.Less` is the lexicographic order of the inverted key, with restarts still descending |
| Pods.ByLoggingIsStrictWeakOrder | util/pods.go:157-192 | `ByLogging.Less` is irreflexive, transitive and negatively transitive |
| Pods.ActivePodsIsStrictWeakOrder | util/pods.go:194-232 | `ActivePods.Less` is irreflexive, transitive and negatively transitive |
| Pods.ByLoggingTies | util/pods.go:163-192 | `ByLogging.Less` is irreflexive and asymmetric, and it is false both ways exactly when all six keys tie |
| Pods.ActivePodsMirrorsByLogging | util/pods.go:200-232 | for pods in ranked phases with equal restart counts, `a` is deleted before `b` exactly when `b` is better for logging than `a` |
| Pods.RestartsRankAlikeInBothOrders | util/pods.go:183-186 | when the first four keys tie, both orders put the pod with more restarts first |
| Pods.FirstByLogging | util/pods.go:32-34 | the pod chosen from a non-empty list is a member that no other member ranks before |
| Pods.GetFirstPod | util/pods.go:20-59 | a list error is returned as is; a non-empty list gives its best pod for logging and the list's size; an empty list gives the watched pod with count 1, or the watch error |
| Helpers.SelectorsForObject | util/helpers.go:23-129 | set-based kinds convert their label selector, and a failed conversion gives an "invalid label selector" error; a ReplicationController always succeeds with its plain label set; a Service with a nil or empty selector is an error, otherwise its plain label set; any other kind gives "selector for T not implemented"; on success the namespace is the object's own |
| Helpers.ParseRFC3339 | util/helpers.go:132-142 | the nanosecond layout is tried first, then plain RFC 3339; when both fail, the zero time and the second parse's error |
| LogsForObjects.ChosenContainer | logs/logsforobjects.go:67-73 | the named container, or the first regular container when none is named |
| LogsForObjects.ResolveContainer | logs/logsforobjects.go:61-86 | succeeds exactly when some role declares the chosen container; the error names the container and the pod; success is one request keyed by the container's reference, carrying the caller's options with only the container set |
| LogsForObjects.MergeAll | logs/logsforobjects.go:46-57 | the fold succeeds exactly when every part succeeds; a failure is the first failing part and no partial map is kept; single-entry parts give at most one entry each |
| LogsForObjects.MergeAllKeys | logs/logsforobjects.go:53-55 | a reference is in the union exactly when some part holds it |
| LogsForObjects.MergeAllEntries | logs/logsforobjects.go:97-99 | every entry of the union comes from some part |
| LogsForObjects.ResolveEach | logs/logsforobjects.go:89-124 | one resolution per name in order; succeeds exactly when every name resolves, otherwise fails with the first failing name's error; at most one request per name; on success a reference is a key exactly when it is the reference of some name's chosen container, and the request under each chosen container's reference asks that pod for that container with the caller's other options |
| LogsForObjects.AttemptValues | logs/logsforobjects.go:89-124 | the merged per-name attempts hold, under each chosen container's reference, the request for that container, since one reference cannot name two containers |
| LogsForObjects.AttemptKeys | logs/logsforobjects.go:89-124 | the merged per-name attempts hold a request under the reference of every name's chosen container and under no other reference |
| LogsForObjects.ResolveEachCarriesOptions | logs/logsforobjects.go:90-93 | every request carries the caller's options with only the container changed, so the caller's options are untouched |
| LogsForObjects.ResolvePod | logs/logsforobjects.go:59-124 | without allContainers, one container; with it, every init, regular and ephemeral container in that order |
| LogsForObjects.AllContainersResolve | logs/logsforobjects.go:89-124 | with allContainers, resolution succeeds, holds at most one request per declared container, and each request's options differ from the caller's only in the container; its keys are exactly the references of the declared containers, so every named container's reference is present, and the request under each declared container's reference asks for that container |
| LogsForObjects.ResolveList | logs/logsforobjects.go:46-57 | a pod list succeeds exactly when every member does; otherwise it fails with the first failing member's error; on success every request is the one some member pod resolves to under the same reference |
| LogsForObjects.PodAttemptEntries | logs/logsforobjects.go:46-57 | every entry of the merged per-pod results is an entry of some member pod's own result |
| LogsForObjects.ResolveListKeys | logs/logsforobjects.go:46-57 | a successful list holds exactly the references its members resolve to |
| LogsForObjects.ResolveObject | logs/logsforobjects.go:39-141 | options that are not PodLogOptions are an error before anything is resolved; pod lists and pods are expanded; any other object goes through its selector, with the same allContainers flag |
| LogsForObjects.ResolveSelected | logs/logsforobjects.go:127-141 | a selector error is wrapped as "cannot get the logs from T"; a pod lookup error is returned as is; otherwise the best pod for logging is resolved |
| Logs.ApplyDefaults | logs/logs.go:104-130 | a negative byte limit becomes 0, a negative since becomes 0, a non-positive timeout becomes 20 s, a non-positive tail becomes -1, and a non-positive concurrency becomes 5; values already in range are kept, so options already in range are returned unchanged |
| Logs.ApplyDefaultsKeepsTheRest | logs/logs.go:104-130 | the defaults leave every non-numeric option unchanged |
| Logs.ApplyDefaultsIdempotent | logs/logs.go:104-130 | applying the defaults twice equals applying them once |
| Logs.NearestSecondsIsNearest | logs/logs.go:80-84 | the seconds `Round(time.Second)` picks are within half a second of the duration, a tie going away from zero |
| Logs.RoundToSecond | logs/logs.go:80-84 | `Round(time.Second)`: away from the int64 bounds, a whole number of seconds within half a second of the duration, a tie going away from zero; the sign is kept |
| Logs.RoundToSecondInRange | logs/logs.go:80-84 | away from the int64 bounds the rounding does not saturate: it is exactly the nearest whole second |
| Logs.SinceSeconds | logs/logs.go:80-84 | away from the int64 bounds, the whole seconds nearest to the duration; non-negative for a non-negative duration |
| Logs.ToLogOptions | logs/logs.go:58-94 | fails exactly when a since-time is given and neither layout parses it; copies the flags; sets since-time only when given, limit-bytes only when non-zero, since-seconds only when non-zero; tail is 10 for a selector with tail -1, tail when it is not -1, unset otherwise |
| Logs.DefaultedOptionsArePositive | logs/logs.go:76-91 | after the defaults, every byte limit and tail sent is positive and since-seconds is not negative |
| Logs.ObjectToLog | logs/logs.go:140-162 | the caller's object, else the builder's error, else "expected a resource" unless exactly one object without a selector, else "no resources found in ns namespace" for an empty pod list |
| Logs.Complete | logs/logs.go:96-165 | the result is the defaulted options, the request options built from them, and the object; it fails exactly when one of those steps fails |
| Logs.Dispatch | logs/logs.go:177-188 | a follow over more than one request is an error exactly when the count exceeds the limit, with the "maximum allowed concurrency" message; within the limit it runs in parallel; anything else runs sequentially |
| Logs.Do | logs/logs.go:167-189 | a complete error is returned as is; then a resolve error is returned as is; otherwise the result is the concurrency guard applied to the follow flag, the defaulted limit and the resolved requests |
| Logs.CaptureAfter | logs/logs.go:97-98 | after a role head, the capture runs to the last `}` of the line and is non-empty and newline-free; there is none exactly when no `}` follows the first character on that line |
| Logs.MatchAt | logs/logs.go:97-98 | a capture of the field-path expression is non-empty and on one line |
| Logs.MatchAtShape | logs/logs.go:97-98 | a match at a position is a role head there, then the text after it up to the last `}` of the line: the capture sits right after the head, is followed by `}`, and no later `}` is on the line; there is none exactly when no head starts there or no `}` follows the first character after the head on that line |
| Logs.FindFromLeftmost | logs/logs.go:248-251 | the search reports the capture of the leftmost match |
| Logs.FindFromNone | logs/logs.go:248-251 | the search finds nothing only when no position matches |
| Logs.FindFromFinds | logs/logs.go:248-251 | the search finds something whenever some later position matches |
| Logs.FindFromStart | logs/logs.go:248-251 | searching the whole text finds nothing exactly when no position matches, and otherwise gives the capture of the leftmost match |
| Logs.ContainerNameOf | logs/logs.go:248-251 | `FindStringSubmatch(...)[1]`: nothing exactly when no position starts a match; otherwise the capture of the leftmost match, non-empty and on one line |
| Logs.ContainerNameOfFieldPath | logs/logs.go:97-98 | the container name is read back from any field path the resolver builds |
| Logs.PrefixFor | logs/logs.go:239-258 | no prefix exactly when prefixing is off, the field path is empty or the pod name is empty; otherwise `[pod/<name>/<container>] `, with an empty container when the expression does not match |
| Logs.PrefixOfResolvedRef | logs/logs.go:239-258 | a resolved request is prefixed with its pod's and its container's own names |
| Logs.PrefixingWrite | logs/logs.go:296-311 | empty input gives (0, nil) without a write; otherwise one underlying write of prefix and data, whose error is passed on; the count never exceeds len(p); it is len(p) whenever the underlying write reports more than len(p) bytes, so in particular after a complete write, and the underlying count when that is at most len(p) |
| Logs.Lines | logs/logs.go:276-288 | every line read ends in its only newline; together the lines are a prefix of the data, and no newline remains after them |
| Logs.LinesOfConcat | logs/logs.go:276-288 | reading back lines followed by newline-free text gives exactly those lines |
| Logs.LinesIgnoreUnterminatedTail | logs/logs.go:276-288 | text without a newline after complete lines adds no line |
| Logs.DefaultConsumeRequest | logs/logs.go:268-289 | an open error is returned unchanged; the writes are the stream's complete lines in order; the first write that fails ends the copy with its error, after that write; when every write succeeds, the writes are the data up to its last newline and the result is the read error, none at the end of the stream |
| Logs.DefaultConsumeDropsLastLine | logs/logs.go:276-283 | "a\nb" writes only "a\n": the unterminated last line is lost |
| Logs.ConsumeFlushingTail | logs/logs.go:260-263 | the consumer its comment describes: the writes are non-empty and all but the last are lines; the first failing write ends the copy with its error; when every write succeeds they concatenate to the whole data |
| Logs.FlushingTailExtendsDefault | logs/logs.go:276-288 | under the same write errors, the corrected consumer makes the original's writes plus, at most, the unterminated tail |
| Logs.CopiedVerbatim | logs/logs.go:260-263 | without a prefix, and when every write succeeds, the corrected consumer reproduces the stream exactly |
| Logs.PrefixedLines | logs/logs.go:296-311 | lines written through a prefixing writer come out as the same lines, each with the prefix in front |
| Logs.SequentialConsume | logs/logs.go:224-237 | when errors are ignored the walk never fails; otherwise it fails exactly when some stream fails, with the first failure |
| Logs.SequentialStopsAtFirstFailure | logs/logs.go:224-230 | with errors not ignored, the walk stops at the first failing stream: the output is the earlier streams' writes and that stream's writes, nothing from later streams, and the result is its error |
| Logs.SequentialOutcomeIsOrderFree | logs/logs.go:224-227 | whether the walk fails does not depend on the (unspecified) map order |
| Logs.SequentialOutputConcatenates | logs/logs.go:224-237 | with errors ignored, or when every stream succeeds, the output is each stream's (prefixed) writes followed by "error: msg" lines for failed streams, in walk order |
| Records.CutAtSpace | logs/record.go:52-55 | the text before the first space: space-free, the whole text when there is no space, otherwise a proper prefix followed by a space |
| Records.ParsedOrZero | logs/record.go:56 | the parsed time, or the zero time when parsing fails |
| Records.NewRecord | logs/record.go:48-62 | fewer than three fields give the zero record; otherwise the timestamp is the first field cut at a space, level and source are fields 2 and 3 verbatim, and msg is the rest joined with spaces and trimmed; no field holds a tab |
| Records.LineWithoutTabsIsEmpty | logs/record.go:50-51 | a line without tabs gives the zero record |
| Records.NewRecordRoundTrip | logs/record.go:48-62 | a record written as four tab-separated fields and a newline is read back, without the newline |
| Records.ThreeFieldsKeepNewlineInSource | logs/record.go:57-59 | with exactly three fields the newline stays in the source and msg is empty |
| Records.TimestampIsCutAtSpace | logs/record.go:52-56 | only the first field's text before a space is parsed |
| Records.RecordString | logs/record.go:38-45 | the printed record is the formatted time, the level, the source and the message, in that order, each separated by a single space |
| Records.RecordStringSplits | logs/record.go:38-45 | space-free fields are read back by splitting the printed record at spaces |
| Records.Kept | logs/record.go:94-97 | the kept records are no more than those given, and each has a non-zero timestamp |
| Records.KeptAllOrNone | logs/record.go:94-97 | when every timestamp is set the records are kept whole and in order; when none is, nothing is kept |
| Records.KeptMembers | logs/record.go:94-97 | a record reaches the handler exactly when it was parsed from a line and its timestamp is not zero |
| Records.HandleRecords | logs/record.go:94-101 | the handled records are, in order, a prefix of the non-zero records; all of them without an error; with an error, the last handled record produced it and every earlier one did not |
| Records.HandleRecordsAllPass | logs/record.go:94-101 | when no kept record fails, every kept record is handled and no error ends the walk |
| Records.HandleRecordsStopsAtFirstError | logs/record.go:94-101 | when the k-th kept record is the first to fail, exactly the kept records up to it are handled and its error ends the walk |
| Records.ConsumeRecords | logs/record.go:77-103 | an open error is returned unchanged; the records of complete lines are handled in stream order; when the k-th kept record is the first whose handler fails, exactly the first k+1 are handled and its error is returned; when none fails, all are handled and the read error is returned (none at end of stream) |
| Records.UnterminatedTailIgnored | logs/record.go:84-92 | text after the last newline never reaches the handler |
| Events.Validate | events/events.go:73-81 | succeeds exactly when every filter entry is Normal or Warning, ignoring case |
| Events.AnyMatches | events/events.go:155-161 | true exactly when some filter entry equals the type, ignoring case |
| Events.FilteredEventType | events/events.go:150-162 | an empty filter lets everything through; otherwise true exactly when some entry matches, ignoring case |
| Events.FilterIgnoresCase | events/events.go:150-162 | two types that differ only in case pass the same filter |
| Events.ValidFilterPassesOnlyKnownTypes | events/events.go:73-81 | behind a valid non-empty filter, only Normal and Warning events pass |
| Events.EventTime | events/events.go:207-215 | a series' last observation when there is a series; otherwise the last timestamp when it is non-zero, else the event time |
| Events.EventLess | events/events.go:201-203 | the lexicographic order of the one-element time key; two events with series compare by their last observations, and two without series but with last timestamps compare by those |
| Events.EventLessIsStrictWeakOrder | events/events.go:201-203 | the event order is a strict weak order in which events tie exactly when their times are equal |
| Events.WithDefaultKind | events/events.go:123-128 | an event without a kind gets kind Event, version v1, no group; an event with a kind is kept unchanged; no other field changes |
| Events.Filtered | events/events.go:118-132 | never more events than listed, each passing the filter and having a kind; when every listed event passes, all are kept in order with their kinds defaulted; when none passes, nothing is kept |
| Events.FilteredMembers | events/events.go:118-132 | an event is kept exactly when it is the defaulted form of a listed event whose type passes |
| Events.NoFilterKeepsAll | events/events.go:151-153 | with no filter every listed event is kept |
| Events.Run | events/events.go:84-144 | a list error is returned; an empty filtered result is "no events found", plus " in ns namespace" unless all namespaces; otherwise a permutation of the filtered events, non-decreasing in event time |
| Events.RunKeepsOnlyFiltered | events/events.go:118-141 | every event returned passes the filter and has a kind |
| Events.ListNamespace | events/events.go:86-89 | all namespaces list namespace "" |
| Events.InvolvedObject | events/events.go:91-95 | the list is restricted to the named object's kind and name exactly when a name is set |
| Events.DecodeResourceTypeName | events/events.go:166-188 | no slash gives not-found without an error; a split into other than two parts is the "more than one slash" error; found exactly when there is no error, with the second part as the name and the mapper's kind; an error from `ResourceFor` or, after it, from `KindFor` is returned as it is, with the name filled in and no kind |
| Events.SlashSplits | events/events.go:167-171 | a slash always splits the text into at least two parts |
| Events.DecodeResourceSlashName | events/events.go:166-188 | `resource/name` with slash-free halves is decoded to those halves |
| Events.Complete | events/events.go:47-71 | the configured namespace; a named object must decode, and "forObject must be in resource/name form" when it has no slash |
| Events.DoAsWritten | events/events.go:35-45 | as written: complete and validate errors are returned; once both succeed, `run` dereferences the unset client and panics, so no call returns a listing |
| Events.DoAsWrittenPanics | events/events.go:97 | listing the configured namespace with no filter panics |
| Events.Do | events/events.go:35-71 | corrected: a complete error, then the clientset error, then the validate error; otherwise `run` against the completed namespace and object; every event returned passes the caller's filter |
| Events.DoCorrectsAsWritten | events/events.go:35-45 | with the clientset obtained, the corrected `Do` returns what the original returns wherever it returns, and runs the listing wherever it panics |
| ApiResources.SortKey | apiresources/apiresources.go:42-44 | an empty sort key means "name" |
| ApiResources.GroupVersionString | apiresources/apiresources.go:87 | the version alone for the core group; otherwise group and version around one slash, and for a slash-free group the first slash separates them so both can be read back |
| ApiResources.Keep | apiresources/apiresources.go:64-81 | kept exactly when it has verbs, the group matches or none is asked for, it is namespaced when that is asked for, and its verbs and categories include every one asked for (an empty list asks for nothing); with no filters, kept exactly when it has verbs |
| ApiResources.CollectList | apiresources/apiresources.go:64-90 | the kept resources of a group version carry its group and its group-version string, and the filters keep each of them |
| ApiResources.CollectListMembers | apiresources/apiresources.go:64-90 | a resource is collected from a group version exactly when it has verbs, matches the group, scope, verbs and categories asked for |
| ApiResources.Collect | apiresources/apiresources.go:54-91 | no more resources than the lists hold in all, and every collected resource is one the filters keep for its group |
| ApiResources.CollectMembers | apiresources/apiresources.go:54-91 | a resource is collected exactly when some list with resources and a parsable group version holds it and the filters keep it |
| ApiResources.NamespacedOffKeepsBothScopes | apiresources/apiresources.go:72-75 | with the namespaced flag off, scope does not matter |
| ApiResources.SortValue | apiresources/apiresources.go:121-129 | the name for "name", the kind for "kind", the API group for anything else |
| ApiResources.ResourceLess | apiresources/apiresources.go:111-119 | the sort values in byte order, ties broken by name |
| ApiResources.ResourceLessIsStrictWeakOrder | apiresources/apiresources.go:111-129 | for every sort key the order is a strict weak order whose ties are resources with equal sort value and name |
| ApiResources.SortByNameIsNameOrder | apiresources/apiresources.go:111-124 | sorting by name is byte order on names |
| ApiResources.Do | apiresources/apiresources.go:31-100 | any discovery error gives an error and no resources; otherwise a permutation of the collected resources, sorted, with tied resources in discovery order |
| ApiResources.DoListsExactlyTheKept | apiresources/apiresources.go:46-99 | without an error, a resource is listed exactly when some list holds it and the filters keep it |
| Sorting.Sort | apiresources/apiresources.go:93 | the sorted output is ordered and a permutation of the input |
| Sorting.SortIsStable | apiresources/apiresources.go:93 | elements that tie keep their input order |

## Left out

- `parallelConsumeRequest` (logs/logs.go:191-222): goroutines, a pipe and a wait group. The
  model covers only the guard that chooses it (`Logs.Dispatch`).
- The resource builder in `complete` (logs/logs.go:140-162) is its result, the `infos`
  parameter. `Logs.ObjectToLog` requires that, with a selector, the builder's first object
  is a pod list; otherwise the original panics on the type assertion.
- LogsForObjects.ResolvePod: requires `CanDefault`, that a pod with no regular containers is
  only resolved with a container named. Without one the original panics indexing
  `Spec.Containers[0]` (logs/logsforobjects.go:67-69); `PodResolvable`, `Resolvable` and
  `Logs.DoDefined` carry the same precondition.
- The REST client construction in `logsForObject`, the `GetLogs` call, and
  `reference.GetPartialReference` are left out. A reference is (namespace, pod name, field
  path), and a request is (namespace, pod, options). The reference-construction error is
  not modelled.
- `GetFirstPod`'s list and timed watch are the `list` and `watch` parameters. The watch's
  timeout and its "not a pod event" error are folded into `watch`'s error.
- The `Out` and `ConsumeRequestFn` nil defaults, the writers themselves (beyond the error each
  write returns, the `writeErr` parameter) and the 20-second
  pod timeout are not used by the pure model, beyond being defaulted.
- Logs.DefaultConsumeRequest: a write that fails counts as made; what a partial write leaves
  in the output is not modelled, and the output (`Logs.Emit`) shows the failing write whole.
- Printing to standard output and standard error (the "Found N pods" note and the default
  record handler) is left out.
- `time.Parse`, `time.Format`, `LabelSelectorAsSelector`, `schema.ParseGroupVersion`, the
  REST mapper, `FollowContinue` pagination, the discovery client and its cache are
  uninterpreted parameters.
- `EqualFold` and `TrimSpace` are modelled on ASCII only. Go's versions also fold and trim
  Unicode.
- Go map iteration order is modelled by taking the sequential consumer's requests as a
  sequence in any order.
- Events: `complete`'s `ToRESTMapper` failure and the kubeconfig loader are reduced to a
  namespace result, and the field selector is reduced to the (kind, name) pair it names.
- ApiResources: `ToDiscoveryClient` failure and cache invalidation are left out. An error
  from discovery is returned as its own message; `NewAggregate` of a single error prints
  it unchanged.
- Events.Do: the clientset is reduced to the error of `KubernetesClientSet` (util/factory.go:29).
- util/factory.go, util/factory_client_access.go, get/get.go and the example program are
  not part of this model: they are client plumbing and a thin wrapper over the resource
  builder.
- Pods.GetFirstPod: when several pods tie for first place, the pod returned is one that
  `sort.Sort` may return, not necessarily the one it does return.
- Events.Run: event order among equal times is the stable one, which is one of the orders
  `sort.Sort` may produce.

## Findings

| source | as written | input that shows it | evidently intended | confidence | as-written member | corrected member |
|---|---|---|---|---|---|---|
| logs/logs.go:276-283 | the line loop returns at end of stream before writing the bytes `ReadBytes` returned with `io.EOF`, so the text after the last newline is lost (logs/record.go:85-92 has the same loop) | a stream holding "a\nb" writes only "a\n" | the doc comment (logs/logs.go:260-263) says data is buffered "until the newline or io.EOF", so the final unterminated line should be written at end of stream | medium, not executed; dropping may also be deliberate, so that parallel readers only ever interleave whole lines | Logs.DefaultConsumeRequest, Logs.DefaultConsumeDropsLastLine | Logs.ConsumeFlushingTail, Logs.CopiedVerbatim |
| events/events.go:47-97 | `complete` never assigns the unexported `client` field (nothing else can), so `run` calls `CoreV1()` on a nil `*kubernetes.Clientset` | any options that complete and validate, such as no filter and no object in the configured namespace | `complete` obtains the client from the factory's `KubernetesClientSet` and returns its error | high, not executed | Events.DoAsWritten, Events.DoAsWrittenPanics | Events.Do, Events.DoCorrectsAsWritten |

=== FILE: apiresources.dfy ===
/** apiresources/apiresources.go: the server's preferred API resources,
    filtered by group, scope, verbs and categories, and stably sorted. */
module ApiResources {
  import opened Base
  import opened Strings
  import Sorting

  /** A `metav1.APIResource`, reduced to what the command looks at. */
  datatype APIResource = APIResource(
    name: string,
    kind: string,
    namespaced: bool,
    verbs: seq<string>,
    categories: seq<string>)

  /** A `metav1.APIResourceList`: one group version's resources. */
  datatype ResourceList = ResourceList(groupVersion: string, resources: seq<APIResource>)

  /** A `schema.GroupVersion`. */
  datatype GroupVersion = GroupVersion(group: string, version: string)

  /** `GroupResource`: a kept resource with its group and group version. */
  datatype GroupResource = GroupResource(apiGroup: string, apiGroupVersion: string, resource: APIResource)

  /** `Opts`. `cached` only decides whether the discovery cache is dropped
      first, which the model does not see. */
  datatype Opts = Opts(
    sortBy: string,
    apiGroup: string,
    namespaced: bool,
    verbs: seq<string>,
    cached: bool,
    categories: seq<string>)

  /** What the discovery client answered: the lists it could gather and the
      error it met, if any. Both may be present at once. */
  datatype Discovery = Discovery(lists: seq<ResourceList>, err: Option<string>)

  /** The sort key used when none is given. */
  function SortKey(o: Opts): (k: string)
    ensures o.sortBy == "" ==> k == "name"
    ensures o.sortBy != "" ==> k == o.sortBy
  {
    if o.sortBy == "" then "name" else o.sortBy
  }

  /** `GroupVersion.String`: `group/version`, or the version alone for the
      core group. */
  function GroupVersionString(gv: GroupVersion): (r: string)
    ensures gv.group == "" ==> r == gv.version
    ensures gv.group != "" && '/' !in gv.group ==>
      && IndexOf(r, '/') == |gv.group|
      && r[..|gv.group|] == gv.group
      && r[|gv.group| + 1..] == gv.version
  {
    if |gv.group| > 0 then
      if '/' !in gv.group then
        IndexOfAfterPrefix(gv.group, '/', gv.version);
        assert gv.group + "/" + gv.version == gv.group + ['/'] + gv.version;
        gv.group + "/" + gv.version
      else
        gv.group + "/" + gv.version
    else gv.version
  }

  /** `sets.NewString(have...).HasAll(want...)`. */
  predicate HasAll(have: seq<string>, want: seq<string>) {
    forall k | 0 <= k < |want| :: want[k] in have
  }

  /** The per-resource filters of the loop in `Do`. */
  predicate Keep(o: Opts, group: string, res: APIResource)
    ensures Keep(o, group, res) <==>
      && |res.verbs| > 0
      && (o.apiGroup == "" || o.apiGroup == group)
      && (o.namespaced ==> res.namespaced)
      && (forall v | v in o.verbs :: v in res.verbs)
      && (forall c | c in o.categories :: c in res.categories)
    ensures o.apiGroup == "" && !o.namespaced && o.verbs == [] && o.categories == [] ==>
      (Keep(o, group, res) <==> |res.verbs| > 0)
  {
    && |res.verbs| > 0
    && (|o.apiGroup| == 0 || o.apiGroup == group)
    && (!o.namespaced || res.namespaced)
    && (|o.verbs| == 0 || HasAll(res.verbs, o.verbs))
    && (|o.categories| == 0 || HasAll(res.categories, o.categories))
  }

  /** The kept resources of one group version, in discovery order. */
  function CollectList(o: Opts, gv: GroupVersion, rs: seq<APIResource>): (r: seq<GroupResource>)
    ensures |r| <= |rs|
    ensures forall k | 0 <= k < |r| :: r[k].apiGroup == gv.group && r[k].apiGroupVersion == GroupVersionString(gv)
    ensures forall k | 0 <= k < |r| :: Keep(o, gv.group, r[k].resource)
  {
    if |rs| == 0 then []
    else
      (if Keep(o, gv.group, rs[0]) then [GroupResource(gv.group, GroupVersionString(gv), rs[0])] else [])
      + CollectList(o, gv, rs[1..])
  }

  /** The filter loop of `Do`: lists without resources, and lists whose group
      version does not parse, are skipped; the rest contribute their kept
      resources. `parseGV` stands for `schema.ParseGroupVersion`. */
  function Collect(o: Opts, lists: seq<ResourceList>, parseGV: string -> Result<GroupVersion>): (r: seq<GroupResource>)
    ensures |r| <= ResourceCount(lists)
    ensures forall k | 0 <= k < |r| :: Keep(o, r[k].apiGroup, r[k].resource)
  {
    if |lists| == 0 then []
    else
      var list := lists[0];
      var here :=
        if |list.resources| == 0 then []
        else match parseGV(list.groupVersion)
          case Err(_) => []
          case Ok(gv) => CollectList(o, gv, list.resources);
      here + Collect(o, lists[1..], parseGV)
  }

  /** How many resources the lists hold in all. */
  function ResourceCount(lists: seq<ResourceList>): nat
  {
    if |lists| == 0 then 0 else |lists[0].resources| + ResourceCount(lists[1..])
  }

  /** A resource is collected from one group version exactly when the filters
      keep it. */
  lemma {:induction false} CollectListMembers(o: Opts, gv: GroupVersion, rs: seq<APIResource>, g: GroupResource)
    ensures g in CollectList(o, gv, rs) <==>
      && g.apiGroup == gv.group && g.apiGroupVersion == GroupVersionString(gv)
      && g.resource in rs && Keep(o, gv.group, g.resource)
  {
    if |rs| > 0 {
      CollectListMembers(o, gv, rs[1..], g);
      assert rs == [rs[0]] + rs[1..];
    }
  }

  /** The resources collected from a group version string that parses. */
  predicate CollectedFrom(o: Opts, list: ResourceList, parseGV: string -> Result<GroupVersion>, g: GroupResource) {
    && |list.resources| > 0
    && parseGV(list.groupVersion).Ok?
    && var gv := parseGV(list.groupVersion).value;
    && g.apiGroup == gv.group && g.apiGroupVersion == GroupVersionString(gv)
    && g.resource in list.resources && Keep(o, gv.group, g.resource)
  }

  /** A resource is collected exactly when some list with resources and a
      parsable group version holds it and the filters keep it. */
  lemma {:induction false} CollectMembers(o: Opts, lists: seq<ResourceList>, parseGV: string -> Result<GroupVersion>,
                                          g: GroupResource)
    ensures g in Collect(o, lists, parseGV) <==>
      exists k | 0 <= k < |lists| :: CollectedFrom(o, lists[k], parseGV, g)
  {
    if |lists| > 0 {
      CollectMembers(o, lists[1..], parseGV, g);
      var list := lists[0];
      if |list.resources| > 0 && parseGV(list.groupVersion).Ok? {
        CollectListMembers(o, parseGV(list.groupVersion).value, list.resources, g);
      }
      assert forall k | 1 <= k < |lists| :: lists[k] == lists[1..][k - 1];
      if exists k | 0 <= k < |lists| :: CollectedFrom(o, lists[k], parseGV, g) {
        var k :| 0 <= k < |lists| && CollectedFrom(o, lists[k], parseGV, g);
        if k > 0 {
          assert lists[1..][k - 1] == lists[k];
        }
      }
    }
  }

  /** Asking for namespaced resources only narrows the result; leaving the
      flag off keeps cluster-scoped and namespaced resources alike. */
  lemma NamespacedOffKeepsBothScopes(o: Opts, group: string, res: APIResource)
    requires !o.namespaced
    ensures Keep(o, group, res) == Keep(o, group, res.(namespaced := !res.namespaced))
  {
  }

  /** The value `compareValues` compares: the name, the kind, or, for any
      other sort key, the API group. */
  function SortValue(sortBy: string, g: GroupResource): (v: string)
    ensures sortBy == "name" ==> v == g.resource.name
    ensures sortBy == "kind" ==> v == g.resource.kind
    ensures sortBy != "name" && sortBy != "kind" ==> v == g.apiGroup
  {
    if sortBy == "name" then g.resource.name
    else if sortBy == "kind" then g.resource.kind
    else g.apiGroup
  }

  /** `sortableResource.Less`: the sort values in byte order, ties broken by
      name. */
  function ResourceLess(sortBy: string, a: GroupResource, b: GroupResource): (r: bool)
    ensures r <==> PairLess(SortValue(sortBy, a), a.resource.name, SortValue(sortBy, b), b.resource.name)
  {
    var ret := Compare(SortValue(sortBy, a), SortValue(sortBy, b));
    if ret > 0 then false
    else if ret == 0 then Compare(a.resource.name, b.resource.name) < 0
    else true
  }

  /** Lexicographic order on pairs of strings. */
  predicate PairLess(a1: string, a2: string, b1: string, b2: string) {
    StrLess(a1, b1) || (a1 == b1 && StrLess(a2, b2))
  }

  /** Lexicographic order on pairs is a strict total order. */
  lemma PairLessStrictTotal(a1: string, a2: string, b1: string, b2: string, c1: string, c2: string)
    ensures !PairLess(a1, a2, a1, a2)
    ensures PairLess(a1, a2, b1, b2) && PairLess(b1, b2, c1, c2) ==> PairLess(a1, a2, c1, c2)
    ensures (a1, a2) == (b1, b2) || PairLess(a1, a2, b1, b2) || PairLess(b1, b2, a1, a2)
  {
    StrLessStrictTotal(a1, b1, c1);
    StrLessStrictTotal(a2, b2, c2);
    StrLessStrictTotal(b1, a1, c1);
    StrLessStrictTotal(b2, a2, c2);
  }

  /** Sorting by `sortBy`. */
  function LessBy(sortBy: string): (GroupResource, GroupResource) -> bool {
    (a, b) => ResourceLess(sortBy, a, b)
  }

  /** Every sort key gives a strict weak order, as `sort.Stable` requires.
      Resources tie exactly when their sort values and names agree. */
  lemma ResourceLessIsStrictWeakOrder(sortBy: string)
    ensures Sorting.StrictWeakOrder(LessBy(sortBy))
    ensures forall a, b :: Sorting.Tied(LessBy(sortBy), a, b) <==>
      SortValue(sortBy, a) == SortValue(sortBy, b) && a.resource.name == b.resource.name
  {
    var less := LessBy(sortBy);
    forall x, y, z
      ensures !less(x, x)
      ensures less(x, y) && less(y, z) ==> less(x, z)
      ensures less(x, z) ==> less(x, y) || less(y, z)
      ensures Sorting.Tied(less, x, y) <==>
        SortValue(sortBy, x) == SortValue(sortBy, y) && x.resource.name == y.resource.name
    {
      var x1, x2 := SortValue(sortBy, x), x.resource.name;
      var y1, y2 := SortValue(sortBy, y), y.resource.name;
      var z1, z2 := SortValue(sortBy, z), z.resource.name;
      PairLessStrictTotal(x1, x2, y1, y2, z1, z2);
      PairLessStrictTotal(y1, y2, z1, z2, x1, x2);
      PairLessStrictTotal(z1, z2, x1, x2, y1, y2);
      PairLessStrictTotal(z1, z2, y1, y2, x1, x2);
      PairLessStrictTotal(y1, y2, x1, x2, z1, z2);
      PairLessStrictTotal(x1, x2, z1, z2, y1, y2);
    }
  }

  /** Sorting by name is plain byte order on names. */
  lemma SortByNameIsNameOrder(a: GroupResource, b: GroupResource)
    ensures ResourceLess("name", a, b) <==> StrLess(a.resource.name, b.resource.name)
  {
  }

  /** `Do`, given the discovery answer: the collected resources, stably
      sorted; any discovery error discards them all. */
  function Do(o: Opts, discovery: Discovery, parseGV: string -> Result<GroupVersion>): (r: Result<seq<GroupResource>>)
    ensures r.Err? <==> discovery.err.Some?
    ensures r.Err? ==> r.msg == discovery.err.value
    ensures r.Ok? ==>
      var collected := Collect(o, discovery.lists, parseGV);
      && multiset(r.value) == multiset(collected)
      && Sorting.Sorted(LessBy(SortKey(o)), r.value)
      && Sorting.Stable(LessBy(SortKey(o)), collected, r.value)
  {
    var sortBy := SortKey(o);
    ResourceLessIsStrictWeakOrder(sortBy);
    var sorted := Sorting.Sort(LessBy(sortBy), Collect(o, discovery.lists, parseGV));
    Sorting.SortIsStable(LessBy(sortBy), Collect(o, discovery.lists, parseGV));
    if discovery.err.Some? then Err(discovery.err.value) else Ok(sorted)
  }

  /** Without a discovery error, a resource is listed exactly when some list
      with a parsable group version holds it and the filters keep it. */
  lemma DoListsExactlyTheKept(o: Opts, discovery: Discovery, parseGV: string -> Result<GroupVersion>, g: GroupResource)
    requires discovery.err.None?
    ensures Do(o, discovery, parseGV).Ok?
    ensures g in Do(o, discovery, parseGV).value <==>
      exists k | 0 <= k < |discovery.lists| :: CollectedFrom(o, discovery.lists[k], parseGV, g)
  {
    CollectMembers(o, discovery.lists, parseGV, g);
    var r := Do(o, discovery, parseGV).value;
    assert g in r <==> g in multiset(r);
    assert g in Collect(o, discovery.lists, parseGV) <==> g in multiset(Collect(o, discovery.lists, parseGV));
  }
}

=== FILE: base.dfy ===
/** Shared vocabulary: optional values, results carrying an error message,
    and the integer model of Go's time instants and durations. */
module Base {

  /** A possibly absent value (a nil pointer in the original program). */
  datatype Option<+T> = None | Some(value: T)

  /** A value or the text of the Go `error` that took its place. */
  datatype Result<+T> = Ok(value: T) | Err(msg: string) {
    predicate IsFailure() { Err? }

    function PropagateFailure<U>(): Result<U>
      requires Err?
    {
      Err(msg)
    }

    function Extract(): T
      requires Ok?
    {
      value
    }
  }

  /** An instant, in nanoseconds after Go's zero time (January 1, year 1, UTC).
      The zero value is Go's `IsZero` instant, not the Unix epoch. */
  type Time = int

  const ZeroTime: Time := 0

  /** A Go `time.Duration`: a count of nanoseconds. */
  type Duration = int

  const Second: Duration := 1_000_000_000

  const MinInt64: int := -0x8000_0000_0000_0000
  const MaxInt64: int := 0x7fff_ffff_ffff_ffff

  /** Go's int64 range, used where the original arithmetic saturates. */
  type Int64 = x: int | MinInt64 <= x <= MaxInt64
}

=== FILE: events.dfy ===
/** events/events.go: listing the events of a namespace, filtered by type
    and ordered by the time each event last happened. */
module Events {
  import opened Base
  import opened Strings
  import Sorting

  /** A `schema.GroupVersionKind`. */
  datatype GroupVersionKind = GroupVersionKind(group: string, version: string, kind: string)

  /** A `schema.GroupVersionResource`. */
  datatype GroupVersionResource = GroupVersionResource(group: string, version: string, resource: string)

  const EmptyKind: GroupVersionKind := GroupVersionKind("", "", "")

  /** The kind given to listed events that arrive without one. */
  const EventKind: GroupVersionKind := GroupVersionKind("", "v1", "Event")

  /** A `corev1.Event`, reduced to what the command looks at. `series` is the
      last observed time of the event's series, when it has one. */
  datatype Event = Event(
    name: string,
    gvk: GroupVersionKind,
    eventType: string,
    series: Option<Time>,
    lastTimestamp: Time,
    eventTime: Time)

  /** `EventsOpts`, without its client. */
  datatype EventsOpts = EventsOpts(
    namespace: string,
    allNamespaces: bool,
    filterTypes: seq<string>,
    forGVK: GroupVersionKind,
    forName: string,
    forObject: string)

  /** The two event types a filter may name. */
  predicate KnownType(t: string) {
    EqualFold(t, "Normal") || EqualFold(t, "Warning")
  }

  /** `validate`: every filter entry is Normal or Warning, in any case. */
  function Validate(filterTypes: seq<string>): (r: Option<string>)
    ensures r.None? <==> forall k | 0 <= k < |filterTypes| :: KnownType(filterTypes[k])
    ensures r.Some? ==> r == Some("valid types are Normal or Warning")
  {
    if |filterTypes| == 0 then None
    else if !KnownType(filterTypes[0]) then Some("valid types are Normal or Warning")
    else
      var r := Validate(filterTypes[1..]);
      assert forall k | 1 <= k < |filterTypes| :: filterTypes[k] == filterTypes[1..][k - 1];
      r
  }

  /** Some filter entry names `et`, ignoring case. */
  function AnyMatches(filterTypes: seq<string>, et: string): (r: bool)
    ensures r <==> exists k | 0 <= k < |filterTypes| :: EqualFold(filterTypes[k], et)
  {
    if |filterTypes| == 0 then false
    else if EqualFold(filterTypes[0], et) then true
    else
      var r := AnyMatches(filterTypes[1..], et);
      assert forall k | 1 <= k < |filterTypes| :: filterTypes[k] == filterTypes[1..][k - 1];
      r
  }

  /** `filteredEventType`: an empty filter lets every type through. */
  function FilteredEventType(filterTypes: seq<string>, et: string): (r: bool)
    ensures |filterTypes| == 0 ==> r
    ensures |filterTypes| > 0 ==> (r <==> exists k | 0 <= k < |filterTypes| :: EqualFold(filterTypes[k], et))
  {
    |filterTypes| == 0 || AnyMatches(filterTypes, et)
  }

  /** Two types that differ only in case pass the same filter. */
  lemma FilterIgnoresCase(filterTypes: seq<string>, a: string, b: string)
    requires EqualFold(a, b)
    ensures FilteredEventType(filterTypes, a) == FilteredEventType(filterTypes, b)
  {
    if |filterTypes| > 0 {
      if FilteredEventType(filterTypes, a) {
        var k :| 0 <= k < |filterTypes| && EqualFold(filterTypes[k], a);
        EqualFoldEquivalence(filterTypes[k], a, b);
      }
      if FilteredEventType(filterTypes, b) {
        var k :| 0 <= k < |filterTypes| && EqualFold(filterTypes[k], b);
        EqualFoldEquivalence(b, a, a);
        EqualFoldEquivalence(filterTypes[k], b, a);
      }
    }
  }

  /** Behind a valid, non-empty filter only Normal and Warning events pass. */
  lemma ValidFilterPassesOnlyKnownTypes(filterTypes: seq<string>, et: string)
    requires Validate(filterTypes).None? && |filterTypes| > 0
    requires FilteredEventType(filterTypes, et)
    ensures KnownType(et)
  {
    var k :| 0 <= k < |filterTypes| && EqualFold(filterTypes[k], et);
    assert KnownType(filterTypes[k]);
    EqualFoldEquivalence(filterTypes[k], et, "Normal");
    EqualFoldEquivalence(et, filterTypes[k], "Normal");
    EqualFoldEquivalence(filterTypes[k], et, "Warning");
    EqualFoldEquivalence(et, filterTypes[k], "Warning");
  }

  /** `eventTime`: the series' last observation when there is a series,
      else the last timestamp unless it is zero, else the event time. */
  function EventTime(e: Event): (t: Time)
    ensures e.series.Some? ==> t == e.series.value
    ensures e.series.None? && e.lastTimestamp != ZeroTime ==> t == e.lastTimestamp
    ensures e.series.None? && e.lastTimestamp == ZeroTime ==> t == e.eventTime
    ensures e.series.None? && t == ZeroTime ==> e.lastTimestamp == ZeroTime && e.eventTime == ZeroTime
  {
    if e.series.Some? then e.series.value
    else if e.lastTimestamp != ZeroTime then e.lastTimestamp
    else e.eventTime
  }

  /** `SortableEvents.Less`: strictly earlier event time, which is the
      order of the one-element time key. Two events in a series compare by
      their last observations; two without series and with a last
      timestamp compare by those timestamps. */
  predicate EventLess(a: Event, b: Event)
    ensures EventLess(a, b) <==> SeqLess(TimeKey(a), TimeKey(b))
    ensures a.series.Some? && b.series.Some? ==> (EventLess(a, b) <==> a.series.value < b.series.value)
    ensures && a.series.None? && b.series.None?
            && a.lastTimestamp != ZeroTime && b.lastTimestamp != ZeroTime
            ==> (EventLess(a, b) <==> a.lastTimestamp < b.lastTimestamp)
  {
    assert LexFrom(TimeKey(a), TimeKey(b), 1) == false;
    EventTime(a) < EventTime(b)
  }

  function TimeKey(e: Event): seq<int> {
    [EventTime(e)]
  }

  /** The event order is a strict weak order, as `sort.Sort` requires;
      events with equal times are tied. */
  lemma EventLessIsStrictWeakOrder()
    ensures Sorting.StrictWeakOrder(EventLess)
    ensures forall a, b :: Sorting.Tied(EventLess, a, b) <==> EventTime(a) == EventTime(b)
  {
    assert forall a, b :: EventLess(a, b) <==> SeqLess(TimeKey(a), TimeKey(b));
    Sorting.KeyedOrderIsStrictWeak(EventLess, TimeKey);
  }

  /** The listed event as `run` keeps it: an event without a kind is given
      v1/Event. */
  function WithDefaultKind(e: Event): (r: Event)
    ensures r.gvk != EmptyKind
    ensures e.gvk == EmptyKind ==> r.gvk == EventKind
    ensures e.gvk != EmptyKind ==> r == e
    ensures r == e.(gvk := r.gvk)
  {
    if e.gvk == EmptyKind then e.(gvk := EventKind) else e
  }

  /** The filtering loop of `run`: the events whose type passes, in list
      order, each with its kind defaulted. */
  function Filtered(filterTypes: seq<string>, items: seq<Event>): (r: seq<Event>)
    ensures |r| <= |items|
    ensures forall k | 0 <= k < |r| :: FilteredEventType(filterTypes, r[k].eventType) && r[k].gvk != EmptyKind
    ensures (forall k | 0 <= k < |items| :: FilteredEventType(filterTypes, items[k].eventType)) ==>
      |r| == |items| && forall k | 0 <= k < |items| :: r[k] == WithDefaultKind(items[k])
    ensures (forall k | 0 <= k < |items| :: !FilteredEventType(filterTypes, items[k].eventType)) ==> r == []
  {
    if |items| == 0 then []
    else
      assert forall k | 1 <= k < |items| :: items[k] == items[1..][k - 1];
      (if FilteredEventType(filterTypes, items[0].eventType) then [WithDefaultKind(items[0])] else [])
      + Filtered(filterTypes, items[1..])
  }

  /** An event is in the filtered list exactly when it is the defaulted form
      of a listed event whose type passes the filter. */
  lemma {:induction false} FilteredMembers(filterTypes: seq<string>, items: seq<Event>, e: Event)
    ensures e in Filtered(filterTypes, items) <==>
      exists k | 0 <= k < |items| :: FilteredEventType(filterTypes, items[k].eventType) && e == WithDefaultKind(items[k])
  {
    if |items| > 0 {
      FilteredMembers(filterTypes, items[1..], e);
      assert forall k | 1 <= k < |items| :: items[k] == items[1..][k - 1];
      if exists k | 0 <= k < |items| :: FilteredEventType(filterTypes, items[k].eventType) && e == WithDefaultKind(items[k]) {
        var k :| 0 <= k < |items| && FilteredEventType(filterTypes, items[k].eventType) && e == WithDefaultKind(items[k]);
        if k > 0 {
          assert items[1..][k - 1] == items[k];
        }
      }
    }
  }

  /** With no filter every listed event is kept. */
  lemma {:induction false} NoFilterKeepsAll(items: seq<Event>)
    ensures |Filtered([], items)| == |items|
  {
    if |items| > 0 {
      NoFilterKeepsAll(items[1..]);
    }
  }

  /** The message for an empty result. */
  function NoEventsMessage(o: EventsOpts): string {
    if o.allNamespaces then "no events found" else "no events found in " + o.namespace + " namespace"
  }

  /** `run`, given what the paginated list returned: the list's error, or
      the filtered events sorted by event time; an empty result is an error
      naming the namespace unless all namespaces were listed. */
  function Run(o: EventsOpts, listed: Result<seq<Event>>): (r: Result<seq<Event>>)
    ensures listed.Err? ==> r == Err(listed.msg)
    ensures listed.Ok? && |Filtered(o.filterTypes, listed.value)| == 0 ==> r == Err(NoEventsMessage(o))
    ensures listed.Ok? && |Filtered(o.filterTypes, listed.value)| > 0 ==> r.Ok?
    ensures r.Ok? ==>
      && listed.Ok?
      && |r.value| > 0
      && multiset(r.value) == multiset(Filtered(o.filterTypes, listed.value))
      && forall i, j | 0 <= i < j < |r.value| :: EventTime(r.value[i]) <= EventTime(r.value[j])
  {
    match listed
    case Err(e) => Err(e)
    case Ok(items) =>
      var filtered := Filtered(o.filterTypes, items);
      if |filtered| == 0 then Err(NoEventsMessage(o))
      else
        EventLessIsStrictWeakOrder();
        var sorted := Sorting.Sort(EventLess, filtered);
        assert |sorted| == |multiset(sorted)| == |filtered|;
        Ok(sorted)
  }

  /** The namespace `run` lists: none (all of them) with AllNamespaces. */
  function ListNamespace(o: EventsOpts): (ns: string)
    ensures o.allNamespaces ==> ns == ""
    ensures !o.allNamespaces ==> ns == o.namespace
  {
    if o.allNamespaces then "" else o.namespace
  }

  /** The involved-object kind and name the list is restricted to, when an
      object was named. */
  function InvolvedObject(o: EventsOpts): (r: Option<(string, string)>)
    ensures r.Some? <==> o.forName != ""
    ensures r.Some? ==> r.value == (o.forGVK.kind, o.forName)
  {
    if o.forName != "" then Some((o.forGVK.kind, o.forName)) else None
  }

  /** What `decodeResourceTypeName` returns. `gvk` and `name` mean something
      only when `found`. */
  datatype Decoded = Decoded(gvk: GroupVersionKind, name: string, found: bool, err: Option<string>)

  const TooManySlashes := "arguments in resource/name form may not have more than one slash"

  /** `decodeResourceTypeName`: `resource/name` split at its slash, the
      resource then mapped to a kind. `resourceFor` and `kindFor` stand for
      the REST mapper's `ResourceFor` and `KindFor`; an error from either is
      returned as it is, with the name already filled in. */
  function DecodeResourceTypeName(s: string, resourceFor: GroupVersionResource -> Result<GroupVersionResource>,
                                  kindFor: GroupVersionResource -> Result<GroupVersionKind>): (r: Decoded)
    ensures '/' !in s ==> r == Decoded(EmptyKind, "", false, None)
    ensures '/' in s && |Split(s, '/')| != 2 ==> r == Decoded(EmptyKind, "", false, Some(TooManySlashes))
    ensures r.found <==> r.err.None? && '/' in s
    ensures r.found ==>
      var seg := Split(s, '/');
      var gvr := resourceFor(GroupVersionResource("", "", seg[0]));
      && |seg| == 2 && r.name == seg[1]
      && gvr.Ok? && kindFor(gvr.value) == Ok(r.gvk)
    ensures '/' in s && |Split(s, '/')| == 2 ==>
      var seg := Split(s, '/');
      var gvr := resourceFor(GroupVersionResource("", "", seg[0]));
      && (gvr.Err? ==> r == Decoded(EmptyKind, seg[1], false, Some(gvr.msg)))
      && (gvr.Ok? && kindFor(gvr.value).Err? ==> r == Decoded(EmptyKind, seg[1], false, Some(kindFor(gvr.value).msg)))
  {
    if '/' !in s then Decoded(EmptyKind, "", false, None)
    else
      var seg := Split(s, '/');
      if |seg| != 2 then Decoded(EmptyKind, "", false, Some(TooManySlashes))
      else
        var resource, name := seg[0], seg[1];
        match resourceFor(GroupVersionResource("", "", resource))
        case Err(e) => Decoded(EmptyKind, name, false, Some(e))
        case Ok(gvr) =>
          match kindFor(gvr)
          case Err(e) => Decoded(EmptyKind, name, false, Some(e))
          case Ok(gvk) => Decoded(gvk, name, true, None)
  }

  /** A slash splits the text into at least two pieces. */
  lemma SlashSplits(s: string)
    requires '/' in s
    ensures |Split(s, '/')| >= 2
  {
    var i := IndexOf(s, '/');
    assert Split(s, '/') == [s[..i]] + Split(s[i + 1..], '/');
  }

  /** `resource/name` with slash-free halves is read back as those halves. */
  lemma DecodeResourceSlashName(resource: string, name: string,
                                resourceFor: GroupVersionResource -> Result<GroupVersionResource>,
                                kindFor: GroupVersionResource -> Result<GroupVersionKind>)
    requires '/' !in resource && '/' !in name
    requires resourceFor(GroupVersionResource("", "", resource)).Ok?
    requires kindFor(resourceFor(GroupVersionResource("", "", resource)).value).Ok?
    ensures var r := DecodeResourceTypeName(resource + "/" + name, resourceFor, kindFor);
      && r.found && r.name == name
      && r.gvk == kindFor(resourceFor(GroupVersionResource("", "", resource)).value).value
  {
    SplitCons(resource, '/', name);
    assert resource + "/" + name == resource + ['/'] + name;
    assert Split(resource + "/" + name, '/') == [resource, name];
  }

  const NotResourceSlashName := "forObject must be in resource/name form"

  /** `complete`: the namespace from the client configuration, then, when an
      object is named, its kind and name. `configNamespace` stands for the
      kubeconfig loader's answer. */
  function Complete(o: EventsOpts, configNamespace: Result<string>,
                    resourceFor: GroupVersionResource -> Result<GroupVersionResource>,
                    kindFor: GroupVersionResource -> Result<GroupVersionKind>): (r: Result<EventsOpts>)
    ensures configNamespace.Err? ==> r == Err(configNamespace.msg)
    ensures configNamespace.Ok? && o.forObject == "" ==> r == Ok(o.(namespace := configNamespace.value))
    ensures configNamespace.Ok? && o.forObject != "" ==>
      var d := DecodeResourceTypeName(o.forObject, resourceFor, kindFor);
      && (d.err.Some? ==> r == Err(d.err.value))
      && (d.err.None? && !d.found ==> r == Err(NotResourceSlashName))
      && (d.found ==> r == Ok(o.(namespace := configNamespace.value, forGVK := d.gvk, forName := d.name)))
    ensures r.Ok? ==> r.value.filterTypes == o.filterTypes && r.value.allNamespaces == o.allNamespaces
  {
    match configNamespace
    case Err(e) => Err(e)
    case Ok(ns) =>
      var o1 := o.(namespace := ns);
      if o.forObject == "" then Ok(o1)
      else
        var d := DecodeResourceTypeName(o.forObject, resourceFor, kindFor);
        if d.err.Some? then Err(d.err.value)
        else if !d.found then Err(NotResourceSlashName)
        else Ok(o1.(forGVK := d.gvk, forName := d.name))
  }

  /** How a call into the original ends: with a returned result, or with a
      run-time panic. */
  datatype Outcome<T> = Returned(result: Result<T>) | Panicked(reason: string)

  const NilClient := "invalid memory address or nil pointer dereference"

  /** `Do` as written. `complete` never assigns the unexported `client`
      field, so once `complete` and `validate` succeed, `run` calls
      `CoreV1()` on a nil `*kubernetes.Clientset` and panics: no call
      ever returns a listing. */
  function DoAsWritten(o: EventsOpts, configNamespace: Result<string>,
                       resourceFor: GroupVersionResource -> Result<GroupVersionResource>,
                       kindFor: GroupVersionResource -> Result<GroupVersionKind>): (r: Outcome<seq<Event>>)
    ensures Complete(o, configNamespace, resourceFor, kindFor).Err? ==>
      r == Returned(Err(Complete(o, configNamespace, resourceFor, kindFor).msg))
    ensures Complete(o, configNamespace, resourceFor, kindFor).Ok? ==>
      var c := Complete(o, configNamespace, resourceFor, kindFor).value;
      && (Validate(c.filterTypes).Some? ==> r == Returned(Err("valid types are Normal or Warning")))
      && (Validate(c.filterTypes).None? ==> r == Panicked(NilClient))
    ensures r.Returned? ==> r.result.Err?
  {
    match Complete(o, configNamespace, resourceFor, kindFor)
    case Err(e) => Returned(Err(e))
    case Ok(c) =>
      if Validate(c.filterTypes).Some? then Returned(Err("valid types are Normal or Warning"))
      else Panicked(NilClient)
  }

  /** The plainest request, the events of the configured namespace with
      no filter, panics. */
  lemma DoAsWrittenPanics(ns: string)
    ensures DoAsWritten(EventsOpts("", false, [], EmptyKind, "", ""), Ok(ns),
                        g => Err("no mapper"), g => Err("no mapper")) == Panicked(NilClient)
  {
    var o := EventsOpts("", false, [], EmptyKind, "", "");
    assert Complete(o, Ok(ns), g => Err("no mapper"), g => Err("no mapper")) == Ok(o.(namespace := ns));
  }

  /** `Do` with the client obtained as `complete` evidently intends: after
      the namespace and the object, `complete` asks the factory for its
      clientset (`KubernetesClientSet`), whose error `clientSet` stands
      for; then validate, then run against the list of events in the
      completed options' namespace and object. `list` stands for the
      paginated `Events(namespace).List` calls through that client. */
  function Do(o: EventsOpts, configNamespace: Result<string>,
              resourceFor: GroupVersionResource -> Result<GroupVersionResource>,
              kindFor: GroupVersionResource -> Result<GroupVersionKind>,
              clientSet: Option<string>,
              list: (string, Option<(string, string)>) -> Result<seq<Event>>): (r: Result<seq<Event>>)
    ensures Complete(o, configNamespace, resourceFor, kindFor).Err? ==>
      r == Err(Complete(o, configNamespace, resourceFor, kindFor).msg)
    ensures Complete(o, configNamespace, resourceFor, kindFor).Ok? && clientSet.Some? ==>
      r == Err(clientSet.value)
    ensures Complete(o, configNamespace, resourceFor, kindFor).Ok? && clientSet.None? ==>
      var c := Complete(o, configNamespace, resourceFor, kindFor).value;
      && (Validate(c.filterTypes).Some? ==> r == Err("valid types are Normal or Warning"))
      && (Validate(c.filterTypes).None? ==> r == Run(c, list(ListNamespace(c), InvolvedObject(c))))
    ensures r.Ok? ==> forall k | 0 <= k < |r.value| :: FilteredEventType(o.filterTypes, r.value[k].eventType)
  {
    var c :- Complete(o, configNamespace, resourceFor, kindFor);
    if clientSet.Some? then Err(clientSet.value)
    else if Validate(c.filterTypes).Some? then Err("valid types are Normal or Warning")
    else
      var r := Run(c, list(ListNamespace(c), InvolvedObject(c)));
      RunKeepsOnlyFiltered(c, list(ListNamespace(c), InvolvedObject(c)));
      r
  }

  /** The corrected `Do` returns what the original returns whenever the
      original returns, and lists events exactly where the original
      panics, once the clientset is obtained. */
  lemma DoCorrectsAsWritten(o: EventsOpts, configNamespace: Result<string>,
                            resourceFor: GroupVersionResource -> Result<GroupVersionResource>,
                            kindFor: GroupVersionResource -> Result<GroupVersionKind>,
                            list: (string, Option<(string, string)>) -> Result<seq<Event>>)
    ensures var w := DoAsWritten(o, configNamespace, resourceFor, kindFor);
      && (w.Returned? ==> Do(o, configNamespace, resourceFor, kindFor, None, list) == w.result)
      && (w.Panicked? ==>
            var c := Complete(o, configNamespace, resourceFor, kindFor).value;
            Do(o, configNamespace, resourceFor, kindFor, None, list) == Run(c, list(ListNamespace(c), InvolvedObject(c))))
  {
  }

  /** Every event `run` returns passes the filter and has a kind. */
  lemma RunKeepsOnlyFiltered(o: EventsOpts, listed: Result<seq<Event>>)
    ensures Run(o, listed).Ok? ==> forall k | 0 <= k < |Run(o, listed).value| ::
      FilteredEventType(o.filterTypes, Run(o, listed).value[k].eventType) && Run(o, listed).value[k].gvk != EmptyKind
  {
    if Run(o, listed).Ok? {
      var r := Run(o, listed).value;
      var f := Filtered(o.filterTypes, listed.value);
      forall k | 0 <= k < |r|
        ensures FilteredEventType(o.filterTypes, r[k].eventType) && r[k].gvk != EmptyKind
      {
        assert r[k] in multiset(f);
        var j :| 0 <= j < |f| && f[j] == r[k];
      }
    }
  }
}

=== FILE: helpers.dfy ===
/** util/helpers.go: the pod selector of a workload object, and the
    two-layout RFC 3339 time parser. */
module Helpers {
  import opened Base
  import opened Pods

  /** A `metav1.LabelSelector`: equality labels plus set-based requirements. */
  datatype Requirement = Requirement(key: string, operator: string, values: seq<string>)
  datatype LabelSelector = LabelSelector(matchLabels: map<string, string>, matchExpressions: seq<Requirement>)

  /** A `labels.Selector`: built from a plain label set, or converted from a
      `LabelSelector` by the API machinery. */
  datatype Selector = SetSelector(labels: map<string, string>) | ConvertedSelector(source: LabelSelector)

  /** The workload kinds whose selector is a `LabelSelector`, one per Go type
      named in the switch. */
  datatype SetBasedKind =
    | ReplicaSetExtensionsV1beta1 | ReplicaSetAppsV1 | ReplicaSetAppsV1beta2
    | StatefulSetAppsV1 | StatefulSetAppsV1beta1 | StatefulSetAppsV1beta2
    | DaemonSetExtensionsV1beta1 | DaemonSetAppsV1 | DaemonSetAppsV1beta2
    | DeploymentExtensionsV1beta1 | DeploymentAppsV1 | DeploymentAppsV1beta1 | DeploymentAppsV1beta2
    | JobBatchV1

  /** The API objects the core distinguishes. `Other` is any other type,
      carried with its Go type name. A Service's selector map may be nil. */
  datatype Object =
    | SetBased(kind: SetBasedKind, namespace: string, selector: LabelSelector)
    | ReplicationController(namespace: string, rcSelector: map<string, string>)
    | Service(name: string, namespace: string, serviceSelector: Option<map<string, string>>)
    | PodObject(pod: Pod)
    | PodListObject(items: seq<Pod>)
    | Other(typeName: string, namespace: string)

  /** The object's Go type, as `%T` prints it. */
  function TypeName(o: Object): string
  {
    match o
    case SetBased(kind, _, _) => (
      match kind
      case ReplicaSetExtensionsV1beta1 => "*v1beta1.ReplicaSet"
      case ReplicaSetAppsV1 => "*v1.ReplicaSet"
      case ReplicaSetAppsV1beta2 => "*v1beta2.ReplicaSet"
      case StatefulSetAppsV1 => "*v1.StatefulSet"
      case StatefulSetAppsV1beta1 => "*v1beta1.StatefulSet"
      case StatefulSetAppsV1beta2 => "*v1beta2.StatefulSet"
      case DaemonSetExtensionsV1beta1 => "*v1beta1.DaemonSet"
      case DaemonSetAppsV1 => "*v1.DaemonSet"
      case DaemonSetAppsV1beta2 => "*v1beta2.DaemonSet"
      case DeploymentExtensionsV1beta1 => "*v1beta1.Deployment"
      case DeploymentAppsV1 => "*v1.Deployment"
      case DeploymentAppsV1beta1 => "*v1beta1.Deployment"
      case DeploymentAppsV1beta2 => "*v1beta2.Deployment"
      case JobBatchV1 => "*v1.Job")
    case ReplicationController(_, _) => "*v1.ReplicationController"
    case Service(_, _, _) => "*v1.Service"
    case PodObject(_) => "*v1.Pod"
    case PodListObject(_) => "*v1.PodList"
    case Other(t, _) => t
  }

  /** The object's own namespace (empty for a pod list). */
  function NamespaceOf(o: Object): string
  {
    match o
    case SetBased(_, ns, _) => ns
    case ReplicationController(ns, _) => ns
    case Service(_, ns, _) => ns
    case PodObject(p) => p.namespace
    case PodListObject(_) => ""
    case Other(_, ns) => ns
  }

  /** Kinds with a known selector shape. */
  predicate HasSelectorShape(o: Object) {
    o.SetBased? || o.ReplicationController? || o.Service?
  }

  /** `SelectorsForObject`: the namespace and pod selector of a workload.
      `asSelector` stands for `metav1.LabelSelectorAsSelector`. */
  function SelectorsForObject(o: Object, asSelector: LabelSelector -> Result<Selector>): (r: Result<(string, Selector)>)
    ensures r.Ok? ==> r.value.0 == NamespaceOf(o)
    ensures !HasSelectorShape(o) ==> r == Err("selector for " + TypeName(o) + " not implemented")
    ensures o.ReplicationController? ==> r == Ok((o.namespace, SetSelector(o.rcSelector)))
    ensures o.Service? ==>
      if o.serviceSelector.None? || |o.serviceSelector.value| == 0
      then r == Err("invalid service '" + o.name + "': Service is defined without a selector")
      else r == Ok((o.namespace, SetSelector(o.serviceSelector.value)))
    ensures o.SetBased? ==>
      match asSelector(o.selector)
      case Err(e) => r == Err("invalid label selector: " + e)
      case Ok(s) => r == Ok((o.namespace, s))
  {
    match o
    case SetBased(_, ns, sel) =>
      (match asSelector(sel)
       case Err(e) => Err("invalid label selector: " + e)
       case Ok(s) => Ok((ns, s)))
    case ReplicationController(ns, labels) => Ok((ns, SetSelector(labels)))
    case Service(name, ns, labels) =>
      if labels.None? || |labels.value| == 0 then
        Err("invalid service '" + name + "': Service is defined without a selector")
      else Ok((ns, SetSelector(labels.value)))
    case _ => Err("selector for " + TypeName(o) + " not implemented")
  }

  /** The two layouts tried by `ParseRFC3339`. */
  datatype Layout = RFC3339Nano | RFC3339

  /** `ParseRFC3339`: the nanosecond layout first, then plain RFC 3339
      (section 5.6 of RFC 3339). On failure of both, the zero time and the
      second parser's error. `parse` stands for `time.Parse`. */
  function ParseRFC3339(s: string, parse: (Layout, string) -> Result<Time>): (r: (Time, Option<string>))
    ensures parse(RFC3339Nano, s).Ok? ==> r == (parse(RFC3339Nano, s).value, None)
    ensures parse(RFC3339Nano, s).Err? && parse(RFC3339, s).Ok? ==> r == (parse(RFC3339, s).value, None)
    ensures parse(RFC3339Nano, s).Err? && parse(RFC3339, s).Err? ==> r == (ZeroTime, Some(parse(RFC3339, s).msg))
  {
    match parse(RFC3339Nano, s)
    case Ok(t) => (t, None)
    case Err(_) =>
      match parse(RFC3339, s)
      case Ok(t) => (t, None)
      case Err(e) => (ZeroTime, Some(e))
  }
}

=== FILE: logs.dfy ===
/** logs/logs.go: the options of a log request and their defaults, the
    conversion to `PodLogOptions`, the follow-concurrency guard, the line
    copying loop, and the per-container line prefix. */
module Logs {
  import opened Base
  import opened Strings
  import opened Pods
  import opened Helpers
  import opened LogsForObjects

  /** The user-facing options of `Opts` (writers, callbacks and the compiled
      regular expression are not data and are left out). `Since` is an
      int64 duration. */
  datatype Opts = Opts(
    namespace: string,
    podName: string,
    allContainers: bool,
    sinceTime: string,
    since: Int64,
    follow: bool,
    previous: bool,
    timestamps: bool,
    ignoreLogErrors: bool,
    limitBytes: int,
    tail: int,
    container: string,
    insecureSkipTLSVerifyBackend: bool,
    selector: string,
    maxFollowConcurrency: int,
    prefix: bool,
    target: Option<Object>,
    getPodTimeout: Duration)

  /** Twenty seconds. */
  const DefaultPodLogsTimeout: Duration := 20_000_000_000
  const DefaultMaxFollowConcurrency: int := 5
  /** Lines shown per pod when a selector is given and no tail is set. */
  const SelectorTail: int := 10

  /** The numeric options lie in the ranges `complete` establishes. */
  predicate Defaulted(o: Opts) {
    && o.limitBytes >= 0
    && o.since >= 0
    && o.getPodTimeout > 0
    && (o.tail == -1 || o.tail > 0)
    && o.maxFollowConcurrency > 0
  }

  /** The clamps and defaults at the start of `complete`: negative limits
      and durations become zero, a non-positive timeout becomes 20 seconds,
      a non-positive tail means "all lines" (-1), and a non-positive
      concurrency becomes 5. Values already in range are kept, and every
      other option is left alone. */
  function ApplyDefaults(o: Opts): (r: Opts)
    ensures Defaulted(r)
    ensures o.limitBytes >= 0 ==> r.limitBytes == o.limitBytes
    ensures o.since >= 0 ==> r.since == o.since
    ensures o.getPodTimeout > 0 ==> r.getPodTimeout == o.getPodTimeout
    ensures o.tail > 0 ==> r.tail == o.tail
    ensures o.maxFollowConcurrency > 0 ==> r.maxFollowConcurrency == o.maxFollowConcurrency
    ensures o.limitBytes < 0 ==> r.limitBytes == 0
    ensures o.since < 0 ==> r.since == 0
    ensures o.getPodTimeout <= 0 ==> r.getPodTimeout == DefaultPodLogsTimeout
    ensures o.tail <= 0 ==> r.tail == -1
    ensures o.maxFollowConcurrency <= 0 ==> r.maxFollowConcurrency == DefaultMaxFollowConcurrency
    ensures Defaulted(o) ==> r == o
  {
    var limitBytes := if o.limitBytes < 0 then 0 else o.limitBytes;
    var since := if o.since < 0 then 0 else o.since;
    var getPodTimeout := if o.getPodTimeout <= 0 then DefaultPodLogsTimeout else o.getPodTimeout;
    var tail := if o.tail <= 0 then -1 else o.tail;
    var maxFollowConcurrency := if o.maxFollowConcurrency <= 0 then DefaultMaxFollowConcurrency else o.maxFollowConcurrency;
    o.(limitBytes := limitBytes, since := since, getPodTimeout := getPodTimeout,
       tail := tail, maxFollowConcurrency := maxFollowConcurrency)
  }

  /** The defaults touch only the five numeric options. */
  lemma ApplyDefaultsKeepsTheRest(o: Opts)
    ensures var r := ApplyDefaults(o);
      && r.namespace == o.namespace && r.podName == o.podName && r.allContainers == o.allContainers
      && r.sinceTime == o.sinceTime && r.follow == o.follow && r.previous == o.previous
      && r.timestamps == o.timestamps && r.ignoreLogErrors == o.ignoreLogErrors
      && r.container == o.container && r.insecureSkipTLSVerifyBackend == o.insecureSkipTLSVerifyBackend
      && r.selector == o.selector && r.prefix == o.prefix && r.target == o.target
  {
  }

  /** Applying the defaults twice is the same as applying them once. */
  lemma ApplyDefaultsIdempotent(o: Opts)
    ensures ApplyDefaults(ApplyDefaults(o)) == ApplyDefaults(o)
  {
  }

  /** The whole number of seconds nearest to `d` nanoseconds, halfway
      values away from zero. */
  function NearestSeconds(d: int): (n: int)
    ensures d >= 0 ==> n >= 0
    ensures d <= 0 ==> n <= 0
  {
    var a := if d < 0 then -d else d;
    var m := if 2 * (a % Second) < Second then a / Second else a / Second + 1;
    if d < 0 then -m else m
  }

  /** `NearestSeconds` is within half a second of `d`, and a tie goes away
      from zero. */
  lemma NearestSecondsIsNearest(d: int)
    ensures 2 * (NearestSeconds(d) * Second - d) <= Second
    ensures 2 * (d - NearestSeconds(d) * Second) <= Second
    ensures 2 * (NearestSeconds(d) * Second - d) == Second ==> d > 0
    ensures 2 * (d - NearestSeconds(d) * Second) == Second ==> d < 0
  {
    var a := if d < 0 then -d else d;
    var q, rem := a / Second, a % Second;
    assert a == q * Second + rem && 0 <= rem < Second;
    var m := if 2 * rem < Second then q else q + 1;
    assert m * Second == (if 2 * rem < Second then a - rem else a + (Second - rem));
  }

  /** A whole number of seconds leaves no remainder. */
  lemma WholeSeconds(k: int)
    ensures (k * Second) % Second == 0
  {
  }

  /** Go's `time.Duration.Round(time.Second)`: the nearest whole second,
      saturated at the int64 bounds when it lies beyond them. */
  function RoundToSecond(d: Int64): (r: Int64)
    ensures MinInt64 + Second <= d <= MaxInt64 - Second ==>
      && r % Second == 0
      && 2 * (r - d) <= Second && 2 * (d - r) <= Second
      && (2 * (r - d) == Second ==> d > 0)
      && (2 * (d - r) == Second ==> d < 0)
    ensures d >= 0 ==> r >= 0
    ensures d <= 0 ==> r <= 0
  {
    var n := NearestSeconds(d) * Second;
    NearestSecondsIsNearest(d);
    WholeSeconds(NearestSeconds(d));
    if n < MinInt64 then MinInt64 else if n > MaxInt64 then MaxInt64 else n
  }

  /** Away from the int64 bounds the rounding never saturates. */
  lemma RoundToSecondInRange(d: Int64)
    requires MinInt64 + Second <= d <= MaxInt64 - Second
    ensures RoundToSecond(d) == NearestSeconds(d) * Second
  {
    NearestSecondsIsNearest(d);
  }

  /** Go's integer division, which truncates toward zero. */
  function Quot(a: int, b: int): (q: int)
    requires b > 0
    ensures a >= 0 ==> q == a / b
    ensures a < 0 ==> q == -((-a) / b)
  {
    if a >= 0 then a / b else -((-a) / b)
  }

  /** `int64(d.Round(time.Second).Seconds())`: the whole seconds nearest to
      `d`. The float conversion is exact on whole seconds and truncates the
      saturated bounds, which `Quot` reproduces. */
  function SinceSeconds(d: Int64): (sec: int)
    ensures MinInt64 + Second <= d <= MaxInt64 - Second ==> sec == NearestSeconds(d)
    ensures d >= 0 ==> sec >= 0
  {
    var r := RoundToSecond(d);
    if MinInt64 + Second <= d <= MaxInt64 - Second then
      RoundToSecondInRange(d);
      var n := NearestSeconds(d);
      assert r == n * Second;
      assert Quot(n * Second, Second) == n;
      Quot(r, Second)
    else Quot(r, Second)
  }

  /** The `--since-time` bound: none when the flag is empty, otherwise the
      parsed time, or the error of the last parse attempt. */
  function SinceTimeOf(sinceTime: string, parse: (Layout, string) -> Result<Time>): (r: Result<Option<Time>>)
    ensures r.Err? <==> |sinceTime| > 0 && ParseRFC3339(sinceTime, parse).1.Some?
    ensures r.Err? ==> r.msg == ParseRFC3339(sinceTime, parse).1.value
    ensures r.Ok? ==> (r.value.Some? <==> |sinceTime| > 0)
    ensures r.Ok? && r.value.Some? ==> r.value.value == ParseRFC3339(sinceTime, parse).0
  {
    if |sinceTime| > 0 then
      var (t, err) := ParseRFC3339(sinceTime, parse);
      if err.Some? then Err(err.value) else Ok(Some(t))
    else Ok(None)
  }

  /** The tail bound: the flag when it is set, otherwise the selector
      default when a selector is given, otherwise none. */
  function TailLinesOf(o: Opts): (r: Option<int>)
    ensures r.Some? <==> o.tail != -1 || |o.selector| > 0
    ensures r.Some? ==> r.value == if o.tail == -1 then SelectorTail else o.tail
  {
    if |o.selector| > 0 && o.tail == -1 then Some(SelectorTail)
    else if o.tail != -1 then Some(o.tail) else None
  }

  /** `toLogOptions`: the request options the user's flags ask for. An
      unparsable `--since-time` is the only failure, reported with the
      error of the second (plain RFC 3339) parse attempt. */
  function ToLogOptions(o: Opts, parse: (Layout, string) -> Result<Time>): (r: Result<PodLogOptions>)
    ensures r.Err? <==> |o.sinceTime| > 0 && ParseRFC3339(o.sinceTime, parse).1.Some?
    ensures r.Err? ==> r.msg == ParseRFC3339(o.sinceTime, parse).1.value
    ensures r.Ok? ==>
      var lo := r.value;
      && lo.container == o.container && lo.follow == o.follow && lo.previous == o.previous
      && lo.timestamps == o.timestamps && lo.insecureSkipTLSVerifyBackend == o.insecureSkipTLSVerifyBackend
      && (lo.sinceTime.Some? <==> |o.sinceTime| > 0)
      && (lo.sinceTime.Some? ==> lo.sinceTime.value == ParseRFC3339(o.sinceTime, parse).0)
      && (lo.limitBytes.Some? <==> o.limitBytes != 0)
      && (lo.limitBytes.Some? ==> lo.limitBytes.value == o.limitBytes)
      && (lo.sinceSeconds.Some? <==> o.since != 0)
      && (lo.sinceSeconds.Some? ==> lo.sinceSeconds.value == SinceSeconds(o.since))
      && (lo.tailLines.Some? <==> o.tail != -1 || |o.selector| > 0)
      && (lo.tailLines.Some? ==> lo.tailLines.value == if o.tail == -1 then SelectorTail else o.tail)
  {
    var sinceTime :- SinceTimeOf(o.sinceTime, parse);
    Ok(PodLogOptions(
      container := o.container,
      follow := o.follow,
      previous := o.previous,
      timestamps := o.timestamps,
      sinceSeconds := if o.since != 0 then Some(SinceSeconds(o.since)) else None,
      sinceTime := sinceTime,
      tailLines := TailLinesOf(o),
      limitBytes := if o.limitBytes != 0 then Some(o.limitBytes) else None,
      insecureSkipTLSVerifyBackend := o.insecureSkipTLSVerifyBackend))
  }

  /** After the defaults, every numeric limit sent to the server is
      positive, and the since-seconds bound is not negative. */
  lemma DefaultedOptionsArePositive(o: Opts, parse: (Layout, string) -> Result<Time>)
    requires Defaulted(o)
    requires ToLogOptions(o, parse).Ok?
    ensures var lo := ToLogOptions(o, parse).value;
      && (lo.limitBytes.Some? ==> lo.limitBytes.value > 0)
      && (lo.tailLines.Some? ==> lo.tailLines.value > 0)
      && (lo.sinceSeconds.Some? ==> lo.sinceSeconds.value >= 0)
  {
  }

  /** The builder's answer is one the original can use without panicking:
      with a selector, its first object is a pod list. */
  predicate BuilderResultUsable(o: Opts, infos: Result<seq<Object>>) {
    o.target.Some? || infos.Err? || o.selector == ""
    || (|infos.value| > 0 && infos.value[0].PodListObject?)
  }

  /** The object whose logs are wanted: the caller's, or the first object
      the resource builder found (`infos`; the builder is not modelled). */
  function ObjectToLog(o: Opts, infos: Result<seq<Object>>): (r: Result<Object>)
    requires BuilderResultUsable(o, infos)
    ensures o.target.Some? ==> r == Ok(o.target.value)
    ensures o.target.None? && infos.Err? ==> r == Err(infos.msg)
    ensures o.target.None? && infos.Ok? && o.selector == "" ==>
      r == if |infos.value| == 1 then Ok(infos.value[0]) else Err("expected a resource")
    ensures o.target.None? && infos.Ok? && o.selector != "" ==>
      r == if |infos.value[0].items| == 0 then Err("no resources found in " + o.namespace + " namespace")
           else Ok(infos.value[0])
  {
    match o.target
    case Some(obj) => Ok(obj)
    case None =>
      var found :- infos;
      if o.selector == "" && |found| != 1 then Err("expected a resource")
      else if o.selector != "" && |found[0].items| == 0 then Err("no resources found in " + o.namespace + " namespace")
      else Ok(found[0])
  }

  /** The result of `complete`: defaulted options, the request options and
      the object to read. */
  datatype Completed = Completed(opts: Opts, logOptions: PodLogOptions, target: Object)

  /** `complete`: the defaults, then the request options, then the object. */
  function Complete(o: Opts, parse: (Layout, string) -> Result<Time>, infos: Result<seq<Object>>): (r: Result<Completed>)
    requires BuilderResultUsable(o, infos)
    ensures r.Ok? ==> Defaulted(r.value.opts) && r.value.opts == ApplyDefaults(o)
    ensures r.Ok? ==> Ok(r.value.logOptions) == ToLogOptions(ApplyDefaults(o), parse)
    ensures r.Ok? ==> Ok(r.value.target) == ObjectToLog(o, infos)
    ensures r.Err? <==> ToLogOptions(ApplyDefaults(o), parse).Err? || ObjectToLog(o, infos).Err?
  {
    var opts := ApplyDefaults(o);
    assert BuilderResultUsable(opts, infos);
    var logOptions :- ToLogOptions(opts, parse);
    var obj :- ObjectToLog(opts, infos);
    Ok(Completed(opts, logOptions, obj))
  }

  /** How the requests will be consumed. */
  datatype Plan = Parallel(requests: Requests) | Sequential(requests: Requests)

  /** The guard in `Do`: several followed streams are read in parallel, up
      to the concurrency limit; anything else is read one after another. */
  function Dispatch(follow: bool, maxFollowConcurrency: int, requests: Requests): (r: Result<Plan>)
    ensures r.Ok? ==> r.value.requests == requests
    ensures r.Ok? && r.value.Parallel? <==> follow && 1 < |requests| <= maxFollowConcurrency
    ensures r.Ok? && r.value.Sequential? <==> !follow || |requests| <= 1
    ensures r.Err? <==> follow && 1 < |requests| && maxFollowConcurrency < |requests|
    ensures r.Err? ==> (r.msg == "you are attempting to follow " + NatToString(|requests|)
      + " log streams, but maximum allowed concurrency is " + IntToString(maxFollowConcurrency)
      + ", use --max-log-requests to increase the limit")
  {
    if follow && |requests| > 1 then
      if |requests| > maxFollowConcurrency then
        Err("you are attempting to follow " + NatToString(|requests|)
          + " log streams, but maximum allowed concurrency is " + IntToString(maxFollowConcurrency)
          + ", use --max-log-requests to increase the limit")
      else Ok(Parallel(requests))
    else Ok(Sequential(requests))
  }

  /** The inputs to `Do` are ones the original handles without panicking. */
  predicate DoDefined(
    o: Opts, parse: (Layout, string) -> Result<Time>, infos: Result<seq<Object>>,
    asSelector: LabelSelector -> Result<Selector>,
    list: (string, Selector) -> Result<seq<Pod>>,
    watch: (string, Selector) -> Result<Pod>)
  {
    && BuilderResultUsable(o, infos)
    && (Complete(o, parse, infos).Ok? ==>
          var c := Complete(o, parse, infos).value;
          Resolvable(c.target, c.logOptions, o.allContainers, asSelector, list, watch))
  }

  /** `Do` up to the choice of consumer: complete the options, resolve the
      object into requests, and apply the follow-concurrency guard. */
  function Do(
    o: Opts, parse: (Layout, string) -> Result<Time>, infos: Result<seq<Object>>,
    asSelector: LabelSelector -> Result<Selector>,
    list: (string, Selector) -> Result<seq<Pod>>,
    watch: (string, Selector) -> Result<Pod>): (r: Result<Plan>)
    requires DoDefined(o, parse, infos, asSelector, list, watch)
    ensures Complete(o, parse, infos).Err? ==> r == Err(Complete(o, parse, infos).msg)
    ensures r.Ok? ==>
      var c := Complete(o, parse, infos).value;
      && Complete(o, parse, infos).Ok?
      && ResolveObject(c.target, LogOptions(c.logOptions), o.allContainers, asSelector, list, watch) == Ok(r.value.requests)
    ensures Complete(o, parse, infos).Ok? ==>
      var c := Complete(o, parse, infos).value;
      var resolved := ResolveObject(c.target, LogOptions(c.logOptions), o.allContainers, asSelector, list, watch);
      && (resolved.Err? ==> r == Err(resolved.msg))
      && (resolved.Ok? ==> r == Dispatch(o.follow, ApplyDefaults(o).maxFollowConcurrency, resolved.value))
    ensures r.Ok? && r.value.Parallel? ==>
      o.follow && 1 < |r.value.requests| <= ApplyDefaults(o).maxFollowConcurrency
  {
    var c :- Complete(o, parse, infos);
    var requests :- ResolveObject(c.target, LogOptions(c.logOptions), o.allContainers, asSelector, list, watch);
    Dispatch(o.follow, c.opts.maxFollowConcurrency, requests)
  }

  // ---------------------------------------------------------------------
  // The container name in a field path. The original matches the regular
  // expression spec\.(?:initContainers|containers|ephemeralContainers){(.+)}
  // and keeps its capture: the leftmost match, whose greedy `.+` (which
  // stops at a line break) runs to the last `}` of that line.

  predicate StartsAt(s: string, i: nat, h: string) {
    i + |h| <= |s| && s[i..i + |h|] == h
  }

  /** The role whose field-path head starts at `i`, if any. */
  function HeadAt(s: string, i: nat): (r: Option<Role>)
    ensures r.Some? ==> StartsAt(s, i, RoleHead(r.value))
    ensures r.None? ==> !StartsAt(s, i, RoleHead(Init)) && !StartsAt(s, i, RoleHead(Regular))
                        && !StartsAt(s, i, RoleHead(Ephemeral))
  {
    if StartsAt(s, i, RoleHead(Init)) then Some(Init)
    else if StartsAt(s, i, RoleHead(Regular)) then Some(Regular)
    else if StartsAt(s, i, RoleHead(Ephemeral)) then Some(Ephemeral)
    else None
  }

  /** The end of the line that position `j` is on. */
  function LineEnd(s: string, j: nat): (e: nat)
    requires j <= |s|
    ensures j <= e <= |s|
    ensures '\n' !in s[j..e]
    ensures e < |s| ==> s[e] == '\n'
    decreases |s| - j
  {
    if j == |s| || s[j] == '\n' then j
    else
      var e := LineEnd(s, j + 1);
      assert s[j..e] == [s[j]] + s[j + 1..e];
      e
  }

  /** The last `}` strictly between `j` and `e`, or -1. */
  function LastClose(s: string, j: nat, e: nat): (q: int)
    requires j <= e <= |s|
    ensures q == -1 || (j < q < e && s[q] == '}')
    ensures q == -1 ==> forall k | j < k < e :: s[k] != '}'
    ensures q >= 0 ==> forall k | q < k < e :: s[k] != '}'
    decreases e
  {
    if e <= j + 1 then -1
    else if s[e - 1] == '}' then e - 1
    else LastClose(s, j, e - 1)
  }

  /** The capture after a role head ending at `j`: the text up to the last
      `}` of the line, which must leave at least one character. */
  function CaptureAfter(s: string, j: nat): (r: Option<string>)
    requires j <= |s|
    ensures r.Some? ==>
      && |r.value| > 0 && '\n' !in r.value
      && j + |r.value| < LineEnd(s, j)
      && s[j..j + |r.value|] == r.value
      && s[j + |r.value|] == '}'
      && forall k | j + |r.value| < k < LineEnd(s, j) :: s[k] != '}'
    ensures r.None? <==> forall k | j < k < LineEnd(s, j) :: s[k] != '}'
  {
    var e := LineEnd(s, j);
    var q := LastClose(s, j, e);
    if q < 0 then None
    else
      assert forall k | j <= k < q :: s[k] == s[j..e][k - j];
      assert j + |s[j..q]| == q;
      Some(s[j..q])
  }

  /** The capture of a match starting at `i`, if one does; `MatchAtShape`
      states what it is. */
  function MatchAt(s: string, i: nat): (r: Option<string>)
    requires i <= |s|
    ensures r.Some? ==> |r.value| > 0 && '\n' !in r.value
  {
    match HeadAt(s, i)
    case None => None
    case Some(role) => CaptureAfter(s, i + |RoleHead(role)|)
  }

  /** A match at `i` is a role head at `i`, then the text after it up to the
      last `}` of that line; there is none exactly when no role head starts
      at `i` or no `}` follows the first character after the head on that
      line, since the capture must not be empty. */
  lemma MatchAtShape(s: string, i: nat)
    requires i <= |s|
    ensures MatchAt(s, i).Some? ==> HeadAt(s, i).Some?
    ensures MatchAt(s, i).Some? ==>
      (var r, j := MatchAt(s, i).value, i + |RoleHead(HeadAt(s, i).value)|;
       && j + |r| < LineEnd(s, j)
       && s[j..j + |r|] == r
       && s[j + |r|] == '}'
       && forall k | j + |r| < k < LineEnd(s, j) :: s[k] != '}')
    ensures MatchAt(s, i).None? <==>
      (|| HeadAt(s, i).None?
       || (var j := i + |RoleHead(HeadAt(s, i).value)|;
           forall k | j < k < LineEnd(s, j) :: s[k] != '}'))
  {
  }

  /** The capture of the leftmost match at or after `i`. */
  function FindFrom(s: string, i: nat): (r: Option<string>)
    requires i <= |s|
    ensures r.Some? ==> |r.value| > 0 && '\n' !in r.value
    decreases |s| - i
  {
    if MatchAt(s, i).Some? then MatchAt(s, i)
    else if i == |s| then None
    else FindFrom(s, i + 1)
  }

  /** The search reports the capture of the leftmost match. */
  lemma {:induction false} FindFromLeftmost(s: string, i: nat, k: nat)
    requires i <= k <= |s|
    requires MatchAt(s, k).Some?
    requires forall k' | i <= k' < k :: MatchAt(s, k').None?
    ensures FindFrom(s, i) == MatchAt(s, k)
    decreases k - i
  {
    if i < k {
      FindFromLeftmost(s, i + 1, k);
    }
  }

  /** The search finds nothing only when nothing matches. */
  lemma {:induction false} FindFromNone(s: string, i: nat)
    requires i <= |s|
    requires forall k | i <= k <= |s| :: MatchAt(s, k).None?
    ensures FindFrom(s, i) == None
    decreases |s| - i
  {
    if i < |s| {
      FindFromNone(s, i + 1);
    }
  }

  /** The search finds something whenever some later position matches. */
  lemma {:induction false} FindFromFinds(s: string, i: nat, k: nat)
    requires i <= k <= |s|
    requires MatchAt(s, k).Some?
    ensures FindFrom(s, i).Some?
    decreases k - i
  {
    if i < k && MatchAt(s, i).None? {
      FindFromFinds(s, i + 1, k);
    }
  }

  /** The whole-string search: nothing exactly when no position matches,
      and otherwise the capture of the leftmost match. */
  lemma FindFromStart(s: string)
    ensures FindFrom(s, 0).None? <==> forall k | 0 <= k <= |s| :: MatchAt(s, k).None?
    ensures forall k | 0 <= k <= |s| && MatchAt(s, k).Some? ::
      (forall k' | 0 <= k' < k :: MatchAt(s, k').None?) ==> FindFrom(s, 0) == MatchAt(s, k)
  {
    forall k | 0 <= k <= |s| && MatchAt(s, k).Some? && (forall k' | 0 <= k' < k :: MatchAt(s, k').None?)
      ensures FindFrom(s, 0) == MatchAt(s, k)
    {
      FindFromLeftmost(s, 0, k);
    }
    if forall k | 0 <= k <= |s| :: MatchAt(s, k).None? {
      FindFromNone(s, 0);
    } else {
      var k :| 0 <= k <= |s| && MatchAt(s, k).Some?;
      FindFromFinds(s, 0, k);
    }
  }

  /** `containerNameFromRefSpecRegexp.FindStringSubmatch(fieldPath)[1]`:
      nothing exactly when no position starts a match, and otherwise the
      capture of the leftmost match. */
  function ContainerNameOf(fieldPath: string): (r: Option<string>)
    ensures r.Some? ==> |r.value| > 0 && '\n' !in r.value
    ensures r.None? <==> forall k | 0 <= k <= |fieldPath| :: MatchAt(fieldPath, k).None?
    ensures forall k | 0 <= k <= |fieldPath| && MatchAt(fieldPath, k).Some? ::
      (forall k' | 0 <= k' < k :: MatchAt(fieldPath, k').None?) ==> r == MatchAt(fieldPath, k)
  {
    FindFromStart(fieldPath);
    FindFrom(fieldPath, 0)
  }

  /** The name is read back from the field path the resolver builds, for
      any non-empty container name on a single line. */
  lemma ContainerNameOfFieldPath(role: Role, name: string)
    requires name != "" && '\n' !in name
    ensures ContainerNameOf(FieldPath(role, name)) == Some(name)
  {
    MatchAtFieldPath(role, name);
    FindFromLeftmost(FieldPath(role, name), 0, 0);
  }

  /** A field path the resolver builds matches at its start. */
  lemma MatchAtFieldPath(role: Role, name: string)
    requires name != "" && '\n' !in name
    ensures MatchAt(FieldPath(role, name), 0) == Some(name)
  {
    var s := FieldPath(role, name);
    var j := |RoleHead(role)|;
    HeadOfFieldPath(role, name);
    assert s[j..|s|] == name + "}";
    assert LineEnd(s, j) == |s|;
    assert LastClose(s, j, |s|) == |s| - 1;
    assert s[j..|s| - 1] == name;
  }

  /** A field path the resolver builds starts with its role's head. */
  lemma HeadOfFieldPath(role: Role, name: string)
    ensures HeadAt(FieldPath(role, name), 0) == Some(role)
  {
    var s := FieldPath(role, name);
    var h := RoleHead(role);
    assert s[..|h|] == h;
    assert s[5] == h[5];
  }

  // ---------------------------------------------------------------------
  // Prefixing

  /** `addPrefixIfNeeded`: the text put before every line of one container's
      log, when prefixing is on and the reference names a pod and a field
      path; the container part is empty when the field path does not match. */
  function PrefixFor(prefixOn: bool, ref: ObjectReference): (r: Option<string>)
    ensures r.None? <==> !prefixOn || ref.fieldPath == "" || ref.name == ""
    ensures r.Some? && ContainerNameOf(ref.fieldPath).Some? ==>
      r.value == "[pod/" + ref.name + "/" + ContainerNameOf(ref.fieldPath).value + "] "
    ensures r.Some? && ContainerNameOf(ref.fieldPath).None? ==> r.value == "[pod/" + ref.name + "/] "
  {
    if !prefixOn || ref.fieldPath == "" || ref.name == "" then None
    else
      var c := match ContainerNameOf(ref.fieldPath) case Some(c) => c case None => "";
      Some("[pod/" + ref.name + "/" + c + "] ")
  }

  /** A resolved request is prefixed with its pod's and its container's
      own names. */
  lemma PrefixOfResolvedRef(p: Pod, name: string)
    requires p.name != "" && name != "" && '\n' !in name
    requires Declares(p.containers, name) || Declares(p.initContainers, name) || Declares(p.ephemeralContainers, name)
    ensures PrefixFor(true, RefFor(p, name)) == Some("[pod/" + p.name + "/" + name + "] ")
  {
    var lookup := FindContainerByName(p, name);
    if Declares(p.containers, name) {
      ContainerNameOfFieldPath(Regular, name);
    } else if Declares(p.initContainers, name) {
      ContainerNameOfFieldPath(Init, name);
    } else {
      ContainerNameOfFieldPath(Ephemeral, name);
    }
  }

  /** `prefixingWriter.Write`: one write of prefix and `p` together to the
      underlying writer `under`; an empty `p` writes nothing. The count
      reported never exceeds len(p): an underlying count above len(p), as
      after a complete write, is reported as len(p). */
  function PrefixingWrite(prefix: string, p: string, under: string -> (int, Option<string>)): (r: (int, Option<string>))
    ensures |p| == 0 ==> r == (0, None)
    ensures r.0 <= |p|
    ensures |p| > 0 ==> r.1 == under(prefix + p).1
    ensures |p| > 0 && under(prefix + p).0 == |prefix + p| ==> r.0 == |p|
    ensures |p| > 0 && under(prefix + p).0 > |p| ==> r.0 == |p|
    ensures |p| > 0 && under(prefix + p).0 <= |p| ==> r.0 == under(prefix + p).0
  {
    if |p| == 0 then (0, None)
    else
      var (n, err) := under(prefix + p);
      if n > |p| then (|p|, err) else (n, err)
  }

  // ---------------------------------------------------------------------
  // Copying a log stream

  /** One line: newline-terminated, with no other newline. */
  predicate IsLine(l: string) {
    |l| > 0 && l[|l| - 1] == '\n' && '\n' !in l[..|l| - 1]
  }

  function Concat(ss: seq<string>): string
  {
    if |ss| == 0 then "" else ss[0] + Concat(ss[1..])
  }

  lemma ConcatCons(h: string, t: seq<string>)
    ensures Concat([h] + t) == h + Concat(t)
  {
    assert ([h] + t)[1..] == t;
  }

  /** The complete lines of `data`, in order; text after the last newline
      is not among them. */
  function Lines(data: string): (ls: seq<string>)
    ensures forall k | 0 <= k < |ls| :: IsLine(ls[k])
    ensures |Concat(ls)| <= |data| && data[..|Concat(ls)|] == Concat(ls)
    ensures '\n' !in data[|Concat(ls)|..]
    decreases |data|
  {
    var i := IndexOf(data, '\n');
    if i < 0 then []
    else
      var line := data[..i + 1];
      var rest := Lines(data[i + 1..]);
      ConcatCons(line, rest);
      assert data == line + data[i + 1..];
      assert line[..|line| - 1] == data[..i];
      [line] + rest
  }

  /** Splitting the concatenation of lines, followed by text without a
      newline, gives the lines back. */
  lemma {:induction false} LinesOfConcat(ls: seq<string>, rest: string)
    requires forall k | 0 <= k < |ls| :: IsLine(ls[k])
    requires '\n' !in rest
    ensures Lines(Concat(ls) + rest) == ls
  {
    if |ls| == 0 {
      assert Concat(ls) + rest == rest;
    } else {
      var tail := Concat(ls[1..]) + rest;
      ConcatCons(ls[0], ls[1..]);
      assert ls == [ls[0]] + ls[1..];
      assert Concat(ls) + rest == ls[0] + tail;
      LinesCons(ls[0], tail);
      LinesOfConcat(ls[1..], rest);
    }
  }

  /** Text up to and including its first newline is a line. */
  lemma FirstLine(data: string, i: int)
    requires i == IndexOf(data, '\n') && i >= 0
    ensures IsLine(data[..i + 1])
    ensures data == data[..i + 1] + data[i + 1..]
  {
    assert data[..i + 1][..i] == data[..i];
  }

  /** A complete line in front is the first line. */
  lemma LinesCons(l: string, tail: string)
    requires IsLine(l)
    ensures Lines(l + tail) == [l] + Lines(tail)
  {
    var body := l[..|l| - 1];
    var s := l + tail;
    assert l == body + ['\n'];
    assert s == body + ['\n'] + tail;
    IndexOfAfterPrefix(body, '\n', tail);
    assert s[..|l|] == l;
    assert s[|l|..] == tail;
  }

  /** Text that is empty or ends in a newline is exactly its lines. */
  lemma {:induction false} ConcatLinesOfTerminated(data: string)
    requires |data| == 0 || data[|data| - 1] == '\n'
    ensures Concat(Lines(data)) == data
    decreases |data|
  {
    var i := IndexOf(data, '\n');
    if i >= 0 {
      var line, rest := data[..i + 1], data[i + 1..];
      FirstLine(data, i);
      assert |rest| == 0 || rest[|rest| - 1] == data[|data| - 1];
      LinesCons(line, rest);
      ConcatLinesOfTerminated(rest);
      ConcatCons(line, Lines(rest));
      assert Concat(Lines(data)) == line + rest;
    }
  }

  /** Text without a newline after complete lines adds no line. */
  lemma LinesIgnoreUnterminatedTail(data: string, tail: string)
    requires |data| == 0 || data[|data| - 1] == '\n'
    requires '\n' !in tail
    ensures Lines(data + tail) == Lines(data)
  {
    ConcatLinesOfTerminated(data);
    LinesOfConcat(Lines(data), tail);
  }

  /** What reading a request's stream yields: the error opening it, or the
      bytes read before the end of the stream or a read error. */
  datatype Stream = OpenFailed(err: string) | Opened(data: string, readError: Option<string>)

  /** The `k` first writes to a stream's output (counted from 0) succeed.
      `writeErr(k)` is the error the output writer returns for the `k`-th
      write, or `None` when that write succeeds. */
  predicate WritesSucceed(writeErr: nat -> Option<string>, n: nat) {
    forall k: nat | k < n :: writeErr(k).None?
  }

  /** The `k`-th write is the first to fail. */
  predicate FirstWriteFailure(writeErr: nat -> Option<string>, k: nat) {
    writeErr(k).Some? && WritesSucceed(writeErr, k)
  }

  /** Writes `ws[i..]` in order and stops after the first that fails. The
      result is the writes made so far (`ws[..i]` included) and that
      write's error. */
  function WriteFrom(ws: seq<string>, writeErr: nat -> Option<string>, i: nat): (r: (seq<string>, Option<string>))
    requires i <= |ws|
    ensures i <= |r.0| <= |ws| && r.0 == ws[..|r.0|]
    ensures r.1.None? ==> r.0 == ws
    ensures r.1.Some? ==> |r.0| > 0 && r.1 == writeErr(|r.0| - 1)
    decreases |ws| - i
  {
    if i == |ws| then (ws, None)
    else if writeErr(i).Some? then (ws[..i + 1], writeErr(i))
    else WriteFrom(ws, writeErr, i + 1)
  }

  /** When the writes from `i` on all succeed, every write is made. */
  lemma {:induction false} WriteFromAllSucceed(ws: seq<string>, writeErr: nat -> Option<string>, i: nat)
    requires i <= |ws|
    requires forall k: nat | i <= k < |ws| :: writeErr(k).None?
    ensures WriteFrom(ws, writeErr, i) == (ws, None)
    decreases |ws| - i
  {
    if i < |ws| {
      WriteFromAllSucceed(ws, writeErr, i + 1);
    }
  }

  /** When the `k`-th write is the first from `i` on to fail, the writes up
      to it are made and its error is the result. */
  lemma {:induction false} WriteFromFirstFailure(ws: seq<string>, writeErr: nat -> Option<string>, i: nat, k: nat)
    requires i <= k < |ws|
    requires writeErr(k).Some?
    requires forall j: nat | i <= j < k :: writeErr(j).None?
    ensures WriteFrom(ws, writeErr, i) == (ws[..k + 1], writeErr(k))
    decreases k - i
  {
    if i < k {
      WriteFromFirstFailure(ws, writeErr, i + 1, k);
    }
  }

  /** The writes of `ws`, stopping at the first failure: all of them when
      none fails, else those up to and including the first that fails. */
  lemma WriteAllOutcome(ws: seq<string>, writeErr: nat -> Option<string>)
    ensures WritesSucceed(writeErr, |ws|) ==> WriteFrom(ws, writeErr, 0) == (ws, None)
    ensures forall k: nat | k < |ws| && FirstWriteFailure(writeErr, k) ::
      WriteFrom(ws, writeErr, 0) == (ws[..k + 1], writeErr(k))
  {
    if WritesSucceed(writeErr, |ws|) {
      WriteFromAllSucceed(ws, writeErr, 0);
    }
    forall k: nat | k < |ws| && FirstWriteFailure(writeErr, k)
      ensures WriteFrom(ws, writeErr, 0) == (ws[..k + 1], writeErr(k))
    {
      WriteFromFirstFailure(ws, writeErr, 0, k);
    }
  }

  /** `DefaultConsumeRequest`: the writes it makes and the error it
      returns. One write per complete line, in order; the first write that
      fails ends the copy with its error; otherwise the end of the stream
      is not an error, and the text after the last newline is never
      written. */
  function DefaultConsumeRequest(st: Stream, writeErr: nat -> Option<string>): (r: (seq<string>, Option<string>))
    ensures st.OpenFailed? ==> r == ([], Some(st.err))
    ensures forall k | 0 <= k < |r.0| :: IsLine(r.0[k])
    ensures st.Opened? ==> |r.0| <= |Lines(st.data)| && r.0 == Lines(st.data)[..|r.0|]
    ensures st.Opened? && WritesSucceed(writeErr, |Lines(st.data)|) ==> r == (Lines(st.data), st.readError)
    ensures st.Opened? && WritesSucceed(writeErr, |Lines(st.data)|) ==>
      && |Concat(r.0)| <= |st.data| && st.data[..|Concat(r.0)|] == Concat(r.0)
      && '\n' !in st.data[|Concat(r.0)|..]
    ensures st.Opened? ==> forall k: nat | k < |Lines(st.data)| && FirstWriteFailure(writeErr, k) ::
      r == (Lines(st.data)[..k + 1], writeErr(k))
  {
    match st
    case OpenFailed(e) => ([], Some(e))
    case Opened(data, readError) =>
      var ls := Lines(data);
      WriteAllOutcome(ls, writeErr);
      var w := WriteFrom(ls, writeErr, 0);
      PrefixOfLines(ls, |w.0|);
      (w.0, if w.1.Some? then w.1 else readError)
  }

  /** A prefix of a sequence of lines is a sequence of lines. */
  lemma PrefixOfLines(ls: seq<string>, n: nat)
    requires n <= |ls|
    requires forall k | 0 <= k < |ls| :: IsLine(ls[k])
    ensures forall k | 0 <= k < n :: IsLine(ls[..n][k])
  {
    assert forall k | 0 <= k < n :: ls[..n][k] == ls[k];
  }

  /** A stream whose last line has no newline loses that line. */
  lemma DefaultConsumeDropsLastLine(writeErr: nat -> Option<string>)
    requires writeErr(0).None?
    ensures DefaultConsumeRequest(Opened("a\nb", None), writeErr) == (["a\n"], None)
  {
    assert IndexOf("a\nb", '\n') == 1;
    assert ("a\nb")[..2] == "a\n";
    assert ("a\nb")[2..] == "b";
    assert Lines("b") == [];
    assert Lines("a\nb") == ["a\n"] + Lines("b") == ["a\n"];
    assert WritesSucceed(writeErr, |Lines("a\nb")|);
  }

  /** The text after the last newline. */
  function Tail(data: string): (t: string)
    ensures '\n' !in t
    ensures Concat(Lines(data)) + t == data
  {
    data[|Concat(Lines(data))|..]
  }

  /** The writes the consumer its documentation describes makes: every
      line, then the text after the last newline when there is some. */
  function Chunks(data: string): (cs: seq<string>)
    ensures Concat(cs) == data
    ensures forall k | 0 <= k < |cs| :: |cs[k]| > 0
    ensures forall k | 0 <= k < |cs| - 1 :: IsLine(cs[k])
  {
    var ls := Lines(data);
    if Tail(data) == "" then
      assert data == Concat(ls);
      ls
    else
      ConcatAppend(ls, Tail(data));
      ls + [Tail(data)]
  }

  /** The consumer as its documentation describes it: data is buffered up
      to each newline or the end of the stream, so the text after the last
      newline is written too, as a final write. The first write that fails
      still ends the copy. */
  function ConsumeFlushingTail(st: Stream, writeErr: nat -> Option<string>): (r: (seq<string>, Option<string>))
    ensures st.OpenFailed? ==> r == ([], Some(st.err))
    ensures forall k | 0 <= k < |r.0| :: |r.0[k]| > 0
    ensures forall k | 0 <= k < |r.0| - 1 :: IsLine(r.0[k])
    ensures st.Opened? ==> |r.0| <= |Chunks(st.data)| && r.0 == Chunks(st.data)[..|r.0|]
    ensures st.Opened? && WritesSucceed(writeErr, |Chunks(st.data)|) ==>
      Concat(r.0) == st.data && r.1 == st.readError
    ensures st.Opened? ==> forall k: nat | k < |Chunks(st.data)| && FirstWriteFailure(writeErr, k) ::
      r == (Chunks(st.data)[..k + 1], writeErr(k))
  {
    match st
    case OpenFailed(e) => ([], Some(e))
    case Opened(data, readError) =>
      var cs := Chunks(data);
      WriteAllOutcome(cs, writeErr);
      var w := WriteFrom(cs, writeErr, 0);
      assert forall k | 0 <= k < |w.0| :: w.0[k] == cs[k];
      (w.0, if w.1.Some? then w.1 else readError)
  }

  lemma {:induction false} ConcatAppend(ss: seq<string>, s: string)
    ensures Concat(ss + [s]) == Concat(ss) + s
  {
    if |ss| == 0 {
      assert ss + [s] == [s] + [];
      ConcatCons(s, []);
    } else {
      assert ss + [s] == [ss[0]] + (ss[1..] + [s]);
      ConcatCons(ss[0], ss[1..] + [s]);
      ConcatAppend(ss[1..], s);
      ConcatCons(ss[0], ss[1..]);
    }
  }

  /** Writing one more piece at the end makes the same writes, plus at
      most that piece. */
  lemma {:induction false} WriteFromAppend(ws: seq<string>, t: string, writeErr: nat -> Option<string>, i: nat)
    requires i <= |ws|
    ensures var w := WriteFrom(ws, writeErr, i).0;
      WriteFrom(ws + [t], writeErr, i).0 == w || WriteFrom(ws + [t], writeErr, i).0 == w + [t]
    decreases |ws| - i
  {
    if i < |ws| {
      if writeErr(i).Some? {
        assert (ws + [t])[..i + 1] == ws[..i + 1];
      } else {
        WriteFromAppend(ws, t, writeErr, i + 1);
      }
    } else if writeErr(i).Some? {
      assert (ws + [t])[..i + 1] == ws + [t];
    }
  }

  /** The corrected consumer makes exactly the writes the original makes,
      plus, at most, the unterminated tail; under the same write errors. */
  lemma FlushingTailExtendsDefault(st: Stream, writeErr: nat -> Option<string>)
    requires st.Opened?
    ensures var w := DefaultConsumeRequest(st, writeErr).0;
      ConsumeFlushingTail(st, writeErr).0 == w || ConsumeFlushingTail(st, writeErr).0 == w + [Tail(st.data)]
  {
    if Tail(st.data) != "" {
      WriteFromAppend(Lines(st.data), Tail(st.data), writeErr, 0);
    }
  }

  /** The output a sequence of writes leaves: with a prefix, each non-empty
      write is preceded by it. */
  function Emit(prefix: Option<string>, writes: seq<string>): string
  {
    if |writes| == 0 then ""
    else
      (match prefix
       case None => writes[0]
       case Some(pre) => if |writes[0]| == 0 then "" else pre + writes[0])
      + Emit(prefix, writes[1..])
  }

  /** Lines written through a prefixing writer come out as the same lines,
      each with the prefix in front. */
  lemma {:induction false} PrefixedLines(pre: string, ls: seq<string>)
    requires '\n' !in pre
    requires forall k | 0 <= k < |ls| :: IsLine(ls[k])
    ensures Lines(Emit(Some(pre), ls)) == seq(|ls|, k requires 0 <= k < |ls| => pre + ls[k])
  {
    var out := seq(|ls|, k requires 0 <= k < |ls| => pre + ls[k]);
    forall k | 0 <= k < |out|
      ensures IsLine(out[k])
    {
      var l := ls[k];
      assert out[k][..|out[k]| - 1] == pre + l[..|l| - 1];
    }
    EmitPrefixed(pre, ls);
    LinesOfConcat(out, "");
    assert Concat(out) + "" == Concat(out);
  }

  lemma {:induction false} EmitPrefixed(pre: string, ls: seq<string>)
    requires forall k | 0 <= k < |ls| :: |ls[k]| > 0
    ensures Emit(Some(pre), ls) == Concat(seq(|ls|, k requires 0 <= k < |ls| => pre + ls[k]))
  {
    if |ls| > 0 {
      var out := seq(|ls|, k requires 0 <= k < |ls| => pre + ls[k]);
      EmitPrefixed(pre, ls[1..]);
      assert out == [pre + ls[0]] + seq(|ls| - 1, k requires 0 <= k < |ls| - 1 => pre + ls[1..][k]);
      ConcatCons(pre + ls[0], seq(|ls| - 1, k requires 0 <= k < |ls| - 1 => pre + ls[1..][k]));
    }
  }

  /** Without a prefix, the corrected consumer copies a stream verbatim. */
  lemma CopiedVerbatim(st: Stream, writeErr: nat -> Option<string>)
    requires st.Opened? && WritesSucceed(writeErr, |Chunks(st.data)|)
    ensures Emit(None, ConsumeFlushingTail(st, writeErr).0) == st.data
  {
    EmitPlain(ConsumeFlushingTail(st, writeErr).0);
  }

  lemma {:induction false} EmitPlain(writes: seq<string>)
    ensures Emit(None, writes) == Concat(writes)
  {
    if |writes| > 0 {
      EmitPlain(writes[1..]);
    }
  }

  /** The report written for a failed stream when errors are ignored. */
  function ErrorLine(msg: string): string
  {
    "error: " + msg + "\n"
  }

  /** `sequentialConsumeRequest`, over the requests in the order the map is
      walked (which Go leaves unspecified). Each stream's writes go to the
      output, prefixed when asked. A failure ends the walk and is returned,
      unless errors are ignored: then it is reported inline and the walk
      goes on. `consume` stands for `ConsumeRequestFn`. */
  function SequentialConsume(
    ignoreErrors: bool, prefixOn: bool, requests: seq<(ObjectReference, Stream)>,
    consume: Stream -> (seq<string>, Option<string>)): (r: (string, Option<string>))
    ensures ignoreErrors ==> r.1 == None
    ensures r.1.Some? <==> !ignoreErrors && exists k | 0 <= k < |requests| :: consume(requests[k].1).1.Some?
    ensures r.1.Some? ==> exists k | 0 <= k < |requests| ::
      && r.1 == consume(requests[k].1).1
      && forall j | 0 <= j < k :: consume(requests[j].1).1.None?
  {
    if |requests| == 0 then ("", None)
    else
      var (ref, st) := requests[0];
      var (writes, err) := consume(st);
      var out := Emit(PrefixFor(prefixOn, ref), writes);
      if err.Some? && !ignoreErrors then (out, err)
      else
        var report := if err.Some? then ErrorLine(err.value) else "";
        var (rest, restErr) := SequentialConsume(ignoreErrors, prefixOn, requests[1..], consume);
        assert forall k | 1 <= k < |requests| :: requests[k] == requests[1..][k - 1];
        assert forall k | 0 <= k < |requests| - 1 :: requests[1..][k] == requests[k + 1];
        (out + report + rest, restErr)
  }

  /** Whether the walk fails does not depend on the order of the walk. */
  lemma SequentialOutcomeIsOrderFree(
    ignoreErrors: bool, prefixOn: bool, a: seq<(ObjectReference, Stream)>, b: seq<(ObjectReference, Stream)>,
    consume: Stream -> (seq<string>, Option<string>))
    requires multiset(a) == multiset(b)
    ensures SequentialConsume(ignoreErrors, prefixOn, a, consume).1.None?
        <==> SequentialConsume(ignoreErrors, prefixOn, b, consume).1.None?
  {
    if exists k | 0 <= k < |a| :: consume(a[k].1).1.Some? {
      var k :| 0 <= k < |a| && consume(a[k].1).1.Some?;
      assert a[k] in multiset(b);
      var k' :| 0 <= k' < |b| && b[k'] == a[k];
    }
    if exists k | 0 <= k < |b| :: consume(b[k].1).1.Some? {
      var k :| 0 <= k < |b| && consume(b[k].1).1.Some?;
      assert b[k] in multiset(a);
      var k' :| 0 <= k' < |a| && a[k'] == b[k];
    }
  }

  /** What one request contributes to the output when errors are ignored:
      its (prefixed) writes, then the report of its failure, if any. */
  function RequestOutput(prefixOn: bool, req: (ObjectReference, Stream),
                         consume: Stream -> (seq<string>, Option<string>)): string
  {
    var (writes, err) := consume(req.1);
    Emit(PrefixFor(prefixOn, req.0), writes) + (if err.Some? then ErrorLine(err.value) else "")
  }

  /** Each request's contribution, in walk order. */
  function RequestOutputs(prefixOn: bool, requests: seq<(ObjectReference, Stream)>,
                          consume: Stream -> (seq<string>, Option<string>)): (outs: seq<string>)
    ensures |outs| == |requests|
    ensures forall k | 0 <= k < |requests| :: outs[k] == RequestOutput(prefixOn, requests[k], consume)
  {
    seq(|requests|, k requires 0 <= k < |requests| => RequestOutput(prefixOn, requests[k], consume))
  }

  /** When every stream succeeds, the output is each request's output in
      turn; with errors ignored, each failed stream adds its report after
      what it wrote. */
  lemma {:induction false} SequentialOutputConcatenates(
    ignoreErrors: bool, prefixOn: bool, requests: seq<(ObjectReference, Stream)>,
    consume: Stream -> (seq<string>, Option<string>))
    requires ignoreErrors || forall k | 0 <= k < |requests| :: consume(requests[k].1).1.None?
    ensures SequentialConsume(ignoreErrors, prefixOn, requests, consume).0
         == Concat(RequestOutputs(prefixOn, requests, consume))
  {
    if |requests| > 0 {
      var parts := RequestOutputs(prefixOn, requests, consume);
      var tailParts := RequestOutputs(prefixOn, requests[1..], consume);
      assert forall k | 0 <= k < |requests| - 1 :: requests[1..][k] == requests[k + 1];
      SequentialOutputConcatenates(ignoreErrors, prefixOn, requests[1..], consume);
      assert parts == [parts[0]] + tailParts;
      ConcatCons(parts[0], tailParts);
    }
  }

  /** A walk whose first stream fails, with errors not ignored, ends there. */
  lemma SequentialHeadFails(prefixOn: bool, requests: seq<(ObjectReference, Stream)>,
                            consume: Stream -> (seq<string>, Option<string>))
    requires |requests| > 0 && consume(requests[0].1).1.Some?
    ensures SequentialConsume(false, prefixOn, requests, consume)
         == (Emit(PrefixFor(prefixOn, requests[0].0), consume(requests[0].1).0), consume(requests[0].1).1)
  {
  }

  /** A walk whose first stream succeeds writes that stream's output, then
      walks the rest. */
  lemma SequentialHeadPasses(ignoreErrors: bool, prefixOn: bool, requests: seq<(ObjectReference, Stream)>,
                             consume: Stream -> (seq<string>, Option<string>))
    requires |requests| > 0 && consume(requests[0].1).1.None?
    ensures var rest := SequentialConsume(ignoreErrors, prefixOn, requests[1..], consume);
      SequentialConsume(ignoreErrors, prefixOn, requests, consume)
         == (RequestOutput(prefixOn, requests[0], consume) + rest.0, rest.1)
  {
  }

  /** The outputs of a non-empty prefix of the walk start with the first
      request's output. */
  lemma RequestOutputsPrefix(prefixOn: bool, requests: seq<(ObjectReference, Stream)>,
                             consume: Stream -> (seq<string>, Option<string>), k: nat)
    requires 0 < k <= |requests|
    ensures Concat(RequestOutputs(prefixOn, requests[..k], consume))
         == RequestOutput(prefixOn, requests[0], consume) + Concat(RequestOutputs(prefixOn, requests[1..][..k - 1], consume))
  {
    var parts := RequestOutputs(prefixOn, requests[..k], consume);
    var tailParts := RequestOutputs(prefixOn, requests[1..][..k - 1], consume);
    assert parts == [parts[0]] + tailParts;
    ConcatCons(parts[0], tailParts);
  }

  /** One step of the walk to the first failure: a succeeding first stream
      puts its output in front of the rest of the walk. */
  lemma SequentialStopStep(prefixOn: bool, requests: seq<(ObjectReference, Stream)>,
                           consume: Stream -> (seq<string>, Option<string>), k: nat)
    requires 0 < k < |requests|
    requires consume(requests[0].1).1.None?
    requires SequentialConsume(false, prefixOn, requests[1..], consume)
          == (Concat(RequestOutputs(prefixOn, requests[1..][..k - 1], consume))
                + Emit(PrefixFor(prefixOn, requests[k].0), consume(requests[k].1).0),
              consume(requests[k].1).1)
    ensures SequentialConsume(false, prefixOn, requests, consume)
         == (Concat(RequestOutputs(prefixOn, requests[..k], consume))
               + Emit(PrefixFor(prefixOn, requests[k].0), consume(requests[k].1).0),
             consume(requests[k].1).1)
  {
    SequentialHeadPasses(false, prefixOn, requests, consume);
    RequestOutputsPrefix(prefixOn, requests, consume, k);
    var head := RequestOutput(prefixOn, requests[0], consume);
    var before := Concat(RequestOutputs(prefixOn, requests[1..][..k - 1], consume));
    var last := Emit(PrefixFor(prefixOn, requests[k].0), consume(requests[k].1).0);
    assert head + (before + last) == (head + before) + last;
  }

  /** When errors are not ignored, the walk stops at the first stream that
      fails: the output is what the streams before it wrote, then what that
      stream wrote, and nothing from the streams after it; its error is the
      result. */
  lemma {:induction false} SequentialStopsAtFirstFailure(
    prefixOn: bool, requests: seq<(ObjectReference, Stream)>,
    consume: Stream -> (seq<string>, Option<string>), k: nat)
    requires k < |requests|
    requires consume(requests[k].1).1.Some?
    requires forall j | 0 <= j < k :: consume(requests[j].1).1.None?
    ensures SequentialConsume(false, prefixOn, requests, consume)
         == (Concat(RequestOutputs(prefixOn, requests[..k], consume))
               + Emit(PrefixFor(prefixOn, requests[k].0), consume(requests[k].1).0),
             consume(requests[k].1).1)
  {
    if k == 0 {
      SequentialHeadFails(prefixOn, requests, consume);
      assert requests[..k] == [];
      assert Concat(RequestOutputs(prefixOn, requests[..k], consume)) == "";
      var first := Emit(PrefixFor(prefixOn, requests[0].0), consume(requests[0].1).0);
      assert "" + first == first;
    } else {
      var rest := requests[1..];
      assert forall j | 0 <= j < k - 1 :: rest[j] == requests[j + 1];
      assert rest[k - 1] == requests[k];
      SequentialStopsAtFirstFailure(prefixOn, rest, consume, k - 1);
      SequentialStopStep(prefixOn, requests, consume, k);
    }
  }
}

=== FILE: logsforobjects.dfy ===
/** logs/logsforobjects.go: expanding a pod list, a pod, or a workload
    object into the set of container log requests to open. */
module LogsForObjects {
  import opened Base
  import opened Pods
  import opened Helpers

  /** The parts of `corev1.PodLogOptions` the core sets or reads. */
  datatype PodLogOptions = PodLogOptions(
    container: string,
    follow: bool,
    previous: bool,
    timestamps: bool,
    sinceSeconds: Option<int>,
    sinceTime: Option<Time>,
    tailLines: Option<int>,
    limitBytes: Option<int>,
    insecureSkipTLSVerifyBackend: bool)

  /** The options object handed to the resolver: log options, or a value of
      some other Go type. */
  datatype OptionsObject = LogOptions(opts: PodLogOptions) | OtherOptions(typeName: string)

  /** A reference to one container of one pod. */
  datatype ObjectReference = ObjectReference(namespace: string, name: string, fieldPath: string)

  /** A deferred log request: the pod to ask and the options to ask with. */
  datatype LogRequest = LogRequest(namespace: string, podName: string, options: PodLogOptions)

  type Requests = map<ObjectReference, LogRequest>

  /** The container to read when none is named: the first regular one. An
      empty name with no regular container makes the original panic. */
  predicate CanDefault(p: Pod, container: string) {
    container != "" || |p.containers| > 0
  }

  function ChosenContainer(p: Pod, container: string): (name: string)
    requires CanDefault(p, container)
    ensures container != "" ==> name == container
    ensures container == "" ==> name == p.containers[0].name
  {
    if container == "" then p.containers[0].name else container
  }

  /** Every container of the pod, init first, then regular, then ephemeral,
      each in declaration order. */
  function AllNames(p: Pod): (names: seq<string>)
    ensures |names| == |p.initContainers| + |p.containers| + |p.ephemeralContainers|
  {
    Names(p.initContainers) + Names(p.containers) + Names(p.ephemeralContainers)
  }

  function Names(cs: seq<Container>): (names: seq<string>)
    ensures |names| == |cs|
    ensures forall k | 0 <= k < |cs| :: names[k] == cs[k].name
  {
    seq(|cs|, k requires 0 <= k < |cs| => cs[k].name)
  }

  /** The pod can be resolved without the original panicking. */
  predicate PodResolvable(p: Pod, opts: PodLogOptions, allContainers: bool) {
    if allContainers then forall k | 0 <= k < |AllNames(p)| :: CanDefault(p, AllNames(p)[k])
    else CanDefault(p, opts.container)
  }

  /** The reference under which a container's request is stored. */
  function RefFor(p: Pod, name: string): ObjectReference
  {
    ObjectReference(p.namespace, p.name, FindContainerByName(p, name).fieldPath)
  }

  /** The container a request names, or the pod's first regular one, is
      declared in some role of the pod. */
  predicate Resolves(p: Pod, container: string)
    requires CanDefault(p, container)
  {
    FindContainerByName(p, ChosenContainer(p, container)).container.Some?
  }

  /** One pod, one container: the named container, or the first regular one
      when none is named. Exactly one request, keyed by the container's
      field path and carrying the caller's options with only the container
      filled in; an error when no role declares that name. */
  function ResolveContainer(p: Pod, opts: PodLogOptions): (r: Result<Requests>)
    requires CanDefault(p, opts.container)
    ensures var name := ChosenContainer(p, opts.container);
      && (r.Ok? <==> Resolves(p, opts.container))
      && (r.Err? ==> r.msg == "container " + name + " is not valid for pod " + p.name)
      && (r.Ok? ==> |r.value| == 1 && r.value.Keys == {RefFor(p, name)})
      && (r.Ok? ==> r.value[RefFor(p, name)] == LogRequest(p.namespace, p.name, opts.(container := name)))
  {
    var name := ChosenContainer(p, opts.container);
    var currOpts := opts.(container := name);
    var lookup := FindContainerByName(p, name);
    if lookup.container.None? then
      Err("container " + name + " is not valid for pod " + p.name)
    else
      Ok(map[ObjectReference(p.namespace, p.name, lookup.fieldPath) := LogRequest(p.namespace, p.name, currOpts)])
  }

  /** Folds partial results in order: the first error wins and no partial
      map is returned; otherwise the union of the maps, a later entry
      overwriting an earlier one with the same key. */
  function MergeAll(rs: seq<Result<Requests>>): (r: Result<Requests>)
    ensures r.Ok? <==> forall k | 0 <= k < |rs| :: rs[k].Ok?
    ensures r.Err? ==> exists k | 0 <= k < |rs| :: r == rs[k] && forall j | 0 <= j < k :: rs[j].Ok?
    ensures r.Ok? && (forall k | 0 <= k < |rs| :: |rs[k].value| <= 1) ==> |r.value| <= |rs|
  {
    if |rs| == 0 then Ok(map[])
    else if rs[0].Err? then rs[0]
    else
      var tail := MergeAll(rs[1..]);
      assert forall k | 0 <= k < |rs| - 1 :: rs[1..][k] == rs[k + 1];
      if tail.Err? then
        var k :| 0 <= k < |rs| - 1 && tail == rs[1..][k] && forall j | 0 <= j < k :: rs[1..][j].Ok?;
        assert tail == rs[k + 1];
        tail
      else
        var m := rs[0].value + tail.value;
        assert m.Keys == rs[0].value.Keys + tail.value.Keys;
        assert |m.Keys| <= |rs[0].value.Keys| + |tail.value.Keys|;
        Ok(m)
  }


  /** A key is in the merged map exactly when some partial map has it. */
  lemma {:induction false} MergeAllKeys(rs: seq<Result<Requests>>, ref: ObjectReference)
    requires forall k | 0 <= k < |rs| :: rs[k].Ok?
    ensures ref in MergeAll(rs).value <==> exists k | 0 <= k < |rs| :: ref in rs[k].value
  {
    if |rs| > 0 {
      var tail := rs[1..];
      MergeAllKeys(tail, ref);
      assert MergeAll(rs).value == rs[0].value + MergeAll(tail).value;
      if ref in MergeAll(tail).value {
        var k :| 0 <= k < |tail| && ref in tail[k].value;
        assert tail[k] == rs[k + 1];
      }
      forall k | 1 <= k < |rs| && ref in rs[k].value
        ensures ref in MergeAll(tail).value
      {
        assert rs[k] == tail[k - 1];
      }
    }
  }

  /** Every entry of the merged map is an entry of some partial map. */
  lemma {:induction false} MergeAllEntries(rs: seq<Result<Requests>>, ref: ObjectReference)
    requires forall k | 0 <= k < |rs| :: rs[k].Ok?
    requires ref in MergeAll(rs).value
    ensures exists k | 0 <= k < |rs| :: ref in rs[k].value && rs[k].value[ref] == MergeAll(rs).value[ref]
  {
    assert |rs| > 0;
    var tail := MergeAll(rs[1..]);
    if ref in tail.value {
      MergeAllEntries(rs[1..], ref);
      var k :| 0 <= k < |rs| - 1 && ref in rs[1..][k].value && rs[1..][k].value[ref] == tail.value[ref];
      assert rs[1..][k] == rs[k + 1];
    }
  }

  /** The single-container attempts for each name, in order. */
  function Attempts(p: Pod, opts: PodLogOptions, names: seq<string>): (rs: seq<Result<Requests>>)
    requires forall k | 0 <= k < |names| :: CanDefault(p, names[k])
    ensures |rs| == |names|
    ensures forall k | 0 <= k < |names| :: rs[k] == ResolveContainer(p, opts.(container := names[k]))
  {
    seq(|names|, k requires 0 <= k < |names| => ResolveContainer(p, opts.(container := names[k])))
  }

  /** One single-container resolution per name, in order, stopping at the
      first failure. Succeeds exactly when every name resolves; yields at
      most one request per name, keyed by the references of the chosen
      containers and by nothing else, and the request under each chosen
      container's reference asks for that container. */
  function ResolveEach(p: Pod, opts: PodLogOptions, names: seq<string>): (r: Result<Requests>)
    requires forall k | 0 <= k < |names| :: CanDefault(p, names[k])
    ensures r.Ok? <==> forall k | 0 <= k < |names| :: Resolves(p, names[k])
    ensures r.Err? ==> exists k | 0 <= k < |names| ::
      && !Resolves(p, names[k])
      && (forall j | 0 <= j < k :: Resolves(p, names[j]))
      && r == ResolveContainer(p, opts.(container := names[k]))
    ensures r.Ok? ==> |r.value| <= |names|
    ensures r.Ok? ==> forall ref :: ref in r.value <==>
      exists k | 0 <= k < |names| :: ref == RefFor(p, ChosenContainer(p, names[k]))
    ensures r.Ok? ==> forall k | 0 <= k < |names| ::
      r.value[RefFor(p, ChosenContainer(p, names[k]))]
        == LogRequest(p.namespace, p.name, opts.(container := ChosenContainer(p, names[k])))
  {
    AttemptKeys(p, opts, names);
    AttemptValues(p, opts, names);
    MergeAll(Attempts(p, opts, names))
  }

  /** The merged attempts hold a request under the reference of every
      name's chosen container, and under no other. */
  lemma AttemptKeys(p: Pod, opts: PodLogOptions, names: seq<string>)
    requires forall k | 0 <= k < |names| :: CanDefault(p, names[k])
    ensures MergeAll(Attempts(p, opts, names)).Ok? ==>
      forall ref :: ref in MergeAll(Attempts(p, opts, names)).value <==>
        exists k | 0 <= k < |names| :: ref == RefFor(p, ChosenContainer(p, names[k]))
  {
    var rs := Attempts(p, opts, names);
    if MergeAll(rs).Ok? {
      forall ref
        ensures ref in MergeAll(rs).value <==>
          exists k | 0 <= k < |names| :: ref == RefFor(p, ChosenContainer(p, names[k]))
      {
        MergeAllKeys(rs, ref);
        forall k | 0 <= k < |names|
          ensures ChosenContainer(p, opts.(container := names[k]).container) == ChosenContainer(p, names[k])
        {
        }
      }
    }
  }

  /** The request stored under a chosen container's reference asks for
      that container: a reference names one container, since the field
      path of a found container determines its name. */
  lemma AttemptValues(p: Pod, opts: PodLogOptions, names: seq<string>)
    requires forall k | 0 <= k < |names| :: CanDefault(p, names[k])
    ensures MergeAll(Attempts(p, opts, names)).Ok? ==> forall k | 0 <= k < |names| ::
      && RefFor(p, ChosenContainer(p, names[k])) in MergeAll(Attempts(p, opts, names)).value
      && MergeAll(Attempts(p, opts, names)).value[RefFor(p, ChosenContainer(p, names[k]))]
           == LogRequest(p.namespace, p.name, opts.(container := ChosenContainer(p, names[k])))
  {
    var rs := Attempts(p, opts, names);
    if MergeAll(rs).Ok? {
      AttemptKeys(p, opts, names);
      forall k | 0 <= k < |names|
        ensures RefFor(p, ChosenContainer(p, names[k])) in MergeAll(rs).value
        ensures MergeAll(rs).value[RefFor(p, ChosenContainer(p, names[k]))]
             == LogRequest(p.namespace, p.name, opts.(container := ChosenContainer(p, names[k])))
      {
        var c := ChosenContainer(p, names[k]);
        var ref := RefFor(p, c);
        assert ref in MergeAll(rs).value;
        MergeAllEntries(rs, ref);
        var j :| 0 <= j < |rs| && ref in rs[j].value && rs[j].value[ref] == MergeAll(rs).value[ref];
        var cj := ChosenContainer(p, names[j]);
        assert ChosenContainer(p, opts.(container := names[j]).container) == cj;
        assert rs[j].value.Keys == {RefFor(p, cj)};
        FoundPathNamesContainer(p, cj, c);
      }
    }
  }

  /** Every request of a successful resolution is addressed to the pod and
      carries the caller's options with only the container changed. */
  lemma ResolveEachCarriesOptions(p: Pod, opts: PodLogOptions, names: seq<string>, ref: ObjectReference)
    requires forall k | 0 <= k < |names| :: CanDefault(p, names[k])
    requires ResolveEach(p, opts, names).Ok? && ref in ResolveEach(p, opts, names).value
    ensures ResolveEach(p, opts, names).value[ref]
         == LogRequest(p.namespace, p.name, opts.(container := ResolveEach(p, opts, names).value[ref].options.container))
  {
    MergeAllEntries(Attempts(p, opts, names), ref);
  }

  /** One pod: a single container, or every container when
      `allContainers` is set. */
  function ResolvePod(p: Pod, opts: PodLogOptions, allContainers: bool): (r: Result<Requests>)
    requires PodResolvable(p, opts, allContainers)
    ensures !allContainers ==> r == ResolveContainer(p, opts)
    ensures allContainers ==> r == ResolveEach(p, opts, AllNames(p))
  {
    if !allContainers then ResolveContainer(p, opts)
    else ResolveEach(p, opts, AllNames(p))
  }

  /** Every declared container name resolves to itself, in some role. */
  lemma {:induction false} DeclaredNameResolves(p: Pod, opts: PodLogOptions, k: nat)
    requires k < |AllNames(p)|
    requires CanDefault(p, AllNames(p)[k])
    ensures Resolves(p, AllNames(p)[k])
  {
    var names := AllNames(p);
    var name := ChosenContainer(p, names[k]);
    var ni, nr := |p.initContainers|, |p.containers|;
    if names[k] == "" {
      assert p.containers[0].name == name;
      assert Declares(p.containers, name);
    } else if k < ni {
      assert names[k] == Names(p.initContainers)[k] == p.initContainers[k].name;
      assert Declares(p.initContainers, name);
    } else if k < ni + nr {
      assert names[k] == Names(p.containers)[k - ni] == p.containers[k - ni].name;
      assert Declares(p.containers, name);
    } else {
      assert names[k] == Names(p.ephemeralContainers)[k - ni - nr] == p.ephemeralContainers[k - ni - nr].name;
      assert Declares(p.ephemeralContainers, name);
    }
  }

  /** With `allContainers`, resolution cannot fail, and yields at most one
      request per declared container (fewer when a name repeats across
      roles), each carrying the caller's options with only the container
      changed. The requests are keyed by exactly the references of the
      declared containers, so none is missed, and each asks for the
      container its reference names. */
  lemma AllContainersResolve(p: Pod, opts: PodLogOptions)
    requires PodResolvable(p, opts, true)
    ensures ResolvePod(p, opts, true).Ok?
    ensures |ResolvePod(p, opts, true).value| <= |p.initContainers| + |p.containers| + |p.ephemeralContainers|
    ensures forall ref | ref in ResolvePod(p, opts, true).value ::
      ResolvePod(p, opts, true).value[ref].options == opts.(container := ResolvePod(p, opts, true).value[ref].options.container)
    ensures forall ref :: ref in ResolvePod(p, opts, true).value <==>
      exists k | 0 <= k < |AllNames(p)| :: ref == RefFor(p, ChosenContainer(p, AllNames(p)[k]))
    ensures forall k | 0 <= k < |AllNames(p)| && AllNames(p)[k] != "" ::
      RefFor(p, AllNames(p)[k]) in ResolvePod(p, opts, true).value
    ensures forall k | 0 <= k < |AllNames(p)| ::
      ResolvePod(p, opts, true).value[RefFor(p, ChosenContainer(p, AllNames(p)[k]))]
        == LogRequest(p.namespace, p.name, opts.(container := ChosenContainer(p, AllNames(p)[k])))
  {
    var names := AllNames(p);
    forall k | 0 <= k < |names|
      ensures Resolves(p, names[k])
    {
      DeclaredNameResolves(p, opts, k);
    }
    forall ref | ref in ResolvePod(p, opts, true).value
      ensures ResolvePod(p, opts, true).value[ref].options == opts.(container := ResolvePod(p, opts, true).value[ref].options.container)
    {
      ResolveEachCarriesOptions(p, opts, names, ref);
    }
  }

  /** A pod list: the union of its members' requests, each request the one
      some member pod resolves to; the first member that fails fails the
      whole call and no partial map is returned. */
  function ResolveList(pods: seq<Pod>, opts: PodLogOptions, allContainers: bool): (r: Result<Requests>)
    requires forall k | 0 <= k < |pods| :: PodResolvable(pods[k], opts, allContainers)
    ensures r.Ok? <==> forall k | 0 <= k < |pods| :: ResolvePod(pods[k], opts, allContainers).Ok?
    ensures r.Err? ==> exists k | 0 <= k < |pods| ::
      && r == ResolvePod(pods[k], opts, allContainers)
      && forall j | 0 <= j < k :: ResolvePod(pods[j], opts, allContainers).Ok?
    ensures r.Ok? ==> forall ref | ref in r.value :: exists k | 0 <= k < |pods| ::
      && ref in ResolvePod(pods[k], opts, allContainers).value
      && r.value[ref] == ResolvePod(pods[k], opts, allContainers).value[ref]
  {
    PodAttemptEntries(pods, opts, allContainers);
    MergeAll(PodAttempts(pods, opts, allContainers))
  }

  /** Every entry of the merged per-pod resolutions is an entry of some
      member pod's own resolution. */
  lemma PodAttemptEntries(pods: seq<Pod>, opts: PodLogOptions, allContainers: bool)
    requires forall k | 0 <= k < |pods| :: PodResolvable(pods[k], opts, allContainers)
    ensures var m := MergeAll(PodAttempts(pods, opts, allContainers));
      m.Ok? ==> forall ref | ref in m.value :: exists k | 0 <= k < |pods| ::
        && ref in ResolvePod(pods[k], opts, allContainers).value
        && m.value[ref] == ResolvePod(pods[k], opts, allContainers).value[ref]
  {
    var rs := PodAttempts(pods, opts, allContainers);
    if MergeAll(rs).Ok? {
      forall ref | ref in MergeAll(rs).value
        ensures exists k | 0 <= k < |pods| ::
          && ref in ResolvePod(pods[k], opts, allContainers).value
          && MergeAll(rs).value[ref] == ResolvePod(pods[k], opts, allContainers).value[ref]
      {
        MergeAllEntries(rs, ref);
      }
    }
  }

  /** The per-pod resolutions, in list order. */
  function PodAttempts(pods: seq<Pod>, opts: PodLogOptions, allContainers: bool): (rs: seq<Result<Requests>>)
    requires forall k | 0 <= k < |pods| :: PodResolvable(pods[k], opts, allContainers)
    ensures |rs| == |pods|
    ensures forall k | 0 <= k < |pods| :: rs[k] == ResolvePod(pods[k], opts, allContainers)
  {
    seq(|pods|, k requires 0 <= k < |pods| => ResolvePod(pods[k], opts, allContainers))
  }

  /** A successful list resolution holds a request exactly for the
      references some member pod resolves to. */
  lemma ResolveListKeys(pods: seq<Pod>, opts: PodLogOptions, allContainers: bool, ref: ObjectReference)
    requires forall k | 0 <= k < |pods| :: PodResolvable(pods[k], opts, allContainers)
    requires ResolveList(pods, opts, allContainers).Ok?
    ensures ref in ResolveList(pods, opts, allContainers).value
        <==> exists k | 0 <= k < |pods| :: ref in ResolvePod(pods[k], opts, allContainers).value
  {
    MergeAllKeys(PodAttempts(pods, opts, allContainers), ref);
  }

  /** The object can be resolved without the original panicking: every pod
      it leads to can be resolved. */
  predicate Resolvable(
    o: Object, opts: PodLogOptions, allContainers: bool,
    asSelector: LabelSelector -> Result<Selector>,
    list: (string, Selector) -> Result<seq<Pod>>,
    watch: (string, Selector) -> Result<Pod>)
  {
    match o
    case PodObject(p) => PodResolvable(p, opts, allContainers)
    case PodListObject(pods) => forall k | 0 <= k < |pods| :: PodResolvable(pods[k], opts, allContainers)
    case _ =>
      match SelectorsForObject(o, asSelector)
      case Err(_) => true
      case Ok((ns, sel)) =>
        match GetFirstPod(ns, sel, list, watch)
        case Err(_) => true
        case Ok((p, _)) => PodResolvable(p, opts, allContainers)
  }

  /** `logsForObjectWithClient`: checks the options type, then expands a pod
      list, a pod, or a workload object (through its selector and the pod
      best for logging among those it selects). */
  function ResolveObject(
    o: Object, options: OptionsObject, allContainers: bool,
    asSelector: LabelSelector -> Result<Selector>,
    list: (string, Selector) -> Result<seq<Pod>>,
    watch: (string, Selector) -> Result<Pod>): (r: Result<Requests>)
    requires options.LogOptions? ==> Resolvable(o, options.opts, allContainers, asSelector, list, watch)
    ensures options.OtherOptions? ==> r == Err("provided options object is not a PodLogOptions")
    ensures options.LogOptions? && o.PodListObject? ==> r == ResolveList(o.items, options.opts, allContainers)
    ensures options.LogOptions? && o.PodObject? ==> r == ResolvePod(o.pod, options.opts, allContainers)
    ensures options.LogOptions? && !o.PodObject? && !o.PodListObject? ==>
      r == ResolveSelected(o, options.opts, allContainers, asSelector, list, watch)
  {
    match options
    case OtherOptions(_) => Err("provided options object is not a PodLogOptions")
    case LogOptions(opts) =>
      if o.PodListObject? then ResolveList(o.items, opts, allContainers)
      else if o.PodObject? then ResolvePod(o.pod, opts, allContainers)
      else ResolveSelected(o, opts, allContainers, asSelector, list, watch)
  }

  /** The default branch of `logsForObject`: an object that is neither a pod
      nor a pod list is resolved through its selector and the best pod for
      logging among those it selects. */
  function ResolveSelected(
    o: Object, opts: PodLogOptions, allContainers: bool,
    asSelector: LabelSelector -> Result<Selector>,
    list: (string, Selector) -> Result<seq<Pod>>,
    watch: (string, Selector) -> Result<Pod>): (r: Result<Requests>)
    requires !o.PodObject? && !o.PodListObject?
    requires Resolvable(o, opts, allContainers, asSelector, list, watch)
    ensures SelectorsForObject(o, asSelector).Err? ==>
      r == Err("cannot get the logs from " + TypeName(o) + ": " + SelectorsForObject(o, asSelector).msg)
    ensures SelectorsForObject(o, asSelector).Ok? ==>
      var (ns, sel) := SelectorsForObject(o, asSelector).value;
      && (GetFirstPod(ns, sel, list, watch).Err? ==> r == Err(GetFirstPod(ns, sel, list, watch).msg))
      && (GetFirstPod(ns, sel, list, watch).Ok? ==>
            var p := GetFirstPod(ns, sel, list, watch).value.0;
            PodResolvable(p, opts, allContainers) && r == ResolvePod(p, opts, allContainers))
  {
    match SelectorsForObject(o, asSelector)
    case Err(e) => Err("cannot get the logs from " + TypeName(o) + ": " + e)
    case Ok((ns, sel)) =>
      match GetFirstPod(ns, sel, list, watch)
      case Err(e) => Err(e)
      case Ok((p, _)) => ResolvePod(p, opts, allContainers)
  }
}

=== FILE: pods.dfy ===
/** Pod snapshots and the pure pod logic of util/pods.go: container lookup,
    readiness and availability, and the two six-step pod orderings
    (`ByLogging`, which picks the pod to read logs from, and its mirror
    `ActivePods`, which ranks pods for deletion). */
module Pods {
  import opened Base
  import opened Strings
  import Sorting

  /** A pod phase; any phase other than the three ranked ones gets rank 0.
      `OtherPhase` carries a phase string that is none of the five named
      phases' own names; `PhaseOf` reads a phase string that way. */
  datatype Phase = Pending | Running | Succeeded | Failed | Unknown | OtherPhase(name: string)

  /** The `corev1.PodPhase` string of a phase. */
  function PhaseName(ph: Phase): string
  {
    match ph
    case Pending => "Pending"
    case Running => "Running"
    case Succeeded => "Succeeded"
    case Failed => "Failed"
    case Unknown => "Unknown"
    case OtherPhase(name) => name
  }

  predicate NamedPhase(s: string) {
    s == "Pending" || s == "Running" || s == "Succeeded" || s == "Failed" || s == "Unknown"
  }

  /** A phase whose `OtherPhase` name does not alias a named phase. */
  predicate WellFormedPhase(ph: Phase) {
    ph.OtherPhase? ==> !NamedPhase(ph.name)
  }

  /** The phase a `corev1.PodPhase` string stands for. */
  function PhaseOf(s: string): (ph: Phase)
    ensures PhaseName(ph) == s
    ensures WellFormedPhase(ph)
    ensures ph.OtherPhase? <==> !NamedPhase(s)
  {
    if s == "Pending" then Pending
    else if s == "Running" then Running
    else if s == "Succeeded" then Succeeded
    else if s == "Failed" then Failed
    else if s == "Unknown" then Unknown
    else OtherPhase(s)
  }

  /** Reading a well-formed phase's name gives the phase back, so phases
      and phase strings are in one-to-one correspondence. */
  lemma PhaseOfName(ph: Phase)
    requires WellFormedPhase(ph)
    ensures PhaseOf(PhaseName(ph)) == ph
  {
  }

  datatype PodCondition = PodCondition(conditionType: string, status: string, lastTransitionTime: Time)

  /** The condition type and status that make a pod ready. */
  const ReadyCondition: string := "Ready"
  const ConditionTrue: string := "True"

  datatype Container = Container(name: string, image: string)

  datatype ContainerStatus = ContainerStatus(name: string, restartCount: int)

  /** The parts of a pod the core reads. */
  datatype Pod = Pod(
    name: string,
    namespace: string,
    creationTimestamp: Time,
    nodeName: string,
    initContainers: seq<Container>,
    containers: seq<Container>,
    ephemeralContainers: seq<Container>,
    phase: Phase,
    conditions: seq<PodCondition>,
    containerStatuses: seq<ContainerStatus>)

  /** The three places a container can be declared in a pod spec. */
  datatype Role = Init | Regular | Ephemeral

  /** The start of a field path into the container list of a role. */
  function RoleHead(role: Role): string
  {
    match role
    case Regular => "spec.containers{"
    case Init => "spec.initContainers{"
    case Ephemeral => "spec.ephemeralContainers{"
  }

  /** The field path naming a declared container slot. */
  function FieldPath(role: Role, name: string): string
  {
    RoleHead(role) + name + "}"
  }

  // ---------------------------------------------------------------------
  // Container lookup

  predicate Declares(cs: seq<Container>, name: string) {
    exists k | 0 <= k < |cs| :: cs[k].name == name
  }

  /** Position of the first container called `name`, or -1. */
  function FirstNamed(cs: seq<Container>, name: string): (i: int)
    ensures -1 <= i < |cs|
    ensures i == -1 <==> !Declares(cs, name)
    ensures 0 <= i ==> cs[i].name == name && forall k | 0 <= k < i :: cs[k].name != name
  {
    if |cs| == 0 then -1
    else if cs[0].name == name then 0
    else
      var j := FirstNamed(cs[1..], name);
      assert forall k | 1 <= k < |cs| :: cs[k] == cs[1..][k - 1];
      if j == -1 then -1 else j + 1
  }

  /** A container and its field path, or (nil, "") when nothing matched. */
  datatype ContainerLookup = ContainerLookup(container: Option<Container>, fieldPath: string)

  function LookupIn(cs: seq<Container>, role: Role, name: string): ContainerLookup
    requires Declares(cs, name)
  {
    ContainerLookup(Some(cs[FirstNamed(cs, name)]), FieldPath(role, name))
  }

  /** Finds the named container, searching regular, then init, then
      ephemeral containers, and reports the first match with its field path. */
  function FindContainerByName(p: Pod, name: string): (r: ContainerLookup)
    ensures r.container.None? <==>
      !Declares(p.containers, name) && !Declares(p.initContainers, name) && !Declares(p.ephemeralContainers, name)
    ensures r.container.None? ==> r.fieldPath == ""
    ensures r.container.Some? ==> r.container.value.name == name
    ensures Declares(p.containers, name) ==> r == LookupIn(p.containers, Regular, name)
    ensures !Declares(p.containers, name) && Declares(p.initContainers, name) ==>
      r == LookupIn(p.initContainers, Init, name)
    ensures !Declares(p.containers, name) && !Declares(p.initContainers, name) && Declares(p.ephemeralContainers, name) ==>
      r == LookupIn(p.ephemeralContainers, Ephemeral, name)
  {
    var i := FirstNamed(p.containers, name);
    if i >= 0 then ContainerLookup(Some(p.containers[i]), FieldPath(Regular, name))
    else
      var j := FirstNamed(p.initContainers, name);
      if j >= 0 then ContainerLookup(Some(p.initContainers[j]), FieldPath(Init, name))
      else
        var k := FirstNamed(p.ephemeralContainers, name);
        if k >= 0 then ContainerLookup(Some(p.ephemeralContainers[k]), FieldPath(Ephemeral, name))
        else ContainerLookup(None, "")
  }

  /** Distinct roles or names give distinct field paths: the role heads
      differ at their sixth character, and the name fills the rest. */
  lemma {:induction false} FieldPathInjective(r1: Role, a: string, r2: Role, b: string)
    requires FieldPath(r1, a) == FieldPath(r2, b)
    ensures r1 == r2 && a == b
  {
    var s := FieldPath(r1, a);
    assert s[5] == RoleHead(r1)[5] && s[5] == RoleHead(r2)[5];
    var h := |RoleHead(r1)|;
    assert a == s[h..|s| - 1];
    assert b == s[h..|s| - 1];
  }

  /** Two names found in the same pod under the same field path are the
      same name. */
  lemma FoundPathNamesContainer(p: Pod, a: string, b: string)
    requires FindContainerByName(p, a).container.Some? && FindContainerByName(p, b).container.Some?
    requires FindContainerByName(p, a).fieldPath == FindContainerByName(p, b).fieldPath
    ensures a == b
  {
    var ra := if Declares(p.containers, a) then Regular else if Declares(p.initContainers, a) then Init else Ephemeral;
    var rb := if Declares(p.containers, b) then Regular else if Declares(p.initContainers, b) then Init else Ephemeral;
    assert FindContainerByName(p, a).fieldPath == FieldPath(ra, a);
    assert FindContainerByName(p, b).fieldPath == FieldPath(rb, b);
    FieldPathInjective(ra, a, rb, b);
  }

  function Labels(cs: seq<Container>, suffix: string): (r: seq<string>)
    ensures |r| == |cs|
    ensures forall k | 0 <= k < |cs| :: r[k] == cs[k].name + suffix
  {
    seq(|cs|, k requires 0 <= k < |cs| => cs[k].name + suffix)
  }

  /** The labels listed by `AllContainerNames`: regular containers by name,
      then ephemeral ones tagged " (ephem)", then init ones tagged " (init)". */
  function ContainerLabels(p: Pod): (r: seq<string>)
    ensures |r| == |p.containers| + |p.ephemeralContainers| + |p.initContainers|
    ensures forall k | 0 <= k < |p.containers| :: r[k] == p.containers[k].name
    ensures forall k | 0 <= k < |p.ephemeralContainers| ::
      r[|p.containers| + k] == p.ephemeralContainers[k].name + " (ephem)"
    ensures forall k | 0 <= k < |p.initContainers| ::
      r[|p.containers| + |p.ephemeralContainers| + k] == p.initContainers[k].name + " (init)"
  {
    Labels(p.containers, "") + Labels(p.ephemeralContainers, " (ephem)") + Labels(p.initContainers, " (init)")
  }

  /** No container of the pod has a comma in its name. */
  predicate CommaFreeNames(p: Pod) {
    && (forall k | 0 <= k < |p.containers| :: ',' !in p.containers[k].name)
    && (forall k | 0 <= k < |p.ephemeralContainers| :: ',' !in p.ephemeralContainers[k].name)
    && (forall k | 0 <= k < |p.initContainers| :: ',' !in p.initContainers[k].name)
  }

  /** Every container of the pod, as one comma-separated list: empty for a
      pod without containers, and otherwise, when no name has a comma,
      splitting on commas gives back one label per container. */
  function AllContainerNames(p: Pod): (r: string)
    ensures |ContainerLabels(p)| == 0 ==> r == ""
    ensures |ContainerLabels(p)| > 0 && CommaFreeNames(p) ==> Split(r, ',') == SpaceLed(ContainerLabels(p))
  {
    var labels := ContainerLabels(p);
    if |labels| > 0 && CommaFreeNames(p) then
      assert forall k | 0 <= k < |labels| :: ',' !in labels[k] by {
        assert ',' !in " (ephem)" && ',' !in " (init)";
      }
      SplitCommaSpace(labels);
      Join(labels, ", ")
    else
      Join(labels, ", ")
  }

  // ---------------------------------------------------------------------
  // Readiness and availability

  /** Position of the first condition of the given type, or -1. */
  function ConditionIndex(conditions: seq<PodCondition>, conditionType: string): (i: int)
    ensures -1 <= i < |conditions|
    ensures i == -1 <==> forall k | 0 <= k < |conditions| :: conditions[k].conditionType != conditionType
    ensures 0 <= i ==> conditions[i].conditionType == conditionType
    ensures 0 <= i ==> forall k | 0 <= k < i :: conditions[k].conditionType != conditionType
  {
    if |conditions| == 0 then -1
    else if conditions[0].conditionType == conditionType then 0
    else
      var j := ConditionIndex(conditions[1..], conditionType);
      assert forall k | 1 <= k < |conditions| :: conditions[k] == conditions[1..][k - 1];
      if j == -1 then -1 else j + 1
  }

  /** The pod's first `Ready` condition, if it has one. */
  function ReadyConditionOf(p: Pod): (c: Option<PodCondition>)
    ensures c.None? <==> ConditionIndex(p.conditions, ReadyCondition) < 0
    ensures c.None? <==> forall k | 0 <= k < |p.conditions| :: p.conditions[k].conditionType != ReadyCondition
    ensures c.Some? ==> c.value == p.conditions[ConditionIndex(p.conditions, ReadyCondition)]
    ensures c.Some? ==> c.value in p.conditions && c.value.conditionType == ReadyCondition
  {
    var i := ConditionIndex(p.conditions, ReadyCondition);
    if i < 0 then None else Some(p.conditions[i])
  }

  /** A pod is ready when its first `Ready` condition has status `True`; a
      later `Ready` condition does not count. */
  predicate IsPodReady(p: Pod)
    ensures IsPodReady(p) <==> exists k | 0 <= k < |p.conditions| ::
      && p.conditions[k].conditionType == ReadyCondition
      && p.conditions[k].status == ConditionTrue
      && forall j | 0 <= j < k :: p.conditions[j].conditionType != ReadyCondition
  {
    var c := ReadyConditionOf(p);
    c.Some? && c.value.status == ConditionTrue
  }

  /** Available: ready, and either no minimum ready period is asked for or
      the ready transition is known and lies more than that period before
      `now`. */
  predicate IsPodAvailable(p: Pod, minReadySeconds: int, now: Time)
    ensures IsPodAvailable(p, minReadySeconds, now) ==> IsPodReady(p)
    ensures IsPodReady(p) && minReadySeconds == 0 ==> IsPodAvailable(p, minReadySeconds, now)
    ensures IsPodAvailable(p, minReadySeconds, now) && minReadySeconds != 0 ==>
      ReadyConditionOf(p).value.lastTransitionTime != ZeroTime
    ensures IsPodReady(p) && minReadySeconds != 0 ==>
      var lt := ReadyConditionOf(p).value.lastTransitionTime;
      (IsPodAvailable(p, minReadySeconds, now) <==> lt != ZeroTime && lt + minReadySeconds * Second < now)
  {
    if !IsPodReady(p) then false
    else
      var c := ReadyConditionOf(p).value;
      minReadySeconds == 0
      || (c.lastTransitionTime != ZeroTime && c.lastTransitionTime + minReadySeconds * Second < now)
  }

  /** A pod that is available stays available later on, and under any
      shorter non-negative minimum ready period. */
  lemma AvailabilityMonotone(p: Pod, m: int, m': int, now: Time, later: Time)
    requires IsPodAvailable(p, m, now)
    requires 0 <= m' <= m && now <= later
    ensures IsPodAvailable(p, m', later)
  {
    var c := ReadyConditionOf(p).value;
    if m' != 0 {
      assert m' * Second <= m * Second;
    }
  }

  predicate ReadyAndTrue(c: PodCondition) {
    c.conditionType == ReadyCondition && c.status == ConditionTrue
  }

  /** Transition time of the first condition that is both `Ready` and
      `True`; the zero time when there is none. */
  function ReadyTimeIn(conditions: seq<PodCondition>): (t: Time)
    ensures (forall k | 0 <= k < |conditions| :: !ReadyAndTrue(conditions[k])) ==> t == ZeroTime
    ensures forall k | 0 <= k < |conditions| && ReadyAndTrue(conditions[k]) ::
      (forall j | 0 <= j < k :: !ReadyAndTrue(conditions[j])) ==> t == conditions[k].lastTransitionTime
  {
    if |conditions| == 0 then ZeroTime
    else if conditions[0].conditionType == ReadyCondition && conditions[0].status == ConditionTrue
    then conditions[0].lastTransitionTime
    else
      assert forall k | 1 <= k < |conditions| :: conditions[k] == conditions[1..][k - 1];
      ReadyTimeIn(conditions[1..])
  }

  /** `podReadyTime`: when the pod became ready, by its first condition that
      is `Ready` and `True`; the zero time when it has none. */
  function PodReadyTime(p: Pod): (t: Time)
    ensures (forall k | 0 <= k < |p.conditions| :: !ReadyAndTrue(p.conditions[k])) ==> t == ZeroTime
    ensures forall k | 0 <= k < |p.conditions| && ReadyAndTrue(p.conditions[k]) ::
      (forall j | 0 <= j < k :: !ReadyAndTrue(p.conditions[j])) ==> t == p.conditions[k].lastTransitionTime
  {
    ReadyTimeIn(p.conditions)
  }

  /** For a ready pod the ready time is the transition time of its `Ready`
      condition, the one readiness itself was read from. */
  lemma {:induction false} ReadyTimeOfReadyPod(p: Pod)
    requires IsPodReady(p)
    ensures PodReadyTime(p) == ReadyConditionOf(p).value.lastTransitionTime
  {
    ReadyTimeAtFirstReady(p.conditions, ConditionIndex(p.conditions, ReadyCondition));
  }

  lemma {:induction false} ReadyTimeAtFirstReady(conditions: seq<PodCondition>, i: int)
    requires 0 <= i < |conditions|
    requires conditions[i].conditionType == ReadyCondition && conditions[i].status == ConditionTrue
    requires forall k | 0 <= k < i :: conditions[k].conditionType != ReadyCondition
    ensures ReadyTimeIn(conditions) == conditions[i].lastTransitionTime
  {
    if i > 0 {
      assert forall k | 0 <= k < i - 1 :: conditions[1..][k] == conditions[k + 1];
      ReadyTimeAtFirstReady(conditions[1..], i - 1);
    }
  }

  function Max(a: int, b: int): int { if a >= b then a else b }

  /** The largest restart count, starting from 0. */
  function MaxRestarts(statuses: seq<ContainerStatus>): (m: int)
    ensures m >= 0
    ensures forall k | 0 <= k < |statuses| :: statuses[k].restartCount <= m
    ensures m == 0 || exists k | 0 <= k < |statuses| :: statuses[k].restartCount == m
  {
    if |statuses| == 0 then 0
    else
      var init := statuses[..|statuses| - 1];
      var m := MaxRestarts(init);
      assert forall k | 0 <= k < |init| :: init[k] == statuses[k];
      Max(m, statuses[|statuses| - 1].restartCount)
  }

  /** `maxContainerRestarts`: the largest restart count among the pod's
      container statuses, 0 when there is none. */
  function MaxContainerRestarts(p: Pod): (m: int)
    ensures m >= 0
    ensures forall k | 0 <= k < |p.containerStatuses| :: p.containerStatuses[k].restartCount <= m
    ensures m == 0 || exists k | 0 <= k < |p.containerStatuses| :: p.containerStatuses[k].restartCount == m
  {
    MaxRestarts(p.containerStatuses)
  }

  // ---------------------------------------------------------------------
  // The two pod orderings

  /** True when `t1` is after `t2`, a zero time counting as later than any
      other; of two zero times the first counts as later. */
  predicate AfterOrZero(t1: Time, t2: Time)
    ensures t1 == ZeroTime ==> AfterOrZero(t1, t2)
    ensures t1 != ZeroTime && t2 == ZeroTime ==> !AfterOrZero(t1, t2)
    ensures t1 != ZeroTime && t2 != ZeroTime ==> (AfterOrZero(t1, t2) <==> t1 > t2)
  {
    if t1 == ZeroTime || t2 == ZeroTime then t1 == ZeroTime else t1 > t2
  }

  /** Of two distinct times exactly one is after the other, a zero time
      being after every other time; two zero times are each after the
      other. */
  lemma AfterOrZeroZeroIsLast(t1: Time, t2: Time)
    ensures AfterOrZero(ZeroTime, ZeroTime)
    ensures t1 != t2 ==> AfterOrZero(t1, t2) != AfterOrZero(t2, t1)
    ensures t1 != ZeroTime && t2 != ZeroTime ==> (AfterOrZero(t1, t2) <==> t1 > t2)
    ensures t1 != t2 && t1 == ZeroTime ==> AfterOrZero(t1, t2)
  {
  }

  /** Phase rank for logging: Running 0, Unknown 1, Pending 2, others 0. */
  function LoggingPhaseRank(phase: Phase): nat
  {
    match phase
    case Running => 0
    case Unknown => 1
    case Pending => 2
    case _ => 0
  }

  /** Phase rank for deletion: Pending 0, Unknown 1, Running 2, others 0. */
  function ActivePhaseRank(phase: Phase): nat
  {
    match phase
    case Pending => 0
    case Unknown => 1
    case Running => 2
    case _ => 0
  }

  predicate Assigned(p: Pod) { |p.nodeName| > 0 }

  /** `ByLogging.Less`: the pod whose logs are most useful comes first;
      exactly the lexicographic order of the logging key. */
  predicate ByLoggingLess(a: Pod, b: Pod)
    ensures ByLoggingLess(a, b) <==> SeqLess(LoggingKey(a), LoggingKey(b))
  {
    Unfold8(LoggingKey(a), LoggingKey(b));
    if a.nodeName != b.nodeName && (|a.nodeName| == 0 || |b.nodeName| == 0) then
      |a.nodeName| > 0
    else if LoggingPhaseRank(a.phase) != LoggingPhaseRank(b.phase) then
      LoggingPhaseRank(a.phase) < LoggingPhaseRank(b.phase)
    else if IsPodReady(a) != IsPodReady(b) then
      IsPodReady(a)
    else if IsPodReady(a) && IsPodReady(b) && PodReadyTime(a) != PodReadyTime(b) then
      AfterOrZero(PodReadyTime(b), PodReadyTime(a))
    else if MaxContainerRestarts(a) != MaxContainerRestarts(b) then
      MaxContainerRestarts(a) > MaxContainerRestarts(b)
    else if a.creationTimestamp != b.creationTimestamp then
      AfterOrZero(b.creationTimestamp, a.creationTimestamp)
    else
      false
  }

  /** `ActivePods.Less`: the pod to delete first comes first; exactly the
      lexicographic order of the deletion key. */
  predicate ActivePodsLess(a: Pod, b: Pod)
    ensures ActivePodsLess(a, b) <==> SeqLess(ActiveKey(a), ActiveKey(b))
  {
    Unfold8(ActiveKey(a), ActiveKey(b));
    if a.nodeName != b.nodeName && (|a.nodeName| == 0 || |b.nodeName| == 0) then
      |a.nodeName| == 0
    else if ActivePhaseRank(a.phase) != ActivePhaseRank(b.phase) then
      ActivePhaseRank(a.phase) < ActivePhaseRank(b.phase)
    else if IsPodReady(a) != IsPodReady(b) then
      !IsPodReady(a)
    else if IsPodReady(a) && IsPodReady(b) && PodReadyTime(a) != PodReadyTime(b) then
      AfterOrZero(PodReadyTime(a), PodReadyTime(b))
    else if MaxContainerRestarts(a) != MaxContainerRestarts(b) then
      MaxContainerRestarts(a) > MaxContainerRestarts(b)
    else if a.creationTimestamp != b.creationTimestamp then
      AfterOrZero(a.creationTimestamp, b.creationTimestamp)
    else
      false
  }

  /** The logging order as a key, smallest first: assigned, phase rank,
      ready, ready time (only for ready pods; older first, zero last),
      restarts (more first), creation time (older first, zero last). */
  function LoggingKey(p: Pod): seq<int>
  {
    var ready := IsPodReady(p);
    var rt := PodReadyTime(p);
    [ if Assigned(p) then 0 else 1,
      LoggingPhaseRank(p.phase),
      if ready then 0 else 1,
      if ready && rt == ZeroTime then 1 else 0,
      if ready then rt else 0,
      -MaxContainerRestarts(p),
      if p.creationTimestamp == ZeroTime then 1 else 0,
      p.creationTimestamp ]
  }

  /** The deletion order as a key, smallest first: unassigned, phase rank,
      not ready, ready time (only for ready pods; zero first, then newest),
      restarts (more first), creation time (zero first, then newest). */
  function ActiveKey(p: Pod): seq<int>
  {
    var ready := IsPodReady(p);
    var rt := PodReadyTime(p);
    [ if Assigned(p) then 1 else 0,
      ActivePhaseRank(p.phase),
      if ready then 1 else 0,
      if ready && rt != ZeroTime then 1 else 0,
      if ready then -rt else 0,
      -MaxContainerRestarts(p),
      if p.creationTimestamp != ZeroTime then 1 else 0,
      -p.creationTimestamp ]
  }

  lemma Unfold8(a: seq<int>, b: seq<int>)
    requires |a| == 8 && |b| == 8
    ensures SeqLess(a, b) <==>
      if a[0] != b[0] then a[0] < b[0]
      else if a[1] != b[1] then a[1] < b[1]
      else if a[2] != b[2] then a[2] < b[2]
      else if a[3] != b[3] then a[3] < b[3]
      else if a[4] != b[4] then a[4] < b[4]
      else if a[5] != b[5] then a[5] < b[5]
      else if a[6] != b[6] then a[6] < b[6]
      else if a[7] != b[7] then a[7] < b[7]
      else false
  {
    assert LexFrom(a, b, 7) <==> if a[7] != b[7] then a[7] < b[7] else LexFrom(a, b, 8);
    assert LexFrom(a, b, 6) <==> if a[6] != b[6] then a[6] < b[6] else LexFrom(a, b, 7);
    assert LexFrom(a, b, 5) <==> if a[5] != b[5] then a[5] < b[5] else LexFrom(a, b, 6);
    assert LexFrom(a, b, 4) <==> if a[4] != b[4] then a[4] < b[4] else LexFrom(a, b, 5);
    assert LexFrom(a, b, 3) <==> if a[3] != b[3] then a[3] < b[3] else LexFrom(a, b, 4);
    assert LexFrom(a, b, 2) <==> if a[2] != b[2] then a[2] < b[2] else LexFrom(a, b, 3);
    assert LexFrom(a, b, 1) <==> if a[1] != b[1] then a[1] < b[1] else LexFrom(a, b, 2);
  }

  /** `ByLogging.Less` is a strict weak order, as `sort.Sort` requires. */
  lemma ByLoggingIsStrictWeakOrder()
    ensures Sorting.StrictWeakOrder(ByLoggingLess)
  {
    assert forall a, b :: ByLoggingLess(a, b) <==> SeqLess(LoggingKey(a), LoggingKey(b));
    Sorting.KeyedOrderIsStrictWeak(ByLoggingLess, LoggingKey);
  }

  /** `ActivePods.Less` is a strict weak order, as `sort.Sort` requires. */
  lemma ActivePodsIsStrictWeakOrder()
    ensures Sorting.StrictWeakOrder(ActivePodsLess)
  {
    assert forall a, b :: ActivePodsLess(a, b) <==> SeqLess(ActiveKey(a), ActiveKey(b));
    Sorting.KeyedOrderIsStrictWeak(ActivePodsLess, ActiveKey);
  }

  /** The six ranking keys of the logging order agree. */
  predicate SameLoggingRank(a: Pod, b: Pod) {
    && Assigned(a) == Assigned(b)
    && LoggingPhaseRank(a.phase) == LoggingPhaseRank(b.phase)
    && IsPodReady(a) == IsPodReady(b)
    && (IsPodReady(a) ==> PodReadyTime(a) == PodReadyTime(b))
    && MaxContainerRestarts(a) == MaxContainerRestarts(b)
    && a.creationTimestamp == b.creationTimestamp
  }

  /** `ByLogging.Less` is irreflexive and asymmetric, and it answers false
      both ways exactly when all six keys tie. */
  lemma ByLoggingTies(a: Pod, b: Pod)
    ensures !ByLoggingLess(a, a)
    ensures ByLoggingLess(a, b) ==> !ByLoggingLess(b, a)
    ensures Sorting.Tied(ByLoggingLess, a, b) <==> SameLoggingRank(a, b)
  {
    assert ByLoggingLess(a, a) <==> SeqLess(LoggingKey(a), LoggingKey(a));
    SeqLessStrictTotal(LoggingKey(a), LoggingKey(b), LoggingKey(a));
    SeqLessStrictTotal(LoggingKey(b), LoggingKey(a), LoggingKey(b));
    var ka, kb := LoggingKey(a), LoggingKey(b);
    if SameLoggingRank(a, b) {
      assert forall k | 0 <= k < 8 :: ka[k] == kb[k];
      assert ka == kb;
    }
  }

  predicate RankedPhase(phase: Phase) {
    phase == Running || phase == Unknown || phase == Pending
  }

  /** The deletion order mirrors the logging order, except that restart
      counts point the same way in both: for pods in ranked phases with the
      same restart count, `a` is deleted first exactly when `b` is the
      better pod to log from. */
  lemma ActivePodsMirrorsByLogging(a: Pod, b: Pod)
    requires RankedPhase(a.phase) && RankedPhase(b.phase)
    requires MaxContainerRestarts(a) == MaxContainerRestarts(b)
    ensures ActivePodsLess(a, b) <==> ByLoggingLess(b, a)
  {
  }

  /** When the first four keys tie, both orders put the pod with more
      restarts first. */
  lemma RestartsRankAlikeInBothOrders(a: Pod, b: Pod)
    requires Assigned(a) == Assigned(b)
    requires a.phase == b.phase
    requires IsPodReady(a) == IsPodReady(b)
    requires IsPodReady(a) ==> PodReadyTime(a) == PodReadyTime(b)
    requires MaxContainerRestarts(a) > MaxContainerRestarts(b)
    ensures ByLoggingLess(a, b) && ActivePodsLess(a, b)
  {
  }

  // ---------------------------------------------------------------------
  // Choosing a pod

  /** The first pod after sorting by `ByLogging`: a member of the list that
      no other member ranks before. */
  function FirstByLogging(pods: seq<Pod>): (p: Pod)
    requires |pods| > 0
    ensures p in pods
    ensures forall q | q in pods :: !ByLoggingLess(q, p)
  {
    ByLoggingIsStrictWeakOrder();
    Sorting.SortedHeadIsMinimal(ByLoggingLess, pods);
    Sorting.Sort(ByLoggingLess, pods)[0]
  }

  /** The pure part of `GetFirstPod`: list the pods matching a selector;
      when there are some, return the best for logging and how many matched;
      otherwise wait for one to appear (`watch`, which also reports a
      timeout as an error) and count it as the only match. */
  function GetFirstPod<S>(
    namespace: string, selector: S,
    list: (string, S) -> Result<seq<Pod>>,
    watch: (string, S) -> Result<Pod>): (r: Result<(Pod, nat)>)
    ensures list(namespace, selector).Err? ==> r == Err(list(namespace, selector).msg)
    ensures list(namespace, selector).Ok? && |list(namespace, selector).value| > 0 ==>
      var pods := list(namespace, selector).value;
      && r.Ok?
      && r.value.0 in pods
      && (forall q | q in pods :: !ByLoggingLess(q, r.value.0))
      && r.value.1 == |pods|
    ensures list(namespace, selector) == Ok([]) ==>
      match watch(namespace, selector)
      case Ok(p) => r == Ok((p, 1))
      case Err(e) => r == Err(e)
  {
    match list(namespace, selector)
    case Err(e) => Err(e)
    case Ok(pods) =>
      if |pods| > 0 then Ok((FirstByLogging(pods), |pods|))
      else
        match watch(namespace, selector)
        case Err(e) => Err(e)
        case Ok(p) => Ok((p, 1))
  }
}

=== FILE: record.dfy ===
/** logs/record.go: the structured view of a log line (timestamp, level,
    source, message) and the consumer that hands each line's record to a
    callback. */
module Records {
  import opened Base
  import opened Strings
  import opened Helpers
  import opened Logs

  datatype Record = Record(timestamp: Time, level: string, source: string, msg: string)

  /** The zero `Record`. */
  const EmptyRecord: Record := Record(ZeroTime, "", "", "")

  /** The text before the first space, or all of it when there is none. */
  function CutAtSpace(s: string): (r: string)
    ensures ' ' !in r
    ensures ' ' !in s ==> r == s
    ensures ' ' in s ==> |r| < |s| && s[..|r|] == r && s[|r|] == ' '
  {
    var i := IndexOf(s, ' ');
    if i == -1 then s else s[..i]
  }

  /** The time `time.Parse` gives for `s`: its zero value on failure. */
  function ParsedOrZero(s: string, parse: (Layout, string) -> Result<Time>): (t: Time)
    ensures parse(RFC3339, s).Ok? ==> t == parse(RFC3339, s).value
    ensures parse(RFC3339, s).Err? ==> t == ZeroTime
  {
    match parse(RFC3339, s)
    case Ok(t) => t
    case Err(_) => ZeroTime
  }

  /** `newRecord`: the fields of a tab-separated line. Fewer than three
      fields give the zero record. Otherwise the timestamp is the first field
      cut at its first space (zero when it does not parse), level and source
      are the next two fields verbatim, and the message is the remaining
      fields joined with single spaces, with outer white space trimmed. */
  function NewRecord(line: string, parse: (Layout, string) -> Result<Time>): (r: Record)
    ensures |Split(line, '\t')| < 3 ==> r == EmptyRecord
    ensures |Split(line, '\t')| >= 3 ==>
      var parts := Split(line, '\t');
      && r.timestamp == ParsedOrZero(CutAtSpace(parts[0]), parse)
      && r.level == parts[1] && r.source == parts[2]
      && r.msg == TrimSpace(Join(parts[3..], " "))
    ensures '\t' !in r.level && '\t' !in r.source && '\t' !in r.msg
  {
    var parts := Split(line, '\t');
    if |parts| < 3 then EmptyRecord
    else
      JoinKeepsOut(parts[3..], " ", '\t');
      var joined := Join(parts[3..], " ");
      var msg := TrimSpace(joined);
      assert forall k | 0 <= k < |msg| :: msg[k] in joined;
      Record(ParsedOrZero(CutAtSpace(parts[0]), parse), parts[1], parts[2], msg)
  }

  /** Joining pieces that avoid `c` with a separator that avoids it gives
      text that avoids it. */
  lemma {:induction false} JoinKeepsOut(parts: seq<string>, sep: string, c: char)
    requires c !in sep
    requires forall k | 0 <= k < |parts| :: c !in parts[k]
    ensures c !in Join(parts, sep)
  {
    if |parts| > 1 {
      JoinKeepsOut(parts[1..], sep, c);
    }
  }

  /** A line without tabs, such as "garbage", gives the zero record. */
  lemma LineWithoutTabsIsEmpty(line: string, parse: (Layout, string) -> Result<Time>)
    requires '\t' !in line
    ensures NewRecord(line, parse) == EmptyRecord
  {
  }

  /** A record written as tab-separated fields and a newline is read back:
      the timestamp from the first field, the level and source verbatim,
      the message without the newline. */
  lemma NewRecordRoundTrip(ts: string, level: string, source: string, msg: string,
                           parse: (Layout, string) -> Result<Time>)
    requires ' ' !in ts && '\t' !in ts
    requires '\t' !in level && '\t' !in source && '\t' !in msg
    requires |msg| > 0 ==> !IsSpace(msg[0]) && !IsSpace(msg[|msg| - 1])
    ensures NewRecord(ts + "\t" + level + "\t" + source + "\t" + msg + "\n", parse)
         == Record(ParsedOrZero(ts, parse), level, source, msg)
  {
    var last := msg + "\n";
    var parts := [ts, level, source, last];
    Join4(ts, level, source, last, "\t");
    assert '\t' !in last;
    SplitJoin(parts, '\t');
    var line := ts + "\t" + level + "\t" + source + "\t" + msg + "\n";
    assert line == Join(parts, "\t");
    assert parts[3..] == [last];
    assert Join(parts[3..], " ") == last;
    TrimSpaceAppendedSpace(msg, "\n");
  }

  /** With exactly three fields the line's newline stays in the source. */
  lemma ThreeFieldsKeepNewlineInSource(ts: string, level: string, source: string,
                                       parse: (Layout, string) -> Result<Time>)
    requires '\t' !in ts && '\t' !in level && '\t' !in source
    ensures NewRecord(ts + "\t" + level + "\t" + source + "\n", parse).source == source + "\n"
    ensures NewRecord(ts + "\t" + level + "\t" + source + "\n", parse).msg == ""
  {
    var last := source + "\n";
    var line := ts + "\t" + level + "\t" + source + "\n";
    assert line == ts + "\t" + level + "\t" + last;
    SplitThree(ts, level, last, '\t');
    NoMoreFieldsNoMessage(Split(line, '\t'));
  }

  /** Three separator-free pieces joined by the separator split back apart. */
  lemma SplitThree(a: string, b: string, c: string, sep: char)
    requires sep !in a && sep !in b && sep !in c
    ensures Split(a + [sep] + b + [sep] + c, sep) == [a, b, c]
  {
    Join3(a, b, c, [sep]);
    SplitJoin([a, b, c], sep);
  }

  /** With no field after the source, the message is empty. */
  lemma NoMoreFieldsNoMessage(parts: seq<string>)
    requires |parts| == 3
    ensures TrimSpace(Join(parts[3..], " ")) == ""
  {
    assert parts[3..] == [];
  }

  /** The timestamp of a line with at least three fields comes from its
      first field. */
  lemma TimestampOfFirstField(line: string, parse: (Layout, string) -> Result<Time>)
    requires |Split(line, '\t')| >= 3
    ensures NewRecord(line, parse).timestamp == ParsedOrZero(CutAtSpace(Split(line, '\t')[0]), parse)
  {
  }

  /** A first field holding a space is cut there. */
  lemma CutAtFirstSpace(ts: string, extra: string)
    requires ' ' !in ts
    ensures CutAtSpace(ts + " " + extra) == ts
  {
    var first := ts + " " + extra;
    assert first == ts + [' '] + extra;
    IndexOfAfterPrefix(ts, ' ', extra);
    assert first[..|ts|] == ts;
  }

  /** Only the part of the first field before a space is parsed. */
  lemma TimestampIsCutAtSpace(ts: string, extra: string, rest: string,
                              parse: (Layout, string) -> Result<Time>)
    requires ' ' !in ts && '\t' !in ts && '\t' !in extra
    requires |Split(rest, '\t')| >= 2
    ensures NewRecord(ts + " " + extra + "\t" + rest, parse).timestamp == ParsedOrZero(ts, parse)
  {
    var first := ts + " " + extra;
    var line := ts + " " + extra + "\t" + rest;
    assert line == first + ['\t'] + rest;
    assert '\t' !in first;
    SplitCons(first, '\t', rest);
    CutAtFirstSpace(ts, extra);
    TimestampOfFirstField(line, parse);
  }

  /** `Record.String`: the formatted time, level, source and message,
      separated by single spaces. `format` stands for `Time.Format` with
      the RFC 3339 layout. */
  function RecordString(r: Record, format: Time -> string): (s: string)
    ensures s == format(r.timestamp) + " " + r.level + " " + r.source + " " + r.msg
    ensures |s| == |format(r.timestamp)| + |r.level| + |r.source| + |r.msg| + 3
  {
    Join4(format(r.timestamp), r.level, r.source, r.msg, " ");
    Join([format(r.timestamp), r.level, r.source, r.msg], " ")
  }

  /** Space-free fields can be read back from the printed record. */
  lemma RecordStringSplits(r: Record, format: Time -> string)
    requires ' ' !in format(r.timestamp) && ' ' !in r.level && ' ' !in r.source && ' ' !in r.msg
    ensures Split(RecordString(r, format), ' ') == [format(r.timestamp), r.level, r.source, r.msg]
  {
    SplitJoin([format(r.timestamp), r.level, r.source, r.msg], ' ');
  }

  /** The record of each line, in order. */
  function ParseLines(lines: seq<string>, parse: (Layout, string) -> Result<Time>): (rs: seq<Record>)
    ensures |rs| == |lines|
    ensures forall k | 0 <= k < |lines| :: rs[k] == NewRecord(lines[k], parse)
  {
    seq(|lines|, k requires 0 <= k < |lines| => NewRecord(lines[k], parse))
  }

  /** The records with a non-zero timestamp, in order. */
  function Kept(recs: seq<Record>): (rs: seq<Record>)
    ensures |rs| <= |recs|
    ensures forall k | 0 <= k < |rs| :: rs[k].timestamp != ZeroTime
  {
    if |recs| == 0 then []
    else (if recs[0].timestamp == ZeroTime then [] else [recs[0]]) + Kept(recs[1..])
  }

  /** Nothing is dropped, and the order is kept, when every timestamp is
      set; everything is dropped when none is. */
  lemma {:induction false} KeptAllOrNone(recs: seq<Record>)
    ensures (forall k | 0 <= k < |recs| :: recs[k].timestamp != ZeroTime) ==> Kept(recs) == recs
    ensures (forall k | 0 <= k < |recs| :: recs[k].timestamp == ZeroTime) ==> Kept(recs) == []
  {
    if |recs| > 0 {
      KeptAllOrNone(recs[1..]);
      assert forall k | 1 <= k < |recs| :: recs[k] == recs[1..][k - 1];
      assert recs == [recs[0]] + recs[1..];
    }
  }

  /** A record is kept exactly when it is among the input and its timestamp
      is not zero. */
  lemma {:induction false} KeptMembers(recs: seq<Record>, rec: Record)
    ensures rec in Kept(recs) <==> rec in recs && rec.timestamp != ZeroTime
  {
    if |recs| > 0 {
      KeptMembers(recs[1..], rec);
      assert recs == [recs[0]] + recs[1..];
    }
  }

  /** Hands each record with a non-zero timestamp to `handler`, in order,
      and stops at the first error it returns. The result is the records
      handed over and that error. */
  function HandleRecords(recs: seq<Record>, handler: Record -> Option<string>): (r: (seq<Record>, Option<string>))
    ensures |r.0| <= |Kept(recs)| && r.0 == Kept(recs)[..|r.0|]
    ensures r.1.None? ==> r.0 == Kept(recs)
    ensures r.1.None? ==> forall k | 0 <= k < |r.0| :: handler(r.0[k]).None?
    ensures r.1.Some? ==>
      && |r.0| > 0 && r.1 == handler(r.0[|r.0| - 1])
      && forall k | 0 <= k < |r.0| - 1 :: handler(r.0[k]).None?
  {
    if |recs| == 0 then ([], None)
    else
      var rec := recs[0];
      var next := HandleRecords(recs[1..], handler);
      if rec.timestamp == ZeroTime then
        assert Kept(recs) == Kept(recs[1..]);
        next
      else if handler(rec).Some? then ([rec], handler(rec))
      else
        assert Kept(recs) == [rec] + Kept(recs[1..]);
        ([rec] + next.0, next.1)
  }

  /** The `k`-th kept record is the first whose handler fails. */
  predicate FirstFailing(kept: seq<Record>, handler: Record -> Option<string>, k: int) {
    && 0 <= k < |kept|
    && handler(kept[k]).Some?
    && forall j | 0 <= j < k :: handler(kept[j]).None?
  }

  /** When no kept record makes the handler fail, every kept record is
      handled and no error ends the walk. */
  lemma {:induction false} HandleRecordsAllPass(recs: seq<Record>, handler: Record -> Option<string>)
    requires forall k | 0 <= k < |Kept(recs)| :: handler(Kept(recs)[k]).None?
    ensures HandleRecords(recs, handler) == (Kept(recs), None)
  {
    if |recs| > 0 {
      var rec := recs[0];
      if rec.timestamp == ZeroTime {
        assert Kept(recs) == Kept(recs[1..]);
      } else {
        assert Kept(recs) == [rec] + Kept(recs[1..]);
        assert Kept(recs)[0] == rec;
        assert forall k | 0 <= k < |Kept(recs[1..])| :: Kept(recs[1..])[k] == Kept(recs)[k + 1];
      }
      HandleRecordsAllPass(recs[1..], handler);
    }
  }

  /** A first failure past the head of the kept records is a first failure
      of the rest, and the head passes. */
  lemma FirstFailingShift(rec: Record, tail: seq<Record>, handler: Record -> Option<string>, k: int)
    requires k > 0 && FirstFailing([rec] + tail, handler, k)
    ensures handler(rec).None? && FirstFailing(tail, handler, k - 1)
  {
    var kept := [rec] + tail;
    assert kept[0] == rec;
    assert forall j | 0 <= j < |tail| :: tail[j] == kept[j + 1];
  }

  /** The handler sees every kept record up to the first that fails, and
      that failure ends the walk with its error. */
  lemma {:induction false} HandleRecordsStopsAtFirstError(recs: seq<Record>, handler: Record -> Option<string>, k: int)
    requires FirstFailing(Kept(recs), handler, k)
    ensures HandleRecords(recs, handler) == (Kept(recs)[..k + 1], handler(Kept(recs)[k]))
  {
    var rec := recs[0];
    var tail := Kept(recs[1..]);
    if rec.timestamp == ZeroTime {
      assert Kept(recs) == tail;
      HandleRecordsStopsAtFirstError(recs[1..], handler, k);
    } else {
      assert Kept(recs) == [rec] + tail;
      if k == 0 {
        assert Kept(recs)[..1] == [rec];
      } else {
        FirstFailingShift(rec, tail, handler, k);
        HandleRecordsStopsAtFirstError(recs[1..], handler, k - 1);
        assert HandleRecords(recs, handler).0 == [rec] + HandleRecords(recs[1..], handler).0;
        assert ([rec] + tail)[..k + 1] == [rec] + tail[..k];
      }
    }
  }

  /** Both outcomes of the walk over the kept records. */
  lemma HandleRecordsOutcome(recs: seq<Record>, handler: Record -> Option<string>)
    ensures (forall k | 0 <= k < |Kept(recs)| :: handler(Kept(recs)[k]).None?) ==>
      HandleRecords(recs, handler) == (Kept(recs), None)
    ensures forall k | FirstFailing(Kept(recs), handler, k) ::
      HandleRecords(recs, handler) == (Kept(recs)[..k + 1], handler(Kept(recs)[k]))
  {
    var kept := Kept(recs);
    if forall k | 0 <= k < |kept| :: handler(kept[k]).None? {
      HandleRecordsAllPass(recs, handler);
    }
    forall k | FirstFailing(kept, handler, k)
      ensures HandleRecords(recs, handler) == (kept[..k + 1], handler(kept[k]))
    {
      HandleRecordsStopsAtFirstError(recs, handler, k);
    }
  }

  /** The records handed over and the error returned, for the records of
      an opened stream that ended with `readError`: a handler error wins. */
  function HandleThenRead(recs: seq<Record>, readError: Option<string>,
                          handler: Record -> Option<string>): (r: (seq<Record>, Option<string>))
    ensures |r.0| <= |Kept(recs)| && r.0 == Kept(recs)[..|r.0|]
    ensures r.1.None? ==> r.0 == Kept(recs)
    ensures r.1.Some? && r.1 != readError ==> |r.0| > 0 && r.1 == handler(r.0[|r.0| - 1])
    ensures (forall k | 0 <= k < |r.0| :: handler(r.0[k]).None?) ==> r.1 == readError
    ensures (forall k | 0 <= k < |Kept(recs)| :: handler(Kept(recs)[k]).None?) ==> r == (Kept(recs), readError)
    ensures forall k | FirstFailing(Kept(recs), handler, k) :: r == (Kept(recs)[..k + 1], handler(Kept(recs)[k]))
  {
    HandleRecordsOutcome(recs, handler);
    var h := HandleRecords(recs, handler);
    (h.0, if h.1.Some? then h.1 else readError)
  }

  /** `defaultRequestConsumeFn`: the records of the stream's complete lines
      go through `HandleRecords`; a handler error ends the read, otherwise a
      read error other than the end of the stream is returned. */
  function ConsumeRecords(st: Stream, parse: (Layout, string) -> Result<Time>,
                          handler: Record -> Option<string>): (r: (seq<Record>, Option<string>))
    ensures st.OpenFailed? ==> r == ([], Some(st.err))
    ensures st.Opened? ==>
      var kept := Kept(ParseLines(Lines(st.data), parse));
      && |r.0| <= |kept| && r.0 == kept[..|r.0|]
      && (r.1.None? ==> r.0 == kept)
    ensures st.Opened? && r.1.Some? && r.1 != st.readError ==>
      |r.0| > 0 && r.1 == handler(r.0[|r.0| - 1])
    ensures st.Opened? && (forall k | 0 <= k < |r.0| :: handler(r.0[k]).None?) ==> r.1 == st.readError
    ensures st.Opened? ==>
      var kept := Kept(ParseLines(Lines(st.data), parse));
      (forall k | 0 <= k < |kept| :: handler(kept[k]).None?) ==> r == (kept, st.readError)
    ensures st.Opened? ==>
      var kept := Kept(ParseLines(Lines(st.data), parse));
      forall k | FirstFailing(kept, handler, k) :: r == (kept[..k + 1], handler(kept[k]))
  {
    if st.OpenFailed? then ([], Some(st.err))
    else HandleThenRead(ParseLines(Lines(st.data), parse), st.readError, handler)
  }

  /** Text after the last newline never reaches the handler. */
  lemma UnterminatedTailIgnored(data: string, tail: string, parse: (Layout, string) -> Result<Time>,
                                handler: Record -> Option<string>)
    requires |data| == 0 || data[|data| - 1] == '\n'
    requires '\n' !in tail
    ensures ConsumeRecords(Opened(data + tail, None), parse, handler)
         == ConsumeRecords(Opened(data, None), parse, handler)
  {
    LinesIgnoreUnterminatedTail(data, tail);
    SameLinesSameRecords(Opened(data + tail, None), Opened(data, None), parse, handler);
  }

  /** The consumer sees a stream only through its complete lines. */
  lemma SameLinesSameRecords(st1: Stream, st2: Stream, parse: (Layout, string) -> Result<Time>,
                             handler: Record -> Option<string>)
    requires st1.Opened? && st2.Opened? && st1.readError == st2.readError
    requires Lines(st1.data) == Lines(st2.data)
    ensures ConsumeRecords(st1, parse, handler) == ConsumeRecords(st2, parse, handler)
  {
  }
}

=== FILE: sorting.dfy ===
/** Ordering vocabulary shared by the comparators of the core, and the one
    sorting algorithm they are sorted with.

    Go's `sort.Interface` asks its `Less` to be a strict weak order.  The
    original program sorts pods and events with `sort.Sort` (not stable) and
    API resources with `sort.Stable`.  A stable insertion sort is modelled
    here; for `sort.Sort` its output is one of the orders the library may
    produce. */
module Sorting {
  import opened Strings

  /** Irreflexive, transitive, and negatively transitive: the contract Go's
      sort package places on `Less`. */
  ghost predicate StrictWeakOrder<T(!new)>(less: (T, T) -> bool) {
    && (forall x :: !less(x, x))
    && (forall x, y, z :: less(x, y) && less(y, z) ==> less(x, z))
    && (forall x, y, z :: less(x, z) ==> less(x, y) || less(y, z))
  }

  /** Neither element sorts before the other. */
  predicate Tied<T>(less: (T, T) -> bool, a: T, b: T) {
    !less(a, b) && !less(b, a)
  }

  /** No element sorts strictly before one that precedes it. */
  predicate Sorted<T>(less: (T, T) -> bool, s: seq<T>) {
    forall i, j | 0 <= i < j < |s| :: !less(s[j], s[i])
  }

  /** Inserts `x` before the first element it sorts strictly before. */
  function Insert<T(!new)>(less: (T, T) -> bool, x: T, s: seq<T>): (r: seq<T>)
    requires StrictWeakOrder(less)
    requires Sorted(less, s)
    ensures Sorted(less, r)
    ensures multiset(r) == multiset(s) + multiset{x}
  {
    if |s| == 0 then [x]
    else if less(x, s[0]) then
      AfterHead(less, x, s);
      SortedCons(less, x, s);
      [x] + s
    else
      var rest := Insert(less, x, s[1..]);
      assert s == [s[0]] + s[1..];
      NotBeforeHead(less, x, s, rest);
      SortedCons(less, s[0], rest);
      [s[0]] + rest
  }

  /** A sorted sequence stays sorted under a head nothing in it sorts before. */
  lemma SortedCons<T>(less: (T, T) -> bool, h: T, t: seq<T>)
    requires Sorted(less, t)
    requires forall k | 0 <= k < |t| :: !less(t[k], h)
    ensures Sorted(less, [h] + t)
  {
    var s := [h] + t;
    forall i, j | 0 <= i < j < |s|
      ensures !less(s[j], s[i])
    {
      assert s[j] == t[j - 1];
      if i > 0 {
        assert s[i] == t[i - 1];
      }
    }
  }

  /** Everything in a sorted sequence sorts strictly after an element that
      sorts strictly before its head. */
  lemma AfterHead<T(!new)>(less: (T, T) -> bool, x: T, s: seq<T>)
    requires StrictWeakOrder(less)
    requires Sorted(less, s)
    requires |s| > 0 && less(x, s[0])
    ensures forall k | 0 <= k < |s| :: less(x, s[k]) && !less(s[k], x)
  {
    forall k | 0 <= k < |s|
      ensures less(x, s[k]) && !less(s[k], x)
    {
      if k > 0 {
        assert !less(s[k], s[0]);
      }
      assert less(x, s[k]);
      assert !less(x, x);
    }
  }

  /** What is left after the head of a sorted sequence, with an element not
      before that head added, holds nothing that sorts before the head. */
  lemma NotBeforeHead<T>(less: (T, T) -> bool, x: T, s: seq<T>, rest: seq<T>)
    requires Sorted(less, s)
    requires |s| > 0 && !less(x, s[0])
    requires multiset(rest) == multiset(s[1..]) + multiset{x}
    ensures forall k | 0 <= k < |rest| :: !less(rest[k], s[0])
  {
    forall k | 0 <= k < |rest|
      ensures !less(rest[k], s[0])
    {
      var y := rest[k];
      assert y in multiset(rest);
      if y != x {
        assert y in multiset(s[1..]);
        var j :| 0 <= j < |s[1..]| && s[1..][j] == y;
        assert s[j + 1] == y;
      }
    }
  }

  /** Stable insertion sort: the input's elements, in order, with ties kept
      in input order. */
  function Sort<T(!new)>(less: (T, T) -> bool, s: seq<T>): (r: seq<T>)
    requires StrictWeakOrder(less)
    ensures Sorted(less, r)
    ensures multiset(r) == multiset(s)
  {
    if |s| == 0 then []
    else
      SplitLast(s);
      Insert(less, s[|s| - 1], Sort(less, s[..|s| - 1]))
  }

  /** The elements of `s` tied with `e`, in their order in `s`. */
  function TiedWith<T>(less: (T, T) -> bool, e: T, s: seq<T>): seq<T>
  {
    if |s| == 0 then []
    else (if Tied(less, s[0], e) then [s[0]] else []) + TiedWith(less, e, s[1..])
  }

  /** Sorting keeps every group of tied elements in input order. */
  ghost predicate Stable<T(!new)>(less: (T, T) -> bool, input: seq<T>, output: seq<T>) {
    forall e :: TiedWith(less, e, output) == TiedWith(less, e, input)
  }

  lemma {:induction false} TiedWithAppend<T>(less: (T, T) -> bool, e: T, a: seq<T>, b: seq<T>)
    ensures TiedWith(less, e, a + b) == TiedWith(less, e, a) + TiedWith(less, e, b)
  {
    if |a| == 0 {
      assert a + b == b;
    } else {
      assert a == [a[0]] + a[1..];
      assert a + b == [a[0]] + (a[1..] + b);
      TiedWithCons(less, e, a[0], a[1..] + b);
      TiedWithCons(less, e, a[0], a[1..]);
      TiedWithAppend(less, e, a[1..], b);
    }
  }

  lemma {:induction false} TiedWithNone<T>(less: (T, T) -> bool, e: T, s: seq<T>)
    requires forall k | 0 <= k < |s| :: !Tied(less, s[k], e)
    ensures TiedWith(less, e, s) == []
  {
    if |s| > 0 {
      TiedWithNone(less, e, s[1..]);
    }
  }

  lemma TiedWithCons<T>(less: (T, T) -> bool, e: T, h: T, t: seq<T>)
    ensures TiedWith(less, e, [h] + t) == (if Tied(less, h, e) then [h] else []) + TiedWith(less, e, t)
  {
    assert ([h] + t)[1..] == t;
  }

  /** In a sorted sequence headed by an element strictly after `x`, every
      element sorts strictly after anything tied with `x`. */
  lemma NoneTiedAfter<T(!new)>(less: (T, T) -> bool, x: T, e: T, s: seq<T>)
    requires StrictWeakOrder(less)
    requires Sorted(less, s)
    requires |s| > 0 && less(x, s[0])
    requires Tied(less, x, e)
    ensures TiedWith(less, e, s) == []
  {
    AfterHead(less, x, s);
    forall k | 0 <= k < |s|
      ensures less(e, s[k])
    {
      assert less(x, s[k]);
    }
    TiedWithNone(less, e, s);
  }

  /** Insertion places `x` after everything already tied with it. */
  lemma {:induction false} InsertTiedWith<T(!new)>(less: (T, T) -> bool, x: T, e: T, s: seq<T>)
    requires StrictWeakOrder(less)
    requires Sorted(less, s)
    ensures TiedWith(less, e, Insert(less, x, s))
         == TiedWith(less, e, s) + (if Tied(less, x, e) then [x] else [])
  {
    var tx: seq<T> := if Tied(less, x, e) then [x] else [];
    if |s| == 0 {
      assert Insert(less, x, s) == [x] + [];
      TiedWithCons(less, e, x, []);
    } else if less(x, s[0]) {
      assert Insert(less, x, s) == [x] + s;
      TiedWithCons(less, e, x, s);
      if Tied(less, x, e) {
        NoneTiedAfter(less, x, e, s);
      }
    } else {
      var rest := Insert(less, x, s[1..]);
      assert Insert(less, x, s) == [s[0]] + rest;
      var th: seq<T> := if Tied(less, s[0], e) then [s[0]] else [];
      TiedWithCons(less, e, s[0], rest);
      InsertTiedWith(less, x, e, s[1..]);
      assert s == [s[0]] + s[1..];
      TiedWithCons(less, e, s[0], s[1..]);
      assert th + (TiedWith(less, e, s[1..]) + tx) == (th + TiedWith(less, e, s[1..])) + tx;
    }
  }

  /** The insertion sort is stable. */
  lemma {:induction false} SortIsStable<T(!new)>(less: (T, T) -> bool, s: seq<T>)
    requires StrictWeakOrder(less)
    ensures Stable(less, s, Sort(less, s))
    decreases |s|
  {
    forall e
      ensures TiedWith(less, e, Sort(less, s)) == TiedWith(less, e, s)
    {
      SortTiedWith(less, e, s);
    }
  }

  lemma {:induction false} SortTiedWith<T(!new)>(less: (T, T) -> bool, e: T, s: seq<T>)
    requires StrictWeakOrder(less)
    ensures TiedWith(less, e, Sort(less, s)) == TiedWith(less, e, s)
    decreases |s|
  {
    if |s| > 0 {
      var init, last := s[..|s| - 1], s[|s| - 1];
      SplitLast(s);
      var tx: seq<T> := if Tied(less, last, e) then [last] else [];
      var sorted := Sort(less, init);
      assert Sort(less, s) == Insert(less, last, sorted);
      SortTiedWith(less, e, init);
      InsertTiedWith(less, last, e, sorted);
      assert TiedWith(less, e, Sort(less, s)) == TiedWith(less, e, init) + tx;
      TiedWithSnoc(less, e, init, last);
    }
  }

  lemma SplitLast<T>(s: seq<T>)
    requires |s| > 0
    ensures s == s[..|s| - 1] + [s[|s| - 1]]
  {
  }

  lemma TiedWithSnoc<T>(less: (T, T) -> bool, e: T, s: seq<T>, last: T)
    ensures TiedWith(less, e, s + [last]) == TiedWith(less, e, s) + (if Tied(less, last, e) then [last] else [])
  {
    TiedWithAppend(less, e, s, [last]);
    TiedWithCons(less, e, last, []);
    assert [last] + [] == [last];
  }

  /** The head of a sorted permutation is an element nothing sorts before. */
  lemma SortedHeadIsMinimal<T(!new)>(less: (T, T) -> bool, s: seq<T>)
    requires StrictWeakOrder(less)
    requires |s| > 0
    ensures Sort(less, s)[0] in s
    ensures forall q | q in s :: !less(q, Sort(less, s)[0])
  {
    var r := Sort(less, s);
    assert |r| == |s| by {
      assert |multiset(r)| == |multiset(s)|;
    }
    assert r[0] in multiset(r);
    forall q | q in s
      ensures !less(q, r[0])
    {
      assert q in multiset(r);
      var k :| 0 <= k < |r| && r[k] == q;
    }
  }

  /** A comparator that orders by an integer key sequence, lexicographically,
      is a strict weak order; elements with equal keys are tied. */
  lemma KeyedOrderIsStrictWeak<T(!new)>(less: (T, T) -> bool, key: T -> seq<int>)
    requires forall a, b :: less(a, b) <==> SeqLess(key(a), key(b))
    ensures StrictWeakOrder(less)
  {
    forall x, y, z
      ensures !less(x, x)
      ensures less(x, y) && less(y, z) ==> less(x, z)
      ensures less(x, z) ==> less(x, y) || less(y, z)
    {
      SeqLessStrictTotal(key(x), key(y), key(z));
      SeqLessStrictTotal(key(y), key(z), key(x));
      SeqLessStrictTotal(key(z), key(x), key(y));
      SeqLessStrictTotal(key(z), key(y), key(x));
      SeqLessStrictTotal(key(y), key(x), key(z));
    }
  }
}

=== FILE: strings.dfy ===
/** The parts of Go's `strings` package the core relies on, over byte strings:
    a single-byte `Split`, `Join`, `Index`, ASCII `TrimSpace`, ASCII
    `EqualFold`, decimal formatting and byte-wise `Compare`. */
module Strings {

  /** Position of the first `c` in `s`, or -1 (Go's `strings.IndexByte`). */
  function IndexOf(s: string, c: char): (i: int)
    ensures -1 <= i < |s|
    ensures i == -1 <==> c !in s
    ensures 0 <= i ==> s[i] == c && c !in s[..i]
  {
    if |s| == 0 then -1
    else if s[0] == c then 0
    else
      var j := IndexOf(s[1..], c);
      if j == -1 then -1
      else
        assert s[..j + 1] == [s[0]] + s[1..][..j];
        j + 1
  }

  /** Go's `strings.Join`: the parts with `sep` between neighbours. */
  function Join(parts: seq<string>, sep: string): string
  {
    if |parts| == 0 then ""
    else if |parts| == 1 then parts[0]
    else parts[0] + sep + Join(parts[1..], sep)
  }

  lemma JoinCons(h: string, t: seq<string>, sep: string)
    requires |t| > 0
    ensures Join([h] + t, sep) == h + sep + Join(t, sep)
  {
    assert ([h] + t)[1..] == t;
  }

  /** Joining four pieces puts the separator between each neighbouring pair. */
  lemma Join4(a: string, b: string, c: string, d: string, sep: string)
    ensures Join([a, b, c, d], sep) == a + sep + b + sep + c + sep + d
  {
    JoinCons(a, [b, c, d], sep);
    JoinCons(b, [c, d], sep);
    JoinCons(c, [d], sep);
    assert [a, b, c, d] == [a] + [b, c, d];
    assert [b, c, d] == [b] + [c, d];
    assert [c, d] == [c] + [d];
  }

  lemma Join3(a: string, b: string, c: string, sep: string)
    ensures Join([a, b, c], sep) == a + sep + b + sep + c
  {
    JoinCons(a, [b, c], sep);
    JoinCons(b, [c], sep);
    assert [a, b, c] == [a] + [b, c];
    assert [b, c] == [b] + [c];
  }

  /** Go's `strings.Split` on a one-byte separator: the maximal
      separator-free pieces, at least one even for the empty string. */
  function Split(s: string, sep: char): (parts: seq<string>)
    ensures |parts| >= 1
    ensures forall k | 0 <= k < |parts| :: sep !in parts[k]
    ensures Join(parts, [sep]) == s
    decreases |s|
  {
    if sep !in s then [s]
    else
      var i := IndexOf(s, sep);
      var rest := Split(s[i + 1..], sep);
      assert ([s[..i]] + rest)[1..] == rest;
      assert s == s[..i] + [sep] + s[i + 1..];
      [s[..i]] + rest
  }

  /** The first separator of `a + [c] + b` is the one after `a`, when `a` has none. */
  lemma {:induction false} IndexOfAfterPrefix(a: string, c: char, b: string)
    requires c !in a
    ensures IndexOf(a + [c] + b, c) == |a|
  {
    if |a| > 0 {
      assert (a + [c] + b)[1..] == a[1..] + [c] + b;
      IndexOfAfterPrefix(a[1..], c, b);
    }
  }

  /** Splitting at a first separator peels off the text before it. */
  lemma SplitCons(first: string, sep: char, rest: string)
    requires sep !in first
    ensures Split(first + [sep] + rest, sep) == [first] + Split(rest, sep)
  {
    var s := first + [sep] + rest;
    IndexOfAfterPrefix(first, sep, rest);
    assert s[..|first|] == first;
    assert s[|first| + 1..] == rest;
  }

  /** Splitting a join of separator-free parts gives the parts back. */
  lemma {:induction false} SplitJoin(parts: seq<string>, sep: char)
    requires |parts| >= 1
    requires forall k | 0 <= k < |parts| :: sep !in parts[k]
    ensures Split(Join(parts, [sep]), sep) == parts
  {
    if |parts| > 1 {
      var tail := Join(parts[1..], [sep]);
      assert Join(parts, [sep]) == parts[0] + [sep] + tail;
      SplitCons(parts[0], sep, tail);
      SplitJoin(parts[1..], sep);
      assert parts == [parts[0]] + parts[1..];
    }
  }

  /** The pieces `Split` on `,` finds in a `", "`-joined list: the first
      part as it is, every later one behind the space of its separator. */
  function SpaceLed(parts: seq<string>): (r: seq<string>)
    ensures |r| == |parts|
    ensures |parts| > 0 ==> r[0] == parts[0]
    ensures forall k | 0 < k < |parts| :: r[k] == " " + parts[k]
  {
    seq(|parts|, k requires 0 <= k < |parts| => if k == 0 then parts[0] else " " + parts[k])
  }

  /** Prefixing the first part prefixes the joined text. */
  lemma JoinPrefixFirst(x: string, parts: seq<string>, sep: string)
    requires |parts| > 0
    ensures Join([x + parts[0]] + parts[1..], sep) == x + Join(parts, sep)
  {
    if |parts| > 1 {
      JoinCons(x + parts[0], parts[1..], sep);
    }
  }

  /** A `", "`-joined list is the `","`-join of its space-led pieces. */
  lemma {:induction false} JoinCommaSpace(parts: seq<string>)
    requires |parts| > 0
    ensures Join(parts, ", ") == Join(SpaceLed(parts), [','])
  {
    if |parts| > 1 {
      var t := parts[1..];
      JoinCommaSpace(t);
      JoinPrefixFirst(" ", SpaceLed(t), [',']);
      assert [" " + SpaceLed(t)[0]] + SpaceLed(t)[1..] == SpaceLed(parts)[1..];
      JoinCons(parts[0], t, ", ");
      assert parts == [parts[0]] + t;
      JoinCons(parts[0], SpaceLed(parts)[1..], [',']);
      assert SpaceLed(parts) == [parts[0]] + SpaceLed(parts)[1..];
    }
  }

  /** Splitting a `", "`-joined list of comma-free parts on `,` gives the
      parts back, each later one led by a space. */
  lemma SplitCommaSpace(parts: seq<string>)
    requires |parts| > 0
    requires forall k | 0 <= k < |parts| :: ',' !in parts[k]
    ensures Split(Join(parts, ", "), ',') == SpaceLed(parts)
  {
    JoinCommaSpace(parts);
    SplitJoin(SpaceLed(parts), ',');
  }

  /** ASCII white space: space, tab, line feed, vertical tab, form feed,
      carriage return. */
  predicate IsSpace(c: char) {
    c == ' ' || 9 <= c as int <= 13
  }

  function TrimLeftSpace(s: string): (r: string)
    ensures |r| <= |s| && r == s[|s| - |r|..]
    ensures |r| > 0 ==> !IsSpace(r[0])
    ensures forall k | 0 <= k < |s| - |r| :: IsSpace(s[k])
  {
    if |s| > 0 && IsSpace(s[0]) then TrimLeftSpace(s[1..]) else s
  }

  function TrimRightSpace(s: string): (r: string)
    ensures |r| <= |s| && r == s[..|r|]
    ensures |r| > 0 ==> !IsSpace(r[|r| - 1])
    ensures forall k | |r| <= k < |s| :: IsSpace(s[k])
  {
    if |s| > 0 && IsSpace(s[|s| - 1]) then TrimRightSpace(s[..|s| - 1]) else s
  }

  /** Go's `strings.TrimSpace`, restricted to ASCII white space. */
  function TrimSpace(s: string): (r: string)
    ensures |r| <= |s|
    ensures |r| > 0 ==> !IsSpace(r[0]) && !IsSpace(r[|r| - 1])
  {
    TrimRightSpace(TrimLeftSpace(s))
  }

  lemma {:induction false} TrimLeftAllSpace(s: string)
    requires forall k | 0 <= k < |s| :: IsSpace(s[k])
    ensures TrimLeftSpace(s) == ""
  {
    if |s| > 0 {
      TrimLeftAllSpace(s[1..]);
    }
  }

  lemma {:induction false} TrimRightAppendedSpace(s: string, tail: string)
    requires |s| > 0 ==> !IsSpace(s[|s| - 1])
    requires forall k | 0 <= k < |tail| :: IsSpace(tail[k])
    ensures TrimRightSpace(s + tail) == s
    decreases |tail|
  {
    if |tail| == 0 {
      assert s + tail == s;
    } else {
      var u := s + tail;
      assert u[..|u| - 1] == s + tail[..|tail| - 1];
      TrimRightAppendedSpace(s, tail[..|tail| - 1]);
    }
  }

  /** Trimming leaves a string without outer white space unchanged, and
      drops white space appended to it. */
  lemma TrimSpaceAppendedSpace(s: string, tail: string)
    requires |s| > 0 ==> !IsSpace(s[0]) && !IsSpace(s[|s| - 1])
    requires forall k | 0 <= k < |tail| :: IsSpace(tail[k])
    ensures TrimSpace(s + tail) == s
  {
    if |s| == 0 {
      assert s + tail == tail;
      TrimLeftAllSpace(tail);
      TrimRightAppendedSpace("", "");
    } else {
      assert TrimLeftSpace(s + tail) == s + tail;
      TrimRightAppendedSpace(s, tail);
    }
  }

  /** ASCII upper-case letters mapped to lower case. */
  function Lower(c: char): (l: char)
    ensures 'A' <= c <= 'Z' ==> l as int == c as int + 32
    ensures !('A' <= c <= 'Z') ==> l == c
  {
    if 'A' <= c <= 'Z' then (c as int + 32) as char else c
  }

  /** Go's `strings.EqualFold`, restricted to ASCII case folding. */
  predicate EqualFold(a: string, b: string) {
    |a| == |b| && forall i | 0 <= i < |a| :: Lower(a[i]) == Lower(b[i])
  }

  /** Case-insensitive equality is an equivalence. */
  lemma EqualFoldEquivalence(a: string, b: string, c: string)
    ensures EqualFold(a, a)
    ensures EqualFold(a, b) ==> EqualFold(b, a)
    ensures EqualFold(a, b) && EqualFold(b, c) ==> EqualFold(a, c)
  {
  }

  function Digit(d: nat): (c: char)
    requires d < 10
    ensures '0' <= c <= '9'
  {
    ('0' as int + d) as char
  }

  /** Decimal text of a natural number, as `%d` prints it. */
  function NatToString(n: nat): (r: string)
    ensures |r| >= 1
    ensures forall k | 0 <= k < |r| :: '0' <= r[k] <= '9'
  {
    if n < 10 then [Digit(n)] else NatToString(n / 10) + [Digit(n % 10)]
  }

  /** Decimal text of an integer, as `%d` prints it. */
  function IntToString(n: int): (r: string)
    ensures |r| >= 1
  {
    if n < 0 then "-" + NatToString(-n) else NatToString(n)
  }

  /** Lexicographic comparison of `a` and `b` from position `i` on; a proper
      prefix comes first. */
  predicate LexFrom(a: seq<int>, b: seq<int>, i: nat)
    decreases |a| - i
  {
    if |a| <= i then i < |b|
    else if |b| <= i then false
    else if a[i] != b[i] then a[i] < b[i]
    else LexFrom(a, b, i + 1)
  }

  /** Lexicographic order on integer sequences. */
  predicate SeqLess(a: seq<int>, b: seq<int>) {
    LexFrom(a, b, 0)
  }

  lemma {:induction false} LexFromIrreflexive(a: seq<int>, i: nat)
    ensures !LexFrom(a, a, i)
    decreases |a| - i
  {
    if i < |a| {
      LexFromIrreflexive(a, i + 1);
    }
  }

  lemma {:induction false} LexFromTransitive(a: seq<int>, b: seq<int>, c: seq<int>, i: nat)
    requires LexFrom(a, b, i) && LexFrom(b, c, i)
    ensures LexFrom(a, c, i)
    decreases |a| - i
  {
    if i < |a| && i < |b| && i < |c| && a[i] == b[i] == c[i] {
      LexFromTransitive(a, b, c, i + 1);
    }
  }

  lemma {:induction false} LexFromTotal(a: seq<int>, b: seq<int>, i: nat)
    requires i <= |a| && i <= |b| && a[..i] == b[..i]
    ensures a == b || LexFrom(a, b, i) || LexFrom(b, a, i)
    decreases |a| - i
  {
    if i == |a| && i == |b| {
      assert a == a[..i] && b == b[..i];
    } else if i < |a| && i < |b| && a[i] == b[i] {
      assert a[..i + 1] == a[..i] + [a[i]] && b[..i + 1] == b[..i] + [b[i]];
      LexFromTotal(a, b, i + 1);
    }
  }

  /** Lexicographic order is a strict total order. */
  lemma SeqLessStrictTotal(a: seq<int>, b: seq<int>, c: seq<int>)
    ensures !SeqLess(a, a)
    ensures SeqLess(a, b) && SeqLess(b, c) ==> SeqLess(a, c)
    ensures a == b || SeqLess(a, b) || SeqLess(b, a)
  {
    LexFromIrreflexive(a, 0);
    if SeqLess(a, b) && SeqLess(b, c) {
      LexFromTransitive(a, b, c, 0);
    }
    LexFromTotal(a, b, 0);
  }

  /** The byte values of a string. */
  function Ords(s: string): (r: seq<int>)
    ensures |r| == |s|
    ensures forall k | 0 <= k < |s| :: r[k] == s[k] as int
  {
    seq(|s|, k requires 0 <= k < |s| => s[k] as int)
  }

  lemma OrdsInjective(a: string, b: string)
    requires Ords(a) == Ords(b)
    ensures a == b
  {
    assert forall k | 0 <= k < |a| :: a[k] as int == Ords(a)[k] == Ords(b)[k] == b[k] as int;
  }

  /** Byte-wise lexicographic order on strings, as Go compares strings. */
  predicate StrLess(a: string, b: string) {
    SeqLess(Ords(a), Ords(b))
  }

  /** String order is a strict total order. */
  lemma StrLessStrictTotal(a: string, b: string, c: string)
    ensures !StrLess(a, a)
    ensures StrLess(a, b) && StrLess(b, c) ==> StrLess(a, c)
    ensures a == b || StrLess(a, b) || StrLess(b, a)
  {
    SeqLessStrictTotal(Ords(a), Ords(b), Ords(c));
    if Ords(a) == Ords(b) {
      OrdsInjective(a, b);
    }
  }

  /** Go's `strings.Compare`: -1, 0 or +1. */
  function Compare(a: string, b: string): (r: int)
    ensures r == 0 <==> a == b
    ensures r < 0 <==> StrLess(a, b)
    ensures r > 0 <==> StrLess(b, a)
  {
    StrLessStrictTotal(a, b, a);
    StrLessStrictTotal(b, a, b);
    if a == b then 0 else if StrLess(a, b) then -1 else 1
  }
}
